=== FILE: README.md ===
# llmring registry — a Dafny model of the registry pipeline

The llmring registry keeps one JSON catalogue per LLM provider (OpenAI,
Anthropic, Google) with each model's prices, limits and capability flags.
Catalogues are produced by a pipeline:

- **extract** asks an LLM to read the provider's pricing documents. It
  accumulates the models the LLM reports, keeps the paid ones and keys them
  as `provider:model_id`. It then writes a normalised draft file.
- **review** compares a draft with the current catalogue (models added,
  removed, changed field by field) and can replay that difference.
- **promote** spot-checks the newest draft of each provider and bumps its
  version. It stamps the draft with a timestamp and a content hash,
  publishes it, records it in the manifest and reports which providers
  succeeded and which failed.
- **list** and **validate** read the published files. `list` prints prices
  and a total. `validate` runs structural checks on every model and aborts
  when any provider fails.
- Two maintenance scripts patch published files. One fills in the
  capability fields and applies per-family overrides. The other flags the
  configured reasoning models.

This project models those steps over an explicit JSON value type (`Json`).
Python's exceptions become `None` results. `dict.get`, truthiness and `==`
between `1`, `1.0` and `True` are written out. Each function of the source
that works by updating a copy in a loop is modelled as a Dafny method with
that loop. The method is proved equal to a specification function, and the
source's promises are proved as lemmas about that function:

- round trips (a diff replayed onto the catalogue reproduces the draft);
- idempotence (metadata normalisation and both patch scripts; model normalisation is proved not idempotent);
- what each branch of each override sets;
- the partition of promoted providers into succeeded and failed;
- exact "raises iff" characterisations of the error paths of model and
  draft normalisation, the schema report, the production check, the
  manifest update, the review patch, the paid-model filter and mapping,
  the document loop, one provider's extraction, both patch scripts, and
  the `validate` and `list` commands. Metadata normalisation is
  characterised by the kind of input (unreadable `sources`, non-numeric
  counts, integer counts), not by a single "iff".

Modules, one file each:

- `wrappers.dfy`: `Option`.
- `strings.dfy`: prefix and suffix tests, `str.strip`, `lower()` on ASCII,
  code-point ordering and sorting.
- `sets.dfy`: cardinality of subsets.
- `json.dfy`: the value type and Python's semantics on it.
- `schema_utils.dfy`: `src/registry/schema_utils.py`.
- `review.dfy`: `_generate_diff` and `_apply_diff` of
  `src/registry/review.py`. A `Diff` is the `{"added", "removed",
  "changed"}` dict the diff builds: the added and the removed records by
  model key, and, per shared key, each changed field's old and new value.
- `document_parser.dfy`: the deterministic part of
  `src/registry/document_parser.py`.
- `extract.dfy`: `src/registry/extract.py`.
- `promote.dfy`: `src/registry/promote.py`. Its `Stored` is a JSON file
  as a command sees it: missing, present but not openable or decodable as
  text, present but not JSON, or loaded with its value. The other modules
  use it too.
- `capabilities.dfy`: `update_registry_capabilities.py`.
- `reasoning_models.dfy`: `update_reasoning_models.py`.
- `cli.dfy`: the `list` and `validate` commands of
  `src/registry/__main__.py`.

Some inputs are opaque to the model and are passed in as parameters:

- the file system (a `Stored` value per file, and listings as sets of
  names);
- the LLM's answers;
- `float()` and `int()` on strings (a `Parsers` value);
- modification times;
- the content hash;
- the clock;
- the insertion order of dicts, where it matters.

## Model

| member | source | states |
|---|---|---|
| SchemaUtils.RunPass | src/registry/schema_utils.py:25-125 | one field-list loop of normalize_model_data computes the pass specification `Pass`: each listed field is rewritten by its group's rule; a failing coercion makes the whole call raise |
| SchemaUtils.PassFailureSticks | src/registry/schema_utils.py:115-125 | once a coercion in the loop has raised, the whole pass raises whatever the later fields are |
| SchemaUtils.PassSlots | src/registry/schema_utils.py:25-125 | over distinct field names, a pass succeeds iff no field's coercion fails; afterwards every listed field holds its group's rewrite of its original value and every other key is untouched |
| SchemaUtils.FieldsDistinct | src/registry/schema_utils.py:25-115 | each of the five field lists names each field once |
| SchemaUtils.ListsDisjoint | src/registry/schema_utils.py:25-115 | the five field lists are pairwise disjoint, so the passes never overwrite each other's fields |
| SchemaUtils.GroupOfSpec | src/registry/schema_utils.py:25-115 | a field belongs to a group's list iff `GroupOf` names that group |
| SchemaUtils.NormalizeModelData | src/registry/schema_utils.py:12-127 | the method (copy, then five passes in source order) computes `Normalize`, None exactly where Python raises |
| SchemaUtils.NormalizeSucceeds | src/registry/schema_utils.py:115-125 | normalisation raises only through the float()/int() coercions: it succeeds iff every present non-None optional numeric field converts |
| SchemaUtils.NormalizeSlotAt | src/registry/schema_utils.py:12-127 | on success each key holds the per-field normalisation of its original value, independently of every other key |
| SchemaUtils.NormalizeKeepsOtherKeys | src/registry/schema_utils.py:22 | a key outside all five lists keeps its presence and its value |
| SchemaUtils.NormalizeArrayFields | src/registry/schema_utils.py:25-36 | model_aliases and recommended_use_cases always end as lists: None becomes `[]`, a truthy non-list `x` becomes `[x]`, a falsy non-list `[]`, a list is kept |
| SchemaUtils.NormalizeTemperatureValues | src/registry/schema_utils.py:28-33 | a temperature_values that is None (or absent) stays None instead of becoming a list |
| SchemaUtils.NormalizeBooleanFields | src/registry/schema_utils.py:60-96 | every boolean field ends as a bool: `bool(x)` of the value present, otherwise True for supports_streaming, is_active, supports_temperature, supports_system_message and supports_tool_choice and False for the rest |
| SchemaUtils.NormalizeOptionalStrings | src/registry/schema_utils.py:39-57 | `""` becomes None; a None description becomes `""`; every other value and absence are kept |
| SchemaUtils.DescriptionAlternates | src/registry/schema_utils.py:51-57 | normalisation is not idempotent: `{"description": ""}` gives description None, and normalising that again gives `""` |
| SchemaUtils.NormalizeNumericFields | src/registry/schema_utils.py:99-112 | a None price becomes 0.0 and a None token count 0; absent stays absent; any other value is kept |
| SchemaUtils.NormalizeRaises | src/registry/schema_utils.py:115-125 | normalisation raises iff some present, non-None optional numeric field fails float() (int() for max_tools) |
| SchemaUtils.NormalizeOptionalNumerics | src/registry/schema_utils.py:115-125 | optional numerics keep presence and None; otherwise they hold the float() value, or the int() value for max_tools |
| SchemaUtils.PreserveCounts | src/registry/schema_utils.py:158-161 | the preservation loop copies every listed count that `sources` holds over the defaults, and raises iff `sources` is not a container or is a non-dict that holds a listed key |
| SchemaUtils.NormalizeExtractionMetadata | src/registry/schema_utils.py:130-181 | the method computes `ExtractionMetadata`: defaults, preserved counts, the legacy screenshot count as png_files, the positive total as documents; None where Python raises |
| SchemaUtils.StandardFor | src/registry/schema_utils.py:158-166 | the preserved counts with the legacy screenshot count in place of png_files; None iff a lookup in `sources` raises |
| SchemaUtils.TotalDocuments | src/registry/schema_utils.py:171-177 | the documents count becomes png + pdf + md when that sum is positive; the addition raises on non-numbers |
| SchemaUtils.MetadataShape | src/registry/schema_utils.py:130-181 | the draft keeps every other key and value; `sources` becomes a dict with exactly the five standard keys |
| SchemaUtils.MetadataCounts | src/registry/schema_utils.py:150-179 | each output count is the preserved count (screenshot winning over png_files); documents is their total when positive and the preserved value otherwise |
| SchemaUtils.MetadataCountsKept | src/registry/schema_utils.py:150-165 | png_files (screenshot first), pdf_files, md_files and models_extracted take the stored count or its default |
| SchemaUtils.MetadataDocuments | src/registry/schema_utils.py:171-177 | on success the three counts are numbers; documents equals their sum when positive and the preserved value otherwise |
| SchemaUtils.StandardSourcesKept | src/registry/schema_utils.py:150-165 | the standard counts before totalling, each expressed as "stored count or default" |
| SchemaUtils.FinalSourcesAt | src/registry/schema_utils.py:171-177 | totalling changes only documents |
| SchemaUtils.MetadataUnreadable | src/registry/schema_utils.py:158-165 | `sources` of a type on which `in` or indexing raises makes the call raise |
| SchemaUtils.MetadataNonNumeric | src/registry/schema_utils.py:171-174 | a non-numeric png, pdf or md count makes the call raise |
| SchemaUtils.MetadataIntCounts | src/registry/schema_utils.py:130-181 | readable sources with integer (or bool) counts never raise |
| SchemaUtils.MetadataRaises | src/registry/schema_utils.py:130-181 | combines the three error-path lemmas above |
| SchemaUtils.NormalizedSourcesStable | src/registry/schema_utils.py:150-179 | normalising an already normalised `sources` block changes nothing |
| SchemaUtils.MetadataIdempotent | src/registry/schema_utils.py:130-181 | normalize_extraction_metadata is idempotent |
| SchemaUtils.ValidateRequiredFields | src/registry/schema_utils.py:184-208 | the loop computes the missing-field list in the order of the required list |
| SchemaUtils.MissingFieldsEmpty | src/registry/schema_utils.py:200-206 | the list is empty iff no field is reported; it is no longer than the field list; every absent field is reported |
| SchemaUtils.RequiredFieldsValid | src/registry/schema_utils.py:191-206 | no field is missing iff all six required fields are present and the non-nullable ones are not None; at most six are reported |
| SchemaUtils.NormalizeModels | src/registry/schema_utils.py:227-231 | the models loop replaces every entry by its normalisation; it raises iff some entry is not a dict or fails to normalise |
| SchemaUtils.NormalizeDraftFile | src/registry/schema_utils.py:211-233 | the method computes `DraftNormalized`: metadata first, then every model when `models` is a dict |
| SchemaUtils.DraftModels | src/registry/schema_utils.py:211-233 | the normalised draft has the same model keys, each holding normalize_model_data of the original record |
| SchemaUtils.DraftRaises | src/registry/schema_utils.py:211-233 | the draft raises iff the metadata step raises or some model cannot be normalised |
| SchemaUtils.CheckFields | src/registry/schema_utils.py:258-274 | the loop over one field list produces exactly the field issues of that check, in list order |
| SchemaUtils.CheckModel | src/registry/schema_utils.py:249-289 | the per-model checks (required, array, boolean, null-count, price) compute `IssuesOf`, None where a price comparison raises |
| SchemaUtils.CollectIssues | src/registry/schema_utils.py:249-289 | over all models: succeeds iff every model is checkable; lists one entry per model with issues, with exactly its issues, and no more entries than models |
| SchemaUtils.ComplianceRateBounds | src/registry/schema_utils.py:294 | the compliance rate lies in [0, 1]; it is 1 iff no model has issues and 0 iff all have |
| SchemaUtils.GenerateSchemaReport | src/registry/schema_utils.py:236-296 | the report counts every model, counts the models with issues exactly as the issue list, and derives the rate from those counts; None iff some model raises |
| SchemaUtils.FieldIssuesEmpty | src/registry/schema_utils.py:258-274 | a field check reports nothing iff every field passes it |
| SchemaUtils.IssuesOfRaises | src/registry/schema_utils.py:277-282 | the report raises on a model iff one of its prices is neither None nor a number |
| SchemaUtils.IssuesOfClean | src/registry/schema_utils.py:249-289 | a model has no issues iff required fields are present, arrays are lists or None, booleans are bools or None, counts are not None and both prices are None or positive |
| SchemaUtils.IssuesOfReportsPrices | src/registry/schema_utils.py:277-282 | a present price `<= 0` is always reported |
| Review.CompareFields | src/registry/review.py:41-48 | the field loop computes `FieldChanges`: every field of either record whose values differ under Python's `==`, except `_confidence` |
| Review.GenerateDiff | src/registry/review.py:30-50 | the method computes `DiffOf` (added, removed, changed), None where a non-dict value makes Python raise |
| Review.FieldChangesSpec | src/registry/review.py:42-46 | a field is reported iff it is not `_confidence` and its `.get` values differ; the report holds both values; a field absent on one side and None on the other is not a change |
| Review.DiffPartition | src/registry/review.py:34-48 | added = draft-only keys with their draft records; removed = current-only keys with their current records; changed ⊆ shared keys, never empty; the three are disjoint |
| Review.DiffSelf | src/registry/review.py:30-50 | a catalogue compared with itself yields the empty diff |
| Review.RemoveModels | src/registry/review.py:55-56 | popping the removed keys deletes exactly them |
| Review.AddModels | src/registry/review.py:57-58 | the added records overwrite or extend the catalogue |
| Review.WriteNewValues | src/registry/review.py:61-62 | each changed field takes its new value and nothing else changes |
| Review.PatchModels | src/registry/review.py:59-63 | the changed-model loop succeeds iff every changed entry is a dict (or absent); it then computes `Patched` |
| Review.ApplyDiff | src/registry/review.py:53-66 | the method computes `Applied`, None where Python raises |
| Review.ApplyKeepsTopLevel | src/registry/review.py:64-66 | replaying a diff touches only `models`; every other top-level key and value is kept |
| Review.ApplyEmpty | src/registry/review.py:53-66 | replaying the empty diff returns the catalogue unchanged |
| Review.RoundTripKeys | src/registry/review.py:30-66 | replaying the diff of (current, draft) onto current succeeds and yields exactly the draft's model keys, with the draft's record for each new model |
| Review.RoundTripFields | src/registry/review.py:30-66 | for a model in both: every field except `_confidence` equals the draft's under `==`; `_confidence` keeps its current value; no current field disappears |
| DocumentParser.UnfencedText | src/registry/document_parser.py:232-245 | text that does not start with a fence is only stripped of whitespace |
| DocumentParser.FencesResultStripped | src/registry/document_parser.py:232-245 | the result never has leading or trailing whitespace |
| DocumentParser.FenceRoundTrip | src/registry/document_parser.py:235-239 | wrapping a body in a json fence and unwrapping it gives the stripped body |
| DocumentParser.JsonFenceIsFence | src/registry/document_parser.py:235-240 | a json fence is also a plain fence, so the order of the two tests matters |
| DocumentParser.Unfence | src/registry/document_parser.py:235-239 | a json fence loses its 7-character opener, then its closing fence if present |
| DocumentParser.FencedIsStripped | src/registry/document_parser.py:234 | a fenced answer has no surrounding whitespace |
| DocumentParser.ClosingFenceDropped | src/registry/document_parser.py:237-238 | `text[:-3]` removes exactly the closing fence |
| DocumentParser.ChatWithTimeout | src/registry/document_parser.py:203-230 | at most two attempts; the first answer is returned at once; a rate-limit error is not retried; a second attempt happens iff the first timed out or raised any other error, and its outcome is final |
| DocumentParser.FailedDocumentKeeps | src/registry/document_parser.py:267-357 | a missing document or a failed call (not rescued by the resize retry) leaves the accumulated models unchanged |
| DocumentParser.ProcessedResult | src/registry/document_parser.py:267-357 | one document yields either the previous models, a non-empty answer, or an empty list |
| DocumentParser.AccumulateNeverErases | src/registry/document_parser.py:527-539 | a non-empty accumulation is never replaced by an empty answer |
| DocumentParser.ProcessDocumentRaises | src/registry/document_parser.py:247-357 | processing a document raises exactly when the chat answered and the answer is neither a parsed payload nor JSON text, or is truthy without a length (a number, `true`), so that counting its models with `len()` raises |
| DocumentParser.NumericAnswerRaises | src/registry/document_parser.py:352-355 | an answer parsed as a non-zero integer makes the document, and a loop over it alone, raise |
| DocumentParser.AccumulateRaises | src/registry/document_parser.py:527-539 | the document loop raises exactly when some document's answer is not JSON or is truthy without a length, whatever was accumulated before |
| DocumentParser.AccumulateAllEmpty | src/registry/document_parser.py:537-539 | documents that all answer with empty lists leave the accumulation as it was |
| DocumentParser.AccumulateModels | src/registry/document_parser.py:527-539 | the document loop computes `Accumulate` starting from `[]`, including its raises: an answer that is not JSON, or is truthy without a length |
| DocumentParser.TallySum | src/registry/document_parser.py:512-516 | the per-extension counts add up to the number of documents |
| DocumentParser.TallyKeys | src/registry/document_parser.py:512-516 | an extension is counted iff some document has it |
| DocumentParser.CountDocTypes | src/registry/document_parser.py:512-516 | the loop computes `Tally` over the lower-cased suffixes |
| DocumentParser.KeepSpec | src/registry/document_parser.py:387-403 | a record is kept iff both prices are positive numbers; missing, None and 0 count as 0; comparable prices never raise |
| DocumentParser.PaidModelsSpec | src/registry/document_parser.py:384-405 | the filter returns a subsequence (order kept) of paid records, containing every paid record |
| DocumentParser.PaidModelsRaises | src/registry/document_parser.py:384-405 | the filter raises iff some record is not a dict or has a price `<=` cannot compare |
| DocumentParser.FilterPaidModels | src/registry/document_parser.py:384-405 | the loop computes `PaidModels` |
| DocumentParser.MapModelDefaults | src/registry/document_parser.py:420-489 | the fallbacks of the conversion: id from model_name, display name from the id, empty description, zero input tokens, wrapped aliases, streaming and active default True, vision and reasoning default False |
| DocumentParser.PaidMapsPositive | src/registry/document_parser.py:407-494 | a paid record converts to a model with positive prices, and is skipped only when a price does not convert to float |
| DocumentParser.MappedModelsSpec | src/registry/document_parser.py:417-494 | every converted model comes from some record; every record that converts is included; no more models than records |
| DocumentParser.MapValidModels | src/registry/document_parser.py:417-494 | the conversion loop computes `MappedModels`, skipping records whose conversion raises |
| DocumentParser.MapAllModels | src/registry/document_parser.py:407-495 | filter then convert computes `MapModels` |
| DocumentParser.MapModelsPaid | src/registry/document_parser.py:407-495 | every returned model has positive input and output prices; no more models than records |
| DocumentParser.ParseProviderDocsAsync | src/registry/document_parser.py:497-553 | computes `ParseProviderDocs` and the per-extension document tally |
| DocumentParser.ParseProviderDocsRaises | src/registry/document_parser.py:497-553 | parsing a provider's documents raises exactly when the document loop raises (some answer is not JSON or is truthy without a length), the final accumulation is not a list, or mapping that list raises |
| DocumentParser.ExtractedModelsPaid | src/registry/document_parser.py:497-553 | every model the extraction returns has positive prices |
| Extract.RegistryDictFields | src/registry/extract.py:17-50 | the registry record carries the provider, the id as model_name, the deprecation date and both prices; identity fields win over copied ones |
| Extract.TableKeys | src/registry/extract.py:53-60 | a key is in the keyed table iff some model produces it |
| Extract.TableLastWins | src/registry/extract.py:53-60 | for a repeated key the last model with that key wins |
| Extract.TableSize | src/registry/extract.py:53-60 | the table has no more entries than models |
| Extract.ScreenshotModelsToKeyed | src/registry/extract.py:53-60 | the loop computes `Keyed`: models without a truthy id are skipped |
| Extract.KeyedSpec | src/registry/extract.py:53-60 | keys are exactly `provider:str(id)` of the models with a truthy id, each mapped to the record of the last such model |
| Extract.KeyedRecords | src/registry/extract.py:17-60 | every keyed record names its provider, has a truthy model_name, and its key is `provider:model_name` |
| Extract.ApplyAnthropicOverride | src/registry/extract.py:120-124 | the loop computes `AnthropicOverride` |
| Extract.AnthropicOverrideSpec | src/registry/extract.py:120-124 | for anthropic every record gets function calling, JSON schema and JSON mode set to True and nothing else changes; other providers are untouched |
| Extract.TypeCountsBounded | src/registry/extract.py:129-131 | the png, pdf and md counts add up to at most the number of documents |
| Extract.ExtractProvider | src/registry/extract.py:91-155 | the documents are exactly the `.png`/`.pdf`/`.md` entries, sorted strictly; the outcome is `ExtractFrom` of them |
| Extract.DraftCounts | src/registry/extract.py:127-144 | the draft records the number of documents, type counts within it, and the number of keyed models |
| Extract.ExtractedDraft | src/registry/extract.py:91-155 | no draft is written iff no model was keyed; a written draft holds exactly the keyed models, all keyed `provider:…` |
| Extract.DraftMetadataSucceeds | src/registry/extract.py:127-148 | the draft's source counts are integers, so normalising its metadata never raises |
| Extract.DraftOfRaises | src/registry/extract.py:127-148 | normalising the draft raises exactly when normalising one of its keyed models raises |
| Extract.ExtractFromRaises | src/registry/extract.py:91-155 | one provider's extraction raises exactly when parsing its documents raises (an answer that is not JSON or has no length, a final accumulation that is not a list, a record mapping that raises) or normalising one of its keyed models raises |
| Promote.MissingRequiredSpec | src/registry/promote.py:46-48 | a model passes iff `in` finds every required field |
| Promote.SpotCheckSpec | src/registry/promote.py:45-48 | the spot check passes iff every checked model passes |
| Promote.ProductionCheckSpec | src/registry/promote.py:41-48 | a draft passes iff it has a models dict and each of the first five entries holds model_name and provider |
| Promote.SpotCheckedEntries | src/registry/promote.py:45 | over the dict's own key order, the spot check looks at min(5, number of models) distinct models of the dict, the first ones in that order |
| Promote.LaterEntriesIgnored | src/registry/promote.py:45 | changing or adding an entry beyond the first five never changes the verdict |
| Promote.ValidateForProduction | src/registry/promote.py:41-48 | the loop computes `ProductionCheck` with the first failing model and field |
| Promote.CurrentVersion | src/registry/promote.py:30-38 | a missing or unreadable file or an absent version gives 0; an integer version is returned as is |
| Promote.StampedSpec | src/registry/promote.py:147-149 | the stamped draft gains exactly version, updated_at and the hash field; all other keys are kept |
| Promote.Stamp | src/registry/promote.py:147-149 | computes `Stamped` |
| Promote.SetDefault | src/registry/promote.py:58-63 | `setdefault` always leaves the key present and changes nothing when it was there |
| Promote.ManifestFailure | src/registry/promote.py:51-65 | the manifest update raises iff the loaded manifest, its providers table or the provider's entry is not a dict |
| Promote.ManifestEntry | src/registry/promote.py:58-61 | the provider's entry records the new version and today's date |
| Promote.ManifestOtherProviders | src/registry/promote.py:58-61 | other providers' entries are untouched |
| Promote.ManifestTopLevel | src/registry/promote.py:58-63 | top-level keys are kept; only schema_version and updated_at are added when missing |
| Promote.ManifestReset | src/registry/promote.py:52-57 | a missing or unreadable manifest is rebuilt with only this provider |
| Promote.UpdateManifest | src/registry/promote.py:51-65 | computes `ManifestUpdated` |
| Promote.DraftsOf | src/registry/promote.py:125 | the drafts considered are exactly the `{prov}.*.draft.json` names |
| Promote.NewestSpec | src/registry/promote.py:125-131 | the chosen draft has the greatest mtime; on ties the earliest listed wins |
| Promote.UndatedDraftDiscovered | src/registry/promote.py:108-111 | `prov.draft.json` makes `prov` a provider to promote |
| Promote.UndatedDraftIgnored | src/registry/promote.py:125-129 | but the same file never matches the provider's draft glob, so that provider fails |
| Promote.PromotionSpec | src/registry/promote.py:123-188 | a provider publishes iff its newest draft passes the check; a failure leaves the manifest unchanged; the published version is the current version + 1 |
| Promote.ManifestFailureAfterPublish | src/registry/promote.py:143-188 | a manifest that is not a dict fails the provider after its files were written |
| Promote.RunPartition | src/registry/promote.py:120-188 | successful and failed together are exactly the providers tried, as a multiset |
| Promote.RunDisjoint | src/registry/promote.py:120-188 | with distinct providers, none is both successful and failed |
| Promote.RecordedLast | src/registry/promote.py:143-184 | a successful promotion is recorded in the manifest with its new version |
| Promote.RecordedKept | src/registry/promote.py:123-188 | a recorded provider stays recorded while other providers are promoted |
| Promote.RunSuccess | src/registry/promote.py:123-188 | every successful provider ends published at current version + 1 and recorded with that version in the final manifest |
| Promote.PromoteOne | src/registry/promote.py:124-188 | the loop body computes `PromotionOf` |
| Promote.RunStep | src/registry/promote.py:120-188 | one more provider extends the report by that provider's outcome, seen with the manifest the earlier ones left |
| Promote.PromoteAll | src/registry/promote.py:108-188 | one named provider, or the discovered providers in sorted order; the report is `Run` over them |
| Capabilities.FillDefaults | update_registry_capabilities.py:31-35 | fills in every default key the model lacks, keeping present values |
| Capabilities.ApplyRule | update_registry_capabilities.py:38-67 | one conditional `update` overwrites with its settings when its test holds |
| Capabilities.UpdateOpenAIModel | update_registry_capabilities.py:27-69 | computes `UpdatedRecord` for openai |
| Capabilities.UpdateAnthropicModel | update_registry_capabilities.py:71-93 | computes `UpdatedRecord` for anthropic |
| Capabilities.UpdateGoogleModel | update_registry_capabilities.py:95-121 | computes `UpdatedRecord` for google |
| Capabilities.NameUntouched | update_registry_capabilities.py:11-121 | neither the defaults nor any override touch model_name |
| Capabilities.DefaultsOnlyWhenMissing | update_registry_capabilities.py:31-35 | a present value survives unless an override names it; a missing default key gets the default; an override always wins |
| Capabilities.UnknownProviderDefaultsOnly | update_registry_capabilities.py:141-152 | an unknown provider only gets the defaults |
| Capabilities.OpenAIResult | update_registry_capabilities.py:27-69 | the result is defaults, then the record, then the name's overrides |
| Capabilities.O1Final | update_registry_capabilities.py:38-46 | an o1 (not gpt-5) model ends with the o1 settings |
| Capabilities.Gpt5Final | update_registry_capabilities.py:49-54 | a gpt-5 model (not gpt-4/3.5) ends with the gpt-5 settings |
| Capabilities.Gpt4Final | update_registry_capabilities.py:57-61 | a gpt-4 model ends with the gpt-4 settings |
| Capabilities.Gpt35Final | update_registry_capabilities.py:64-67 | a gpt-3.5 model ends with the gpt-3.5 settings |
| Capabilities.Gpt35TemperatureValues | update_registry_capabilities.py:49-67 | a gpt-3.5 name keeps its default temperature_values unless it also matches gpt-5 |
| Capabilities.AnthropicFinal | update_registry_capabilities.py:81-89 | every anthropic model ends with the Anthropic settings |
| Capabilities.AnthropicPdf | update_registry_capabilities.py:90-91 | PDF input is on for claude-3 names and otherwise keeps the default-filled value |
| Capabilities.GoogleResult | update_registry_capabilities.py:95-121 | the result is defaults, then the record, then the name's overrides |
| Capabilities.GoogleFinal | update_registry_capabilities.py:105-108 | every google model ends with the Google settings |
| Capabilities.GeminiFinal | update_registry_capabilities.py:111-113 | a gemini name ends with the gemini settings |
| Capabilities.GeminiPdfFinal | update_registry_capabilities.py:116-119 | the PDF-capable gemini names end with PDF input on |
| Capabilities.UpdatedRecordIdempotent | update_registry_capabilities.py:27-121 | patching a patched record again changes nothing |
| Capabilities.UpdatedModelIdempotent | update_registry_capabilities.py:138-160 | the same holds for the per-model dispatch, errors included |
| Capabilities.UpdatedModels | update_registry_capabilities.py:138-160 | the model table keeps its keys |
| Capabilities.UpdateModel | update_registry_capabilities.py:141-152 | the dispatch on provider computes `UpdatedModel` |
| Capabilities.UpdateModels | update_registry_capabilities.py:138-160 | the loop raises iff some model raises; otherwise it yields every patched model and counts exactly the models that changed under `!=` |
| Capabilities.ProgressStep | update_registry_capabilities.py:138-160 | the loop invariant survives one model |
| Capabilities.ProgressEnd | update_registry_capabilities.py:138-160 | at the end of the loop the table and the count are the specified ones |
| Capabilities.UpdateRegistryFile | update_registry_capabilities.py:123-166 | computes `RegistryUpdate` for one file |
| Capabilities.UpdatedCountBounded | update_registry_capabilities.py:158-159 | the reported count is at most the number of models |
| Capabilities.RegistryUpdateIdempotent | update_registry_capabilities.py:123-166 | patching a patched file again changes nothing and reports 0 updates |
| ReasoningModels.ConfigSeries | update_reasoning_models.py:9-38 | every configured name is an o1, o3 or gpt-5 name and a reasoning model; gpt-5 names get 2000 tokens and the others 5000 |
| ReasoningModels.NotGpt5 | update_reasoning_models.py:9-38 | a name starting with `o` is never a gpt-5 name |
| ReasoningModels.ModelNameFromKey | update_reasoning_models.py:53-55 | with a colon in the key, the name is what follows the first colon |
| ReasoningModels.ModelNameFromRecord | update_reasoning_models.py:56-57 | without one, the name is the record's model_name or `""`, and a non-dict record raises |
| ReasoningModels.ConfiguredEntry | update_reasoning_models.py:59-73 | a configured model gains is_reasoning_model and min_recommended_reasoning_tokens from the config, keeps everything else, and is counted |
| ReasoningModels.UnconfiguredEntry | update_reasoning_models.py:59 | any other model is left alone and not counted |
| ReasoningModels.CountedIffConfigured | update_reasoning_models.py:59-73 | a model is counted iff its name is configured |
| ReasoningModels.EntryUpdateRaises | update_reasoning_models.py:53-73 | one entry raises exactly when its name cannot be read (a non-dict under a key without a colon), the name is unhashable, or the name is configured but the entry is not a dict |
| ReasoningModels.UpdatedModels | update_reasoning_models.py:52-73 | the model table keeps its keys |
| ReasoningModels.NoModelsNotWritten | update_reasoning_models.py:47-49 | a file without `models` is not written |
| ReasoningModels.ReasoningUpdateRaises | update_reasoning_models.py:40-73 | a file raises exactly when `models` is present but not a dict, or some entry raises, or the file holds no dict and `in` raises or finds `models` in it |
| ReasoningModels.UpdatesMadeBounded | update_reasoning_models.py:51-80 | the reported count is at most the number of models |
| ReasoningModels.NamePreserved | update_reasoning_models.py:53-67 | the update never changes the name a model is looked up by |
| ReasoningModels.EntryIdempotent | update_reasoning_models.py:59-73 | updating an updated entry again changes nothing |
| ReasoningModels.ReasoningUpdateIdempotent | update_reasoning_models.py:40-80 | running the script twice writes the same file and reports the same count |
| ReasoningModels.UpdateModel | update_reasoning_models.py:53-73 | the loop body computes `EntryUpdate` |
| ReasoningModels.ProgressStep | update_reasoning_models.py:52-73 | the loop invariant survives one model |
| ReasoningModels.ProgressEnd | update_reasoning_models.py:52-73 | at the end of the loop the table and the count are the specified ones |
| ReasoningModels.UpdateJsonFile | update_reasoning_models.py:40-80 | computes `ReasoningUpdate` for one file |
| Cli.Providers | src/registry/__main__.py:184-186 | one named provider, or all three for "all" |
| Cli.ValuesInOrderSpec | src/registry/__main__.py:200-202 | a value is listed iff some key of the given order maps to it in the dict |
| Cli.ValuesInOrderPresent | src/registry/__main__.py:200-202 | over an order of present keys, the `i`-th listed value is the value of the `i`-th key |
| Cli.ValuesInOrderOfKeys | src/registry/__main__.py:200-202 | over the dict's own key order (every key once), the list has one item per entry, the `i`-th being the value of the `i`-th key |
| Cli.ModelList | src/registry/__main__.py:200-204 | a dict gives its values; anything else is used as it is |
| Cli.DictModelsAllListed | src/registry/__main__.py:200-202 | over the dict's own key order, the list has as many items as the dict has models, and every model is in it |
| Cli.CollectSpec | src/registry/__main__.py:292-322 | an error is collected iff some field's check produces it |
| Cli.CollectErrors | src/registry/__main__.py:292-322 | the field loop computes `Collect` |
| Cli.RecordErrorsSpec | src/registry/__main__.py:290-322 | a record's errors are exactly: missing required fields, non-numeric or negative numeric fields, non-bool boolean fields |
| Cli.RequiredErrors | src/registry/__main__.py:292-296 | missing model_name or provider, and nothing else |
| Cli.NumericErrors | src/registry/__main__.py:298-311 | a present non-None value that is not a number, or a negative number |
| Cli.BoolErrors | src/registry/__main__.py:313-322 | a present value that is not a bool |
| Cli.NullAndZeroAccepted | src/registry/__main__.py:305-311 | None and 0 are accepted for numeric fields |
| Cli.RecordValidIff | src/registry/__main__.py:290-322 | a record has no errors iff required fields are present, numeric fields are None or non-negative numbers, and boolean fields are bools |
| Cli.NonDictNeverReported | src/registry/__main__.py:289-326 | a non-dict model either raises or reports no errors (a list or a string) |
| Cli.ValidateModel | src/registry/__main__.py:290-326 | computes `ModelErrors`, None where a check raises |
| Cli.FailuresSpec | src/registry/__main__.py:288-326 | a failure `(i, errs)` is reported iff model `i` has the non-empty error list `errs` |
| Cli.FailuresOrdered | src/registry/__main__.py:289 | failures are reported in model order, by valid indices |
| Cli.FailuresRaises | src/registry/__main__.py:289-325 | the model loop raises exactly when the checks of some model raise |
| Cli.ValidateModels | src/registry/__main__.py:288-326 | the model loop computes `Failures` |
| Cli.MissingModelsIsError | src/registry/__main__.py:274-277 | a file without `models` is an error |
| Cli.CheckedFailsIff | src/registry/__main__.py:279-333 | a checked provider fails iff some model has errors |
| Cli.ValidateProvider | src/registry/__main__.py:258-335 | computes `CheckProvider` for one provider |
| Cli.CheckProviderRaises | src/registry/__main__.py:258-325 | one provider raises exactly when its file cannot be opened or decoded as text, the loaded value is not a container, it holds `models` but is not a dict, or its model list cannot be enumerated or one model raises; a file that is not JSON is reported, not raised |
| Cli.AnyFailedSpec | src/registry/__main__.py:256-335 | the flag is set iff some provider failed |
| Cli.AbortIff | src/registry/__main__.py:244-340 | validate aborts iff the directory exists and some checked provider failed |
| Cli.AnyFailedRaises | src/registry/__main__.py:256-335 | the provider loop raises exactly when some provider raises |
| Cli.ValidateRaises | src/registry/__main__.py:244-340 | validate raises exactly when the directory exists and some selected provider raises |
| Cli.UnreadableFileRaises | src/registry/__main__.py:264-270 | a selected file that cannot be opened or decoded as text ends validate with a traceback, since only a JSON decoding error is caught |
| Cli.Validate | src/registry/__main__.py:244-340 | the provider loop computes `ValidateCommand` |
| Cli.PricingIffBothPrices | src/registry/__main__.py:215-225 | a model gets a pricing line iff both prices are not None, showing those two prices |
| Cli.HugePriceRaises | src/registry/__main__.py:220-223 | a price that is an int too large for a double makes the line raise, since `:.2f` cannot format it |
| Cli.ListLines | src/registry/__main__.py:215-225 | one line per model |
| Cli.ListLinesSpec | src/registry/__main__.py:215-225 | line `i` is the line of model `i` |
| Cli.ListLinesRaises | src/registry/__main__.py:215-225 | the lines of a model list raise exactly when the line of some model raises |
| Cli.ListTotalCountsLines | src/registry/__main__.py:209-227 | the total counts exactly the listed models |
| Cli.ListTextRaises | src/registry/__main__.py:191-227 | the text listing raises exactly when some provider's file cannot be read or is not JSON, or listing it raises |
| Cli.ListEach | src/registry/__main__.py:191-227 | the provider loop computes `ListText` |
| Cli.ListModels | src/registry/__main__.py:173-232 | `list` in text mode: the missing-directory message alone when there is no models directory, otherwise the total or "No models found" after the provider loop (`ListCommand`) |
| Cli.JsonModelsSpec | src/registry/__main__.py:206-207 | the JSON mode collects, for every present provider file, its model list |
| Cli.JsonModelsRaises | src/registry/__main__.py:191-207 | collecting `all_models` raises exactly when some provider's file cannot be read, is not JSON, or is not a dict |
| Cli.ListJsonHidesModels | src/registry/__main__.py:206-207 | as written, with a models directory, `list --json` on a file with one model prints only "No models found" |
| Cli.ListJsonDumpsModels | src/registry/__main__.py:206-207 | with a models directory, the corrected JSON mode outputs every present provider's model list |
| Cli.TextSummary | src/registry/__main__.py:177-232 | text mode without a models directory gives only the missing-directory message; with one it ends with the total (the number of model lines) when there are models and "No models found" otherwise |
| Cli.ListCommandRaises | src/registry/__main__.py:173-232 | list raises exactly when the directory exists and some selected provider raises, in either mode |
| Cli.NoDirectoryEitherMode | src/registry/__main__.py:177-182 | without a models directory both modes, as written and corrected, give only the missing-directory message |

## Left out

- The LLM calls and the prompts are not modelled. Each chat attempt's outcome and the parsed answer are inputs.
- Image resizing, file sizes and the intermediate-result files of the extraction are not modelled.
- Reading and writing files, globbing, directory creation, source archiving and draft deletion are left out. A file is `Missing`, `Unreadable` (cannot be opened or decoded as text), `NotJson` or `Loaded(value)`. Whether the models directory exists is a boolean parameter of `list` and `validate`.
- Files that are written are part of the result. Failures of those writes are not modelled.
- The SHA-256 of the canonical JSON, the clock and file modification times are parameters.
- Console output is not modelled, except the messages that are the commands' outcome.
- Dict iteration order is not modelled. Where the source depends on it (the first five entries, the order of listed models), the insertion order is an explicit parameter.
- `str.lower()` is modelled on ASCII letters only.
- `float()` and `int()` on strings are abstract parsers.
- Floats are exact reals, so rounding is not modelled. The one overflow that is modelled is converting an integer too large for a double, which raises: in `float()` and in the `:.2f` formatting of `list`.
- `str()` of a model id is a `render` parameter.
- Python sorts strings by code point. The model sorts the same way (`LexLess`).
- The `main()` functions of both scripts, the CLI wiring, and the `export`, `sources` and `review` command bodies are not modelled. From `review`, only `_generate_diff` and `_apply_diff` are modelled.
- `src/registry/validate.py`, `normalize.py`, `extract_with_llm.py`, `export_cmd.py`, `sources_cmd.py` and `sources_info.py` are not part of this model.
- SchemaUtils.CollectIssues: models are visited in an arbitrary order, so the issue list is specified as a set of entries, not in the dict's order.
- Promote.NewestSpec: Python's sort is stable, so among drafts with equal mtimes the first listed wins. The model proves this for a given listing order, but the order of the glob itself is a parameter.
- A document whose answer is not JSON, or is truthy without a length (a number, `true`) so that `len()` of it raises, makes the whole provider's extraction raise, as the code does (no handler surrounds the parse or the count).

## Findings

| source | as written | input that shows it | evidently intended | confidence | as-written member | corrected member |
|---|---|---|---|---|---|---|
| src/registry/__main__.py:206-207 | with `--json`, every provider's models are collected into `all_models`, which is never output; the total stays 0, so the command prints "No models found" | an `openai.json` whose `models` holds one record | `list --json` prints the collected models as JSON | not executed | Cli.ListJsonHidesModels | Cli.ListJsonDumpsModels |

=== FILE: capabilities.dfy ===
/**
 * The capability patch applied to production registry files: default
 * capability fields filled in where missing, then per-provider and
 * per-model-name overrides, and the count of models the patch changed.
 */
module Capabilities {
  import opened Wrappers
  import opened Json
  import opened Strings
  import Sets

  /** `get_default_capabilities()`. */
  const DEFAULT_CAPABILITIES: Record := map[
    "supports_temperature" := Bool(true),
    "supports_system_message" := Bool(true),
    "supports_pdf_input" := Bool(false),
    "api_endpoint" := Str("chat"),
    "requires_flat_input" := Bool(false),
    "temperature_values" := Null,
    "max_temperature" := Null,
    "min_temperature" := Null,
    "max_tools" := Null,
    "supports_tool_choice" := Bool(true),
    "tool_call_format" := Null
  ]

  /** What an OpenAI o1 reasoning model is set to. */
  const O1_SETTINGS: Record := map[
    "supports_temperature" := Bool(false),
    "temperature_values" := List([Real(1.0)]),
    "supports_streaming" := Bool(false),
    "supports_function_calling" := Bool(false),
    "supports_tool_choice" := Bool(false),
    "max_tools" := Int(0),
    "api_endpoint" := Str("chat"),
    "is_reasoning_model" := Bool(true)
  ]

  /** What a GPT-5 model is set to: fixed temperature, the Responses API, no tools. */
  const GPT5_SETTINGS: Record := map[
    "supports_temperature" := Bool(false),
    "temperature_values" := List([Real(1.0)]),
    "api_endpoint" := Str("responses"),
    "supports_function_calling" := Bool(false),
    "max_tools" := Int(0)
  ]

  const GPT4_SETTINGS: Record := map[
    "supports_temperature" := Bool(true),
    "temperature_values" := Null,
    "min_temperature" := Real(0.0),
    "max_temperature" := Real(2.0)
  ]

  const GPT35_SETTINGS: Record := map[
    "supports_temperature" := Bool(true),
    "min_temperature" := Real(0.0),
    "max_temperature" := Real(2.0)
  ]

  const ANTHROPIC_SETTINGS: Record := map[
    "supports_temperature" := Bool(true),
    "min_temperature" := Real(0.0),
    "max_temperature" := Real(1.0),
    "tool_call_format" := Str("anthropic")
  ]

  const CLAUDE3_SETTINGS: Record := map["supports_pdf_input" := Bool(true)]

  const GOOGLE_SETTINGS: Record := map[
    "supports_temperature" := Bool(true),
    "min_temperature" := Real(0.0),
    "max_temperature" := Real(2.0)
  ]

  const GEMINI_SETTINGS: Record := map[
    "api_endpoint" := Str("generateContent"),
    "tool_call_format" := Str("google")
  ]

  const GEMINI_PDF_SETTINGS: Record := map["supports_pdf_input" := Bool(true)]

  /** `settings` when `cond` holds, nothing otherwise. */
  function If(cond: bool, settings: Record): Record
  {
    if cond then settings else map[]
  }

  // ---------------------------------------------------------------------
  // Name tests
  // ---------------------------------------------------------------------

  predicate IsO1(name: string)
  {
    StartsWith(name, "o1-") || name == "o1"
  }

  predicate IsGpt5(name: string)
  {
    StartsWith(name, "gpt-5") || Contains(Lower(name), "gpt-5")
  }

  predicate IsGpt4(name: string)
  {
    StartsWith(name, "gpt-4")
  }

  predicate IsGpt35(name: string)
  {
    StartsWith(name, "gpt-3.5")
  }

  predicate IsGemini(name: string)
  {
    Contains(Lower(name), "gemini")
  }

  predicate IsGeminiPdf(name: string)
  {
    Contains(Lower(name), "gemini-pro") || Contains(Lower(name), "gemini-1.5") || Contains(Lower(name), "gemini-2")
  }

  // ---------------------------------------------------------------------
  // The per-provider updates
  // ---------------------------------------------------------------------

  /** The overrides `update_openai_model` writes, later rules winning. */
  function OpenAISettings(name: string): Record
  {
    If(IsO1(name), O1_SETTINGS) + If(IsGpt5(name), GPT5_SETTINGS) +
    If(IsGpt4(name), GPT4_SETTINGS) + If(IsGpt35(name), GPT35_SETTINGS)
  }

  /** `update_anthropic_model`'s overrides; None where `"claude-3" in model_name` raises. */
  function AnthropicSettings(name: Value): Option<Record>
  {
    match PyIn("claude-3", name)
    case None => None
    case Some(claude3) => Some(ANTHROPIC_SETTINGS + If(claude3, CLAUDE3_SETTINGS))
  }

  function GoogleSettings(name: string): Record
  {
    GOOGLE_SETTINGS + If(IsGemini(name), GEMINI_SETTINGS) + If(IsGeminiPdf(name), GEMINI_PDF_SETTINGS)
  }

  /** The model name the updates look at: `model_data.get("model_name", "")`. */
  function NameOf(model: Record): Value
  {
    GetOr(model, "model_name", Str(""))
  }

  /**
   * The overrides a provider's update writes after the defaults; None where
   * it raises (a name that is not a string, or not a container for Anthropic).
   * Unknown providers get no overrides.
   */
  function Settings(provider: Value, model: Record): Option<Record>
  {
    var name := NameOf(model);
    if provider == Str("openai") then (if name.Str? then Some(OpenAISettings(name.s)) else None)
    else if provider == Str("anthropic") then AnthropicSettings(name)
    else if provider == Str("google") then (if name.Str? then Some(GoogleSettings(name.s)) else None)
    else Some(map[])
  }

  /** A dict model after its provider's update: defaults where missing, then the overrides. */
  function UpdatedRecord(provider: Value, model: Record): Option<Record>
  {
    match Settings(provider, model)
    case None => None
    case Some(s) => Some((DEFAULT_CAPABILITIES + model) + s)
  }

  /** Holds when `provider` has its own update function. */
  predicate KnownProvider(provider: Value)
  {
    provider == Str("openai") || provider == Str("anthropic") || provider == Str("google")
  }

  /**
   * One entry of `models` after the loop body: a dict is updated; a list
   * survives only for an unknown provider and only if it already contains
   * every default key (otherwise `.get` or item assignment raises); anything
   * else has no `.copy()`.
   */
  function UpdatedModel(provider: Value, model: Value): Option<Value>
  {
    match model
    case Obj(m) => (match UpdatedRecord(provider, m) case None => None case Some(r) => Some(Obj(r)))
    case List(xs) =>
      if !KnownProvider(provider) && forall k :: k in DEFAULT_CAPABILITIES ==> Str(k) in xs then Some(model) else None
    case _ => None
  }

  /** The default-filling loop of the update functions. */
  method FillDefaults(model: Record, defaults: Record) returns (r: Record)
    ensures r == defaults + model
  {
    r := model;
    var rest := defaults.Keys;
    while rest != {}
      invariant rest <= defaults.Keys
      invariant r.Keys == model.Keys + (defaults.Keys - rest)
      invariant forall k :: k in r ==> r[k] == if k in model then model[k] else defaults[k]
      decreases rest
    {
      var key :| key in rest;
      if key !in r {
        r := r[key := defaults[key]];
      }
      rest := rest - {key};
    }
  }

  /** One `if cond:` block of assignments of constant values. */
  method ApplyRule(m: Record, cond: bool, settings: Record) returns (r: Record)
    ensures r == m + If(cond, settings)
  {
    r := m;
    if cond {
      r := r + settings;
    } else {
      assert m + map[] == m;
    }
  }

  /** `update_openai_model`. */
  method UpdateOpenAIModel(model: Record) returns (r: Option<Record>)
    ensures r == UpdatedRecord(Str("openai"), model)
  {
    var name := NameOf(model);
    var m := FillDefaults(model, DEFAULT_CAPABILITIES);
    if !name.Str? {
      return None;
    }
    m := ApplyRule(m, IsO1(name.s), O1_SETTINGS);
    m := ApplyRule(m, IsGpt5(name.s), GPT5_SETTINGS);
    m := ApplyRule(m, IsGpt4(name.s), GPT4_SETTINGS);
    m := ApplyRule(m, IsGpt35(name.s), GPT35_SETTINGS);
    OverlayAssociates(DEFAULT_CAPABILITIES + model, If(IsO1(name.s), O1_SETTINGS), If(IsGpt5(name.s), GPT5_SETTINGS),
      If(IsGpt4(name.s), GPT4_SETTINGS), If(IsGpt35(name.s), GPT35_SETTINGS));
    r := Some(m);
  }

  /** Overlaying four maps one after the other is overlaying their union. */
  lemma OverlayAssociates(m: Record, a: Record, b: Record, c: Record, d: Record)
    ensures (((m + a) + b) + c) + d == m + (a + b + c + d)
  {
  }

  lemma OverlayAssociates2(m: Record, a: Record, b: Record)
    ensures (m + a) + b == m + (a + b)
  {
  }

  lemma OverlayAssociates3(m: Record, a: Record, b: Record, c: Record)
    ensures ((m + a) + b) + c == m + (a + b + c)
  {
  }

  /** `update_anthropic_model`. */
  method UpdateAnthropicModel(model: Record) returns (r: Option<Record>)
    ensures r == UpdatedRecord(Str("anthropic"), model)
  {
    var name := NameOf(model);
    var m := FillDefaults(model, DEFAULT_CAPABILITIES);
    m := m + ANTHROPIC_SETTINGS;
    var claude3 := PyIn("claude-3", name);
    if claude3.None? {
      return None;
    }
    m := ApplyRule(m, claude3.value, CLAUDE3_SETTINGS);
    OverlayAssociates2(DEFAULT_CAPABILITIES + model, ANTHROPIC_SETTINGS, If(claude3.value, CLAUDE3_SETTINGS));
    r := Some(m);
  }

  /** `update_google_model`. */
  method UpdateGoogleModel(model: Record) returns (r: Option<Record>)
    ensures r == UpdatedRecord(Str("google"), model)
  {
    var name := NameOf(model);
    var m := FillDefaults(model, DEFAULT_CAPABILITIES);
    m := m + GOOGLE_SETTINGS;
    if !name.Str? {
      return None;
    }
    m := ApplyRule(m, IsGemini(name.s), GEMINI_SETTINGS);
    m := ApplyRule(m, IsGeminiPdf(name.s), GEMINI_PDF_SETTINGS);
    OverlayAssociates3(DEFAULT_CAPABILITIES + model, GOOGLE_SETTINGS, If(IsGemini(name.s), GEMINI_SETTINGS),
      If(IsGeminiPdf(name.s), GEMINI_PDF_SETTINGS));
    r := Some(m);
  }

  // ---------------------------------------------------------------------
  // Properties of one update
  // ---------------------------------------------------------------------

  /** No default and no override touches the model name. */
  lemma NameUntouched(provider: Value, model: Record)
    requires Settings(provider, model).Some?
    ensures "model_name" !in DEFAULT_CAPABILITIES && "model_name" !in Settings(provider, model).value
  {
    var name := NameOf(model);
    if provider == Str("openai") {
      OpenAINameUntouched(name.s);
    } else if provider == Str("google") {
      GoogleNameUntouched(name.s);
    }
  }

  lemma OpenAINameUntouched(name: string)
    ensures "model_name" !in OpenAISettings(name)
  {
    assert "model_name" !in O1_SETTINGS && "model_name" !in GPT5_SETTINGS;
    assert "model_name" !in GPT4_SETTINGS && "model_name" !in GPT35_SETTINGS;
  }

  lemma GoogleNameUntouched(name: string)
    ensures "model_name" !in GoogleSettings(name)
  {
    assert "model_name" !in GOOGLE_SETTINGS && "model_name" !in GEMINI_SETTINGS && "model_name" !in GEMINI_PDF_SETTINGS;
  }

  /**
   * Defaults only fill in missing keys: a field the model has keeps its
   * value unless the provider's overrides write it; every default key is
   * present afterwards.
   */
  lemma DefaultsOnlyWhenMissing(provider: Value, model: Record, k: string)
    requires UpdatedRecord(provider, model).Some?
    ensures var r := UpdatedRecord(provider, model).value;
      && (k in model && k !in Settings(provider, model).value ==> k in r && r[k] == model[k])
      && (k !in model && k in DEFAULT_CAPABILITIES && k !in Settings(provider, model).value ==> k in r && r[k] == DEFAULT_CAPABILITIES[k])
      && (k in Settings(provider, model).value ==> k in r && r[k] == Settings(provider, model).value[k])
      && (k in r <==> k in model || k in DEFAULT_CAPABILITIES || k in Settings(provider, model).value)
  {
    var s := Settings(provider, model).value;
    assert UpdatedRecord(provider, model).value == (DEFAULT_CAPABILITIES + model) + s;
  }

  /** Unknown providers get the defaults and nothing else. */
  lemma UnknownProviderDefaultsOnly(provider: Value, model: Record)
    requires !KnownProvider(provider)
    ensures UpdatedRecord(provider, model) == Some(DEFAULT_CAPABILITIES + model)
  {
    assert (DEFAULT_CAPABILITIES + model) + map[] == DEFAULT_CAPABILITIES + model;
  }

  /** An o1 name never carries a GPT-4 or GPT-3.5 prefix. */
  lemma O1NotGpt(name: string)
    requires IsO1(name)
    ensures !IsGpt4(name) && !IsGpt35(name)
  {
    assert name[0] == 'o';
  }

  /** GPT-4 and GPT-3.5 prefixes exclude each other. */
  lemma GptPrefixesDisjoint(name: string)
    ensures !(IsGpt4(name) && IsGpt35(name))
  {
    if IsGpt4(name) {
      assert name[4] == '4';
    }
  }

  /** The OpenAI result of a string-named model is the defaults-filled model overlaid with the rules that fire. */
  lemma OpenAIResult(model: Record)
    requires NameOf(model).Str?
    ensures UpdatedRecord(Str("openai"), model) == Some((DEFAULT_CAPABILITIES + model) + OpenAISettings(NameOf(model).s))
  {
  }

  /** o1 models (whose name does not also mention gpt-5) end with every o1 setting. */
  lemma O1Final(model: Record, k: string)
    requires NameOf(model).Str? && IsO1(NameOf(model).s) && !IsGpt5(NameOf(model).s)
    requires k in O1_SETTINGS
    ensures UpdatedRecord(Str("openai"), model).Some?
    ensures UpdatedRecord(Str("openai"), model).value[k] == O1_SETTINGS[k]
  {
    var name := NameOf(model).s;
    O1NotGpt(name);
    OpenAIResult(model);
    assert OpenAISettings(name) == O1_SETTINGS + map[] + map[] + map[];
    assert O1_SETTINGS + map[] + map[] + map[] == O1_SETTINGS;
  }

  /** GPT-5 models without a GPT-4 or GPT-3.5 prefix end with every GPT-5 setting. */
  lemma Gpt5Final(model: Record, k: string)
    requires NameOf(model).Str? && IsGpt5(NameOf(model).s)
    requires !IsGpt4(NameOf(model).s) && !IsGpt35(NameOf(model).s)
    requires k in GPT5_SETTINGS
    ensures UpdatedRecord(Str("openai"), model).Some?
    ensures UpdatedRecord(Str("openai"), model).value[k] == GPT5_SETTINGS[k]
  {
    var name := NameOf(model).s;
    OpenAIResult(model);
    assert OpenAISettings(name) == If(IsO1(name), O1_SETTINGS) + GPT5_SETTINGS + map[] + map[];
  }

  /** A GPT-4 prefix wins over every earlier rule: all temperatures allowed, range 0.0 to 2.0. */
  lemma Gpt4Final(model: Record, k: string)
    requires NameOf(model).Str? && IsGpt4(NameOf(model).s)
    requires k in GPT4_SETTINGS
    ensures UpdatedRecord(Str("openai"), model).Some?
    ensures UpdatedRecord(Str("openai"), model).value[k] == GPT4_SETTINGS[k]
  {
    var name := NameOf(model).s;
    GptPrefixesDisjoint(name);
    OpenAIResult(model);
    assert OpenAISettings(name) == If(IsO1(name), O1_SETTINGS) + If(IsGpt5(name), GPT5_SETTINGS) + GPT4_SETTINGS + map[];
  }

  /** A GPT-3.5 prefix sets temperature support and range... */
  lemma Gpt35Final(model: Record, k: string)
    requires NameOf(model).Str? && IsGpt35(NameOf(model).s)
    requires k in GPT35_SETTINGS
    ensures UpdatedRecord(Str("openai"), model).Some?
    ensures UpdatedRecord(Str("openai"), model).value[k] == GPT35_SETTINGS[k]
  {
    OpenAIResult(model);
  }

  /** ...but leaves temperature_values to the earlier rules: [1.0] for a GPT-5 name, the model's or the default otherwise. */
  lemma Gpt35TemperatureValues(model: Record)
    requires NameOf(model).Str? && IsGpt35(NameOf(model).s)
    ensures UpdatedRecord(Str("openai"), model).Some?
    ensures UpdatedRecord(Str("openai"), model).value["temperature_values"] ==
      if IsGpt5(NameOf(model).s) then List([Real(1.0)]) else (DEFAULT_CAPABILITIES + model)["temperature_values"]
  {
    var name := NameOf(model).s;
    GptPrefixesDisjoint(name);
    if IsO1(name) {
      O1NotGpt(name);
    }
    OpenAIResult(model);
    assert OpenAISettings(name) == map[] + If(IsGpt5(name), GPT5_SETTINGS) + map[] + GPT35_SETTINGS;
    assert "temperature_values" !in GPT35_SETTINGS;
  }

  /** Anthropic models support temperature in 0.0 to 1.0 and use the Anthropic tool format. */
  lemma AnthropicFinal(model: Record, k: string)
    requires UpdatedRecord(Str("anthropic"), model).Some?
    requires k in ANTHROPIC_SETTINGS
    ensures UpdatedRecord(Str("anthropic"), model).value[k] == ANTHROPIC_SETTINGS[k]
  {
    assert "supports_pdf_input" !in ANTHROPIC_SETTINGS;
    assert k !in CLAUDE3_SETTINGS;
    var claude3 := PyIn("claude-3", NameOf(model)).value;
    var s := ANTHROPIC_SETTINGS + If(claude3, CLAUDE3_SETTINGS);
    assert UpdatedRecord(Str("anthropic"), model) == Some((DEFAULT_CAPABILITIES + model) + s);
    MergeLeft(ANTHROPIC_SETTINGS, If(claude3, CLAUDE3_SETTINGS), k);
    MergeRight(DEFAULT_CAPABILITIES + model, s, k);
  }

  /** Anthropic models accept PDFs when "claude-3" is in the name, and otherwise keep what they had. */
  lemma AnthropicPdf(model: Record)
    requires UpdatedRecord(Str("anthropic"), model).Some?
    ensures var r := UpdatedRecord(Str("anthropic"), model).value;
      && (PyIn("claude-3", NameOf(model)) == Some(true) ==> r["supports_pdf_input"] == Bool(true))
      && (PyIn("claude-3", NameOf(model)) == Some(false) ==>
            r["supports_pdf_input"] == (DEFAULT_CAPABILITIES + model)["supports_pdf_input"])
  {
    var k := "supports_pdf_input";
    var base := DEFAULT_CAPABILITIES + model;
    assert k in DEFAULT_CAPABILITIES && k !in ANTHROPIC_SETTINGS;
    var claude3 := PyIn("claude-3", NameOf(model)).value;
    var s := ANTHROPIC_SETTINGS + If(claude3, CLAUDE3_SETTINGS);
    assert UpdatedRecord(Str("anthropic"), model) == Some(base + s);
    if claude3 {
      assert k in CLAUDE3_SETTINGS && CLAUDE3_SETTINGS[k] == Bool(true);
      MergeRight(ANTHROPIC_SETTINGS, CLAUDE3_SETTINGS, k);
      MergeRight(base, s, k);
    } else {
      assert s == ANTHROPIC_SETTINGS + map[];
      MergeLeft(base, s, k);
    }
  }

  /** The Google result of a string-named model. */
  lemma GoogleResult(model: Record)
    requires NameOf(model).Str?
    ensures UpdatedRecord(Str("google"), model) == Some((DEFAULT_CAPABILITIES + model) + GoogleSettings(NameOf(model).s))
  {
  }

  /** Google models support temperature in 0.0 to 2.0. */
  lemma GoogleFinal(model: Record, k: string)
    requires NameOf(model).Str?
    requires k in GOOGLE_SETTINGS
    ensures UpdatedRecord(Str("google"), model).Some?
    ensures UpdatedRecord(Str("google"), model).value[k] == GOOGLE_SETTINGS[k]
  {
    GoogleResult(model);
    GoogleSettingsBase(NameOf(model).s, k);
  }

  lemma GoogleSettingsBase(name: string, k: string)
    requires k in GOOGLE_SETTINGS
    ensures k in GoogleSettings(name) && GoogleSettings(name)[k] == GOOGLE_SETTINGS[k]
  {
    assert k !in GEMINI_SETTINGS && k !in GEMINI_PDF_SETTINGS;
  }

  /** Gemini names get the generateContent endpoint and the Google tool format. */
  lemma GeminiFinal(model: Record, k: string)
    requires NameOf(model).Str? && IsGemini(NameOf(model).s)
    requires k in GEMINI_SETTINGS
    ensures UpdatedRecord(Str("google"), model).Some?
    ensures UpdatedRecord(Str("google"), model).value[k] == GEMINI_SETTINGS[k]
  {
    GoogleResult(model);
    assert k !in GEMINI_PDF_SETTINGS;
  }

  /** Gemini Pro, 1.5 and 2 names accept PDFs. */
  lemma GeminiPdfFinal(model: Record)
    requires NameOf(model).Str? && IsGeminiPdf(NameOf(model).s)
    ensures UpdatedRecord(Str("google"), model).Some?
    ensures UpdatedRecord(Str("google"), model).value["supports_pdf_input"] == Bool(true)
  {
    GoogleResult(model);
  }

  /** Overlaying the defaults under a map that has them all, and the same overrides twice, change nothing. */
  lemma OverlayAbsorbs(d: Record, x: Record, s: Record)
    requires d.Keys <= x.Keys
    ensures d + (x + s) == x + s
    ensures (x + s) + s == x + s
  {
  }

  /** Each update depends only on the name and writes constants, so applying it twice equals applying it once. */
  lemma UpdatedRecordIdempotent(provider: Value, model: Record)
    requires UpdatedRecord(provider, model).Some?
    ensures UpdatedRecord(provider, UpdatedRecord(provider, model).value) == UpdatedRecord(provider, model)
  {
    var s := Settings(provider, model).value;
    var r := UpdatedRecord(provider, model).value;
    NameUntouched(provider, model);
    assert NameOf(r) == NameOf(model);
    assert Settings(provider, r) == Settings(provider, model);
    OverlayAbsorbs(DEFAULT_CAPABILITIES, DEFAULT_CAPABILITIES + model, s);
  }

  lemma UpdatedModelIdempotent(provider: Value, model: Value)
    requires UpdatedModel(provider, model).Some?
    ensures UpdatedModel(provider, UpdatedModel(provider, model).value) == UpdatedModel(provider, model)
  {
    if model.Obj? {
      UpdatedRecordIdempotent(provider, model.fields);
    }
  }

  // ---------------------------------------------------------------------
  // update_registry_file
  // ---------------------------------------------------------------------

  /** The keys of the models the loop changed, by Python's `!=`. */
  function ChangedKeys(models: map<string, Value>, updated: map<string, Value>, keys: set<string>): set<string>
    requires keys <= models.Keys && keys <= updated.Keys
  {
    set k | k in keys && !PyEq(models[k], updated[k])
  }

  /** The loop body as a function of the model value. */
  function Updater(provider: Value): Value -> Option<Value>
  {
    (v: Value) => UpdatedModel(provider, v)
  }

  /** Every entry of `models` updates without raising. */
  predicate AllUpdate(update: Value -> Option<Value>, models: map<string, Value>)
  {
    forall k :: k in models ==> update(models[k]).Some?
  }

  function UpdatedModels(update: Value -> Option<Value>, models: map<string, Value>): (r: map<string, Value>)
    requires AllUpdate(update, models)
    ensures r.Keys == models.Keys
  {
    map k | k in models :: update(models[k]).value
  }

  /** What `update_registry_file` writes back and its `updated_count`. */
  datatype FileUpdate = FileUpdate(data: Record, updatedCount: nat)

  /**
   * `update_registry_file` on a loaded file: None where it raises (the file
   * is not a dict, its models are not a dict, or some model's update raises).
   */
  function RegistryUpdate(data: Value): Option<FileUpdate>
  {
    if !data.Obj? then None
    else
      var provider := GetOr(data.fields, "provider", Str(""));
      var models := GetOr(data.fields, "models", Obj(map[]));
      if !models.Obj? || !AllUpdate(Updater(provider), models.fields) then None
      else
        var updated := UpdatedModels(Updater(provider), models.fields);
        Some(FileUpdate(
          if "models" in data.fields then data.fields["models" := Obj(updated)] else data.fields,
          |ChangedKeys(models.fields, updated, models.fields.Keys)|))
  }

  /** The body of the loop in `update_registry_file` for one model. */
  method UpdateModel(provider: Value, modelData: Value) returns (next: Option<Value>)
    ensures next == UpdatedModel(provider, modelData)
  {
    if !modelData.Obj? {
      return UpdatedModel(provider, modelData);
    }
    var updatedRecord: Option<Record>;
    if provider == Str("openai") {
      updatedRecord := UpdateOpenAIModel(modelData.fields);
    } else if provider == Str("anthropic") {
      updatedRecord := UpdateAnthropicModel(modelData.fields);
    } else if provider == Str("google") {
      updatedRecord := UpdateGoogleModel(modelData.fields);
    } else {
      var filled := FillDefaults(modelData.fields, DEFAULT_CAPABILITIES);
      UnknownProviderDefaultsOnly(provider, modelData.fields);
      updatedRecord := Some(filled);
    }
    next := if updatedRecord.Some? then Some(Obj(updatedRecord.value)) else None;
  }

  /** `update_registry_file` on a loaded file: the loop over its models, then the models written back. */
  method UpdateRegistryFile(data: Value) returns (r: Option<FileUpdate>)
    ensures r == RegistryUpdate(data)
  {
    if !data.Obj? {
      return None;
    }
    var provider := GetOr(data.fields, "provider", Str(""));
    var modelsValue := GetOr(data.fields, "models", Obj(map[]));
    if !modelsValue.Obj? {
      return None;
    }
    var outcome := UpdateModels(Updater(provider), modelsValue.fields);
    if outcome.None? {
      return None;
    }
    var (models, updatedCount) := outcome.value;
    r := Some(FileUpdate(if "models" in data.fields then data.fields["models" := Obj(models)] else data.fields, updatedCount));
  }

  /**
   * The loop of `update_registry_file`: every model is replaced by its update
   * (`update` is the provider's update, `Updater(provider)`) and the models
   * that differ afterwards are counted; None where an update raises.
   */
  method UpdateModels(update: Value -> Option<Value>, original: map<string, Value>) returns (r: Option<(map<string, Value>, nat)>)
    ensures r.None? <==> !AllUpdate(update, original)
    ensures r.Some? ==>
      r.value.0 == UpdatedModels(update, original) &&
      r.value.1 == |ChangedKeys(original, r.value.0, original.Keys)|
  {
    var models := original;
    var updatedCount := 0;
    var rest := original.Keys;
    ProgressStart(update, original);
    while rest != {}
      invariant rest <= original.Keys
      invariant Progress(update, original, models, original.Keys - rest, updatedCount)
      decreases rest
    {
      var key :| key in rest;
      var modelData := original[key];
      var next := update(modelData);
      if next.None? {
        return None;
      }
      ProgressStep(update, original, models, original.Keys - rest, updatedCount, key, next.value);
      models := models[key := next.value];
      if !PyEq(modelData, next.value) {
        updatedCount := updatedCount + 1;
      }
      assert original.Keys - (rest - {key}) == (original.Keys - rest) + {key};
      rest := rest - {key};
    }
    assert original.Keys - rest == original.Keys;
    ProgressEnd(update, original, models, updatedCount);
    r := Some((models, updatedCount));
  }

  /**
   * The loop invariant of `update_registry_file`: the models in `done` hold
   * their updated value, the others their original one, and `count` is the
   * number of changed models so far.
   */
  ghost predicate Progress(update: Value -> Option<Value>, original: map<string, Value>, models: map<string, Value>, done: set<string>, count: int)
  {
    && Updated(update, original, models, done)
    && count == |ChangedKeys(original, models, done)|
  }

  ghost predicate Updated(update: Value -> Option<Value>, original: map<string, Value>, models: map<string, Value>, done: set<string>)
  {
    && done <= original.Keys
    && models.Keys == original.Keys
    && (forall k :: k in done ==> update(original[k]).Some? && models[k] == update(original[k]).value)
    && (forall k :: k in original && k !in done ==> models[k] == original[k])
  }

  lemma ProgressStart(update: Value -> Option<Value>, original: map<string, Value>)
    ensures Progress(update, original, original, {}, 0)
  {
    assert ChangedKeys(original, original, {}) == {};
  }

  lemma UpdatedStep(update: Value -> Option<Value>, original: map<string, Value>, models: map<string, Value>,
                    done: set<string>, key: string, v: Value)
    requires Updated(update, original, models, done)
    requires key in original && key !in done && update(original[key]) == Some(v)
    ensures Updated(update, original, models[key := v], done + {key})
  {
  }

  lemma ProgressStep(update: Value -> Option<Value>, original: map<string, Value>, models: map<string, Value>,
                     done: set<string>, count: int, key: string, v: Value)
    requires Progress(update, original, models, done, count)
    requires key in original && key !in done && update(original[key]) == Some(v)
    ensures Progress(update, original, models[key := v], done + {key}, count + if PyEq(original[key], v) then 0 else 1)
  {
    UpdatedStep(update, original, models, done, key, v);
    ChangedKeysStep(original, models, models[key := v], done, key);
  }

  lemma ProgressEnd(update: Value -> Option<Value>, original: map<string, Value>, models: map<string, Value>, count: int)
    requires Progress(update, original, models, original.Keys, count)
    ensures AllUpdate(update, original)
    ensures models == UpdatedModels(update, original)
    ensures count == |ChangedKeys(original, models, original.Keys)|
  {
  }

  /** Counting one more key: it joins the changed keys exactly when its model changed. */
  lemma ChangedKeysStep(models: map<string, Value>, before: map<string, Value>, after: map<string, Value>, done: set<string>, key: string)
    requires done <= models.Keys && key in models && key !in done
    requires before.Keys == models.Keys && key in after && after == before[key := after[key]]
    ensures ChangedKeys(models, after, done + {key}) ==
      ChangedKeys(models, before, done) + (if PyEq(models[key], after[key]) then {} else {key})
    ensures |ChangedKeys(models, after, done + {key})| ==
      |ChangedKeys(models, before, done)| + (if PyEq(models[key], after[key]) then 0 else 1)
  {
    assert ChangedKeys(models, after, done + {key}) ==
      ChangedKeys(models, before, done) + (if PyEq(models[key], after[key]) then {} else {key});
  }

  /** `updated_count` never exceeds the number of models. */
  lemma UpdatedCountBounded(data: Value)
    requires RegistryUpdate(data).Some?
    ensures RegistryUpdate(data).value.updatedCount <= |GetOr(data.fields, "models", Obj(map[])).fields.Keys|
  {
    var models := GetOr(data.fields, "models", Obj(map[])).fields;
    var provider := GetOr(data.fields, "provider", Str(""));
    var updated := UpdatedModels(Updater(provider), models);
    Sets.SubsetCardinality(ChangedKeys(models, updated, models.Keys), models.Keys);
  }

  /** Running the update on its own output writes the same file and counts no change. */
  lemma RegistryUpdateIdempotent(data: Value)
    requires RegistryUpdate(data).Some?
    ensures var once := RegistryUpdate(data).value;
      RegistryUpdate(Obj(once.data)) == Some(FileUpdate(once.data, 0))
  {
    var once := RegistryUpdate(data).value;
    var provider := GetOr(data.fields, "provider", Str(""));
    var models := GetOr(data.fields, "models", Obj(map[])).fields;
    var updated := UpdatedModels(Updater(provider), models);
    assert GetOr(once.data, "provider", Str("")) == provider;
    assert GetOr(once.data, "models", Obj(map[])) == Obj(updated);
    forall k | k in updated
      ensures UpdatedModel(provider, updated[k]) == Some(updated[k])
    {
      UpdatedModelIdempotent(provider, models[k]);
    }
    assert UpdatedModels(Updater(provider), updated) == updated;
    assert ChangedKeys(updated, updated, updated.Keys) == {};
    if "models" in data.fields {
      assert once.data["models" := Obj(updated)] == once.data;
    }
  }
}

=== FILE: cli.dfy ===
/**
 * The `list` and `validate` commands of the registry CLI: how a provider
 * file's models are extracted (a dict's values or a list as it is), the
 * per-model structural checks of `validate` and its abort decision, and the
 * pricing line of `list`.
 */
module Cli {
  import opened Wrappers
  import opened Json
  import Promote

  /** The providers a command runs over: the one named, or all three for "all". */
  function Providers(provider: string): (ps: seq<string>)
    ensures provider != "all" ==> ps == [provider]
    ensures provider == "all" ==> ps == ["openai", "anthropic", "google"]
  {
    if provider != "all" then [provider] else ["openai", "anthropic", "google"]
  }

  // ---------------------------------------------------------------------
  // Model extraction
  // ---------------------------------------------------------------------

  /** The values of `m` in the order `order` lists their keys (the dict's insertion order). */
  function ValuesInOrder(m: map<string, Value>, order: seq<string>): (vs: seq<Value>)
    ensures |vs| <= |order|
  {
    if order == [] then []
    else ValuesInOrder(m, order[..|order| - 1]) + (if order[|order| - 1] in m then [m[order[|order| - 1]]] else [])
  }

  /** Every value whose key `order` lists is among the values, and nothing else is. */
  lemma {:induction false} ValuesInOrderSpec(m: map<string, Value>, order: seq<string>, v: Value)
    ensures v in ValuesInOrder(m, order) <==> exists i :: 0 <= i < |order| && order[i] in m && m[order[i]] == v
  {
    if order != [] {
      var init := order[..|order| - 1];
      ValuesInOrderSpec(m, init, v);
      if v in ValuesInOrder(m, init) {
        var i :| 0 <= i < |init| && init[i] in m && m[init[i]] == v;
        assert order[i] == init[i];
      }
      if exists i :: 0 <= i < |order| && order[i] in m && m[order[i]] == v {
        var i :| 0 <= i < |order| && order[i] in m && m[order[i]] == v;
        if i < |init| {
          assert init[i] == order[i];
        }
      }
    }
  }

  /**
   * `list(models.values()) if isinstance(models, dict) else models`: a dict
   * becomes the list of its values, anything else is kept as it is.
   */
  function ModelList(models: Value, order: seq<string>): (r: Value)
    ensures models.Obj? ==> r == List(ValuesInOrder(models.fields, order))
    ensures !models.Obj? ==> r == models
  {
    if models.Obj? then List(ValuesInOrder(models.fields, order)) else models
  }

  /** When every listed key is in the dict, position `i` holds the value of the `i`-th key. */
  lemma {:induction false} ValuesInOrderPresent(m: map<string, Value>, order: seq<string>)
    requires forall i :: 0 <= i < |order| ==> order[i] in m
    ensures |ValuesInOrder(m, order)| == |order|
    ensures forall i :: 0 <= i < |order| ==> ValuesInOrder(m, order)[i] == m[order[i]]
    decreases |order|
  {
    if order != [] {
      var init := order[..|order| - 1];
      ValuesInOrderPresent(m, init);
    }
  }

  /**
   * `list(d.values())`: over the dict's own key order, one value per entry,
   * the `i`-th being the value of the `i`-th key.
   */
  lemma ValuesInOrderOfKeys(m: map<string, Value>, order: seq<string>)
    requires IsKeyOrder(m, order)
    ensures |ValuesInOrder(m, order)| == |order| == |m|
    ensures forall i :: 0 <= i < |order| ==> order[i] in m && ValuesInOrder(m, order)[i] == m[order[i]]
  {
    KeyOrderLength(m, order);
    ValuesInOrderPresent(m, order);
  }

  /** A dict of models becomes a list with one item per model, and every model is in it. */
  lemma DictModelsAllListed(m: map<string, Value>, order: seq<string>, k: string)
    requires IsKeyOrder(m, order) && k in m
    ensures |ModelList(Obj(m), order).items| == |m|
    ensures m[k] in ModelList(Obj(m), order).items
  {
    ValuesInOrderOfKeys(m, order);
    var i :| 0 <= i < |order| && order[i] == k;
    assert ModelList(Obj(m), order).items[i] == m[k];
  }

  /** The one-character strings of `s`, what iterating over a Python string yields. */
  function Chars(s: string): (cs: seq<Value>)
    ensures |cs| == |s| && forall i :: 0 <= i < |s| ==> cs[i] == Str([s[i]])
  {
    seq(|s|, i requires 0 <= i < |s| => Str([s[i]]))
  }

  /**
   * `enumerate(model_list)`: the items iterated over; None where the value is
   * not iterable. A dict would iterate its keys, but `ModelList` has already
   * turned every dict into the list of its values, so the dict case is never
   * reached from the commands.
   */
  function Items(modelList: Value): Option<seq<Value>>
  {
    match modelList
    case List(xs) => Some(xs)
    case Str(s) => Some(Chars(s))
    case Obj(m) => None
    case _ => None
  }

  // ---------------------------------------------------------------------
  // validate: the per-model checks
  // ---------------------------------------------------------------------

  /** One entry of a model's `model_errors`. */
  datatype ModelError =
    | MissingField(field: string)  // "Missing '<field>'"
    | NotNumeric(field: string)    // "'<field>' must be numeric"
    | Negative(field: string)      // "'<field>' cannot be negative"
    | NotBoolean(field: string)    // "'<field>' must be boolean"

  const REQUIRED: seq<string> := ["model_name", "provider"]
  const NUMERIC_FIELDS: seq<string> := [
    "dollars_per_million_tokens_input",
    "dollars_per_million_tokens_output",
    "max_input_tokens",
    "max_output_tokens"
  ]
  const BOOL_FIELDS: seq<string> := [
    "supports_vision",
    "supports_function_calling",
    "supports_json_mode",
    "supports_parallel_tool_calls"
  ]

  /** The errors of `check` over `fields`, in field order: one `for field in …: if …: append` loop. */
  function Collect(fields: seq<string>, check: string -> Option<ModelError>): seq<ModelError>
  {
    if fields == [] then []
    else
      var last := check(fields[|fields| - 1]);
      Collect(fields[..|fields| - 1], check) + (if last.Some? then [last.value] else [])
  }

  /** An error is collected exactly when some field's check reports it. */
  lemma {:induction false} CollectSpec(fields: seq<string>, check: string -> Option<ModelError>, e: ModelError)
    ensures e in Collect(fields, check) <==> exists i :: 0 <= i < |fields| && check(fields[i]) == Some(e)
  {
    if fields != [] {
      var init := fields[..|fields| - 1];
      CollectSpec(init, check, e);
      if e in Collect(init, check) {
        var i :| 0 <= i < |init| && check(init[i]) == Some(e);
        assert fields[i] == init[i];
      }
      if exists i :: 0 <= i < |fields| && check(fields[i]) == Some(e) {
        var i :| 0 <= i < |fields| && check(fields[i]) == Some(e);
        if i < |init| {
          assert init[i] == fields[i];
        }
      }
    }
  }

  /** The loop `for field in fields: if <check fails>: model_errors.append(...)`. */
  method CollectErrors(fields: seq<string>, check: string -> Option<ModelError>) returns (errors: seq<ModelError>)
    ensures errors == Collect(fields, check)
  {
    errors := [];
    for i := 0 to |fields|
      invariant errors == Collect(fields[..i], check)
    {
      assert fields[..i + 1][..i] == fields[..i];
      var found := check(fields[i]);
      if found.Some? {
        errors := errors + [found.value];
      }
    }
    assert fields[..|fields|] == fields;
  }

  /** A required field is reported when it is absent. */
  function RequiredCheck(m: Record): string -> Option<ModelError>
  {
    (f: string) => if f !in m then Some(MissingField(f)) else None
  }

  /** A present numeric field is reported when it is neither None nor a number, or a negative number. */
  function NumericCheck(m: Record): string -> Option<ModelError>
  {
    (f: string) =>
      if f !in m || m[f] == Null then None
      else if !IsNumber(m[f]) then Some(NotNumeric(f))
      else if NumValue(m[f]) < 0.0 then Some(Negative(f))
      else None
  }

  /** A present boolean field is reported when it is not a bool (None included). */
  function BoolCheck(m: Record): string -> Option<ModelError>
  {
    (f: string) => if f in m && !m[f].Bool? then Some(NotBoolean(f)) else None
  }

  /** The `model_errors` of a dict model: required, then numeric, then boolean fields. */
  function RecordErrors(m: Record): seq<ModelError>
  {
    Collect(REQUIRED, RequiredCheck(m)) + Collect(NUMERIC_FIELDS, NumericCheck(m)) + Collect(BOOL_FIELDS, BoolCheck(m))
  }

  /** The fields whose presence `validate` tests beyond the required ones. */
  function CheckedFields(): seq<string>
  {
    NUMERIC_FIELDS + BOOL_FIELDS
  }

  /**
   * A model that is not a dict: `field in model` raises unless it is a
   * string or a list; a numeric or boolean field found in it makes the
   * indexing or `.get` raise, and so does any error, when the model's name is
   * looked up. So it passes exactly when it holds both required names and
   * none of the others.
   */
  function NonDictErrors(model: Value): Option<seq<ModelError>>
  {
    if (forall i :: 0 <= i < |REQUIRED| ==> PyIn(REQUIRED[i], model) == Some(true))
       && (forall i :: 0 <= i < |CheckedFields()| ==> PyIn(CheckedFields()[i], model) == Some(false))
    then Some([])
    else None
  }

  /** The `model_errors` of one model; None where checking it raises. */
  function ModelErrors(model: Value): Option<seq<ModelError>>
  {
    if model.Obj? then Some(RecordErrors(model.fields)) else NonDictErrors(model)
  }

  /**
   * The checks of a dict model, field by field: one error per missing
   * required field; a present numeric field is an error when it is not a
   * number (None excepted) or is negative; a present boolean field is an
   * error when it is not a bool.
   */
  lemma RecordErrorsSpec(m: Record, e: ModelError)
    ensures e in RecordErrors(m) <==>
      || (e.MissingField? && e.field in REQUIRED && e.field !in m)
      || (e.NotNumeric? && e.field in NUMERIC_FIELDS && e.field in m && m[e.field] != Null && !IsNumber(m[e.field]))
      || (e.Negative? && e.field in NUMERIC_FIELDS && e.field in m && IsNumber(m[e.field]) && NumValue(m[e.field]) < 0.0)
      || (e.NotBoolean? && e.field in BOOL_FIELDS && e.field in m && !m[e.field].Bool?)
  {
    RequiredErrors(m, e);
    NumericErrors(m, e);
    BoolErrors(m, e);
  }

  lemma RequiredErrors(m: Record, e: ModelError)
    ensures e in Collect(REQUIRED, RequiredCheck(m)) <==> e.MissingField? && e.field in REQUIRED && e.field !in m
  {
    CollectSpec(REQUIRED, RequiredCheck(m), e);
    if e.MissingField? && e.field in REQUIRED && e.field !in m {
      var i :| 0 <= i < |REQUIRED| && REQUIRED[i] == e.field;
      assert RequiredCheck(m)(REQUIRED[i]) == Some(e);
    }
  }

  lemma NumericErrors(m: Record, e: ModelError)
    ensures e in Collect(NUMERIC_FIELDS, NumericCheck(m)) <==>
      || (e.NotNumeric? && e.field in NUMERIC_FIELDS && e.field in m && m[e.field] != Null && !IsNumber(m[e.field]))
      || (e.Negative? && e.field in NUMERIC_FIELDS && e.field in m && IsNumber(m[e.field]) && NumValue(m[e.field]) < 0.0)
  {
    CollectSpec(NUMERIC_FIELDS, NumericCheck(m), e);
    if (e.NotNumeric? || e.Negative?) && e.field in NUMERIC_FIELDS {
      var i :| 0 <= i < |NUMERIC_FIELDS| && NUMERIC_FIELDS[i] == e.field;
      assert NumericCheck(m)(NUMERIC_FIELDS[i]) == NumericCheck(m)(e.field);
    }
  }

  lemma BoolErrors(m: Record, e: ModelError)
    ensures e in Collect(BOOL_FIELDS, BoolCheck(m)) <==> e.NotBoolean? && e.field in BOOL_FIELDS && e.field in m && !m[e.field].Bool?
  {
    CollectSpec(BOOL_FIELDS, BoolCheck(m), e);
    if e.NotBoolean? && e.field in BOOL_FIELDS && e.field in m && !m[e.field].Bool? {
      var i :| 0 <= i < |BOOL_FIELDS| && BOOL_FIELDS[i] == e.field;
      assert BoolCheck(m)(BOOL_FIELDS[i]) == Some(e);
    }
  }

  /** None and zero are accepted in every numeric field. */
  lemma NullAndZeroAccepted(m: Record, f: string)
    requires f in NUMERIC_FIELDS && f in m && m[f] in {Null, Int(0), Real(0.0)}
    ensures NotNumeric(f) !in RecordErrors(m) && Negative(f) !in RecordErrors(m)
  {
    RecordErrorsSpec(m, NotNumeric(f));
    RecordErrorsSpec(m, Negative(f));
  }

  /** A dict model passes exactly when it has both required fields and every checked field present is well typed. */
  lemma RecordValidIff(m: Record)
    ensures RecordErrors(m) == [] <==>
      && (forall f :: f in REQUIRED ==> f in m)
      && (forall f :: f in NUMERIC_FIELDS && f in m && m[f] != Null ==> IsNumber(m[f]) && NumValue(m[f]) >= 0.0)
      && (forall f :: f in BOOL_FIELDS && f in m ==> m[f].Bool?)
  {
    if RecordErrors(m) == [] {
      forall f | f in REQUIRED
        ensures f in m
      {
        RecordErrorsSpec(m, MissingField(f));
      }
      forall f | f in NUMERIC_FIELDS && f in m && m[f] != Null
        ensures IsNumber(m[f]) && NumValue(m[f]) >= 0.0
      {
        RecordErrorsSpec(m, NotNumeric(f));
        RecordErrorsSpec(m, Negative(f));
      }
      forall f | f in BOOL_FIELDS && f in m
        ensures m[f].Bool?
      {
        RecordErrorsSpec(m, NotBoolean(f));
      }
    } else {
      var e := RecordErrors(m)[0];
      RecordErrorsSpec(m, e);
    }
  }

  /** A model that is not a dict never yields error entries: it passes or the check raises. */
  lemma NonDictNeverReported(model: Value)
    requires !model.Obj? && ModelErrors(model).Some?
    ensures ModelErrors(model) == Some([])
    ensures model.List? || model.Str?
  {
    assert PyIn(REQUIRED[0], model) == Some(true);
  }

  /** The checks of one model, as `validate` runs them. */
  method ValidateModel(model: Value) returns (r: Option<seq<ModelError>>)
    ensures r == ModelErrors(model)
  {
    if model.Obj? {
      var m := model.fields;
      var required := CollectErrors(REQUIRED, RequiredCheck(m));
      var numeric := CollectErrors(NUMERIC_FIELDS, NumericCheck(m));
      var booleans := CollectErrors(BOOL_FIELDS, BoolCheck(m));
      return Some(required + numeric + booleans);
    }
    var missing := false;
    for i := 0 to |REQUIRED|
      invariant forall j :: 0 <= j < i ==> PyIn(REQUIRED[j], model).Some?
      invariant missing <==> exists j :: 0 <= j < i && PyIn(REQUIRED[j], model) == Some(false)
    {
      var found := PyIn(REQUIRED[i], model);
      if found.None? {
        return None;
      }
      if !found.value {
        missing := true;
      }
    }
    var fields := CheckedFields();
    for i := 0 to |fields|
      invariant forall j :: 0 <= j < i ==> PyIn(fields[j], model) == Some(false)
    {
      var found := PyIn(fields[i], model);
      if found != Some(false) {
        return None;
      }
    }
    if missing {
      return None;
    }
    r := Some([]);
  }

  // ---------------------------------------------------------------------
  // validate: one provider file, then the command
  // ---------------------------------------------------------------------

  /** What `validate` makes of one provider's file. */
  datatype ProviderCheck =
    | NoFile                                            // skipped
    | InvalidJson                                       // reported, counts as an error
    | MissingModels                                     // reported, counts as an error
    | Checked(count: nat, failures: seq<(nat, seq<ModelError>)>)  // (index, model_errors) of each failing model

  predicate Failed(c: ProviderCheck)
  {
    c.InvalidJson? || c.MissingModels? || (c.Checked? && c.failures != [])
  }

  /** The failing models among `models`, with their index; None where one raises. */
  function Failures(models: seq<Value>, check: Value -> Option<seq<ModelError>>): Option<seq<(nat, seq<ModelError>)>>
  {
    if models == [] then Some([])
    else
      var i := |models| - 1;
      match Failures(models[..i], check)
      case None => None
      case Some(before) =>
        match check(models[i])
        case None => None
        case Some(errs) => Some(before + if errs == [] then [] else [(i, errs)])
  }

  /** Once a model raises, so does every longer run of the loop. */
  lemma {:induction false} FailuresRaiseExtends(models: seq<Value>, check: Value -> Option<seq<ModelError>>, n: nat)
    requires n <= |models| && Failures(models[..n], check).None?
    ensures Failures(models, check).None?
    decreases |models| - n
  {
    if n < |models| {
      assert models[..n + 1][..n] == models[..n];
      FailuresRaiseExtends(models, check, n + 1);
    } else {
      assert models[..n] == models;
    }
  }

  /** The loop raises exactly when the check of some model raises. */
  lemma {:induction false} FailuresRaises(models: seq<Value>, check: Value -> Option<seq<ModelError>>)
    ensures Failures(models, check).None? <==> exists i :: 0 <= i < |models| && check(models[i]).None?
  {
    if models != [] {
      var n := |models| - 1;
      FailuresRaises(models[..n], check);
      if exists i :: 0 <= i < n && check(models[..n][i]).None? {
        var i :| 0 <= i < n && check(models[..n][i]).None?;
        assert models[i] == models[..n][i];
      }
      if exists i :: 0 <= i < |models| && check(models[i]).None? {
        var i :| 0 <= i < |models| && check(models[i]).None?;
        if i < n {
          assert models[..n][i] == models[i];
        }
      }
    }
  }

  /** One more iteration of the loop. */
  lemma FailuresStep(models: seq<Value>, check: Value -> Option<seq<ModelError>>, i: nat,
                      before: seq<(nat, seq<ModelError>)>, errs: Option<seq<ModelError>>)
    requires i < |models| && Failures(models[..i], check) == Some(before) && check(models[i]) == errs
    ensures errs.None? ==> Failures(models[..i + 1], check).None?
    ensures errs.Some? ==> Failures(models[..i + 1], check) == Some(before + if errs.value == [] then [] else [(i, errs.value)])
  {
    assert models[..i + 1][..i] == models[..i];
  }

  /** Where the loop finishes, every model was checked without raising. */
  lemma {:induction false} FailuresChecked(models: seq<Value>, check: Value -> Option<seq<ModelError>>, i: nat)
    requires Failures(models, check).Some? && i < |models|
    ensures check(models[i]).Some?
  {
    var n := |models| - 1;
    if i < n {
      FailuresChecked(models[..n], check, i);
      assert models[..n][i] == models[i];
    }
  }

  /** A failure entry is exactly a model whose checks report errors, at its index. */
  lemma {:induction false} FailuresSpec(models: seq<Value>, check: Value -> Option<seq<ModelError>>, i: int, errs: seq<ModelError>)
    requires Failures(models, check).Some?
    ensures (i, errs) in Failures(models, check).value <==>
      0 <= i < |models| && check(models[i]) == Some(errs) && errs != []
  {
    if models != [] {
      var n := |models| - 1;
      FailuresSpec(models[..n], check, i, errs);
      if 0 <= i < n {
        assert models[..n][i] == models[i];
      }
    }
  }

  /** The failure entries are in index order. */
  lemma {:induction false} FailuresOrdered(models: seq<Value>, check: Value -> Option<seq<ModelError>>)
    requires Failures(models, check).Some?
    ensures forall a :: 0 <= a < |Failures(models, check).value| ==> Failures(models, check).value[a].0 < |models|
    ensures forall a, b :: 0 <= a < b < |Failures(models, check).value| ==> Failures(models, check).value[a].0 < Failures(models, check).value[b].0
  {
    if models != [] {
      var n := |models| - 1;
      FailuresOrdered(models[..n], check);
    }
  }

  /**
   * `validate` on one provider's file; None where it raises. Only a JSON
   * decoding error is caught: a file that cannot be opened or decoded as
   * text ends the command with a traceback.
   */
  function CheckProvider(file: Promote.Stored, order: seq<string>): Option<ProviderCheck>
  {
    match file
    case Missing => Some(NoFile)
    case Unreadable => None
    case NotJson => Some(InvalidJson)
    case Loaded(data) =>
      match PyIn("models", data)
      case None => None
      case Some(present) =>
        if !present then Some(MissingModels)
        else if !data.Obj? then None
        else
          match Items(ModelList(data.fields["models"], order))
          case None => None
          case Some(models) =>
            match Failures(models, ModelErrors)
            case None => None
            case Some(failures) => Some(Checked(|models|, failures))
  }

  /** The model list of a provider's `models` value raises: it cannot be enumerated, or one of its models raises. */
  predicate ModelsRaise(models: Value, order: seq<string>)
  {
    match Items(ModelList(models, order))
    case None => true
    case Some(items) => exists i :: 0 <= i < |items| && ModelErrors(items[i]).None?
  }

  /**
   * Checking one provider raises exactly when its file cannot be opened or
   * decoded as text, or the loaded value is not a container, or it holds
   * `models` but is not a dict, or its models raise.
   */
  lemma CheckProviderRaises(file: Promote.Stored, order: seq<string>)
    ensures CheckProvider(file, order).None? <==>
      || file.Unreadable?
      || (file.Loaded? && PyIn("models", file.v) != Some(false) &&
          (!file.v.Obj? || ModelsRaise(file.v.fields["models"], order)))
  {
    if file.Loaded? && file.v.Obj? && "models" in file.v.fields {
      var items := Items(ModelList(file.v.fields["models"], order));
      if items.Some? {
        FailuresRaises(items.value, ModelErrors);
      }
    }
  }

  /** A loaded dict without `models` is an error. */
  lemma MissingModelsIsError(data: Record, order: seq<string>)
    requires "models" !in data
    ensures CheckProvider(Promote.Loaded(Obj(data)), order) == Some(MissingModels)
    ensures Failed(MissingModels)
  {
  }

  /** A provider with a dict or a list of models fails exactly when one of them reports errors. */
  lemma CheckedFailsIff(data: Record, order: seq<string>)
    requires "models" in data && (data["models"].Obj? || data["models"].List?)
    requires CheckProvider(Promote.Loaded(Obj(data)), order).Some?
    ensures var models := ModelList(data["models"], order).items;
      && CheckProvider(Promote.Loaded(Obj(data)), order).value.Checked?
      && (Failed(CheckProvider(Promote.Loaded(Obj(data)), order).value) <==>
          exists i :: 0 <= i < |models| && ModelErrors(models[i]).Some? && ModelErrors(models[i]).value != [])
  {
    var models := ModelList(data["models"], order).items;
    assert Items(ModelList(data["models"], order)) == Some(models);
    var failures := Failures(models, ModelErrors).value;
    assert CheckProvider(Promote.Loaded(Obj(data)), order) == Some(Checked(|models|, failures));
    if failures != [] {
      FailuresSpec(models, ModelErrors, failures[0].0, failures[0].1);
    }
    if exists i :: 0 <= i < |models| && ModelErrors(models[i]).Some? && ModelErrors(models[i]).value != [] {
      var i :| 0 <= i < |models| && ModelErrors(models[i]).Some? && ModelErrors(models[i]).value != [];
      FailuresSpec(models, ModelErrors, i, ModelErrors(models[i]).value);
    }
  }

  /** The `enumerate(model_list)` loop of `validate` for one provider. */
  method ValidateModels(models: seq<Value>) returns (r: Option<seq<(nat, seq<ModelError>)>>)
    ensures r == Failures(models, ModelErrors)
  {
    var errors: seq<(nat, seq<ModelError>)> := [];
    for i := 0 to |models|
      invariant Failures(models[..i], ModelErrors) == Some(errors)
    {
      var modelErrors := ValidateModel(models[i]);
      FailuresStep(models, ModelErrors, i, errors, modelErrors);
      if modelErrors.None? {
        FailuresRaiseExtends(models, ModelErrors, i + 1);
        return None;
      }
      ghost var before := errors;
      if modelErrors.value != [] {
        errors := errors + [(i, modelErrors.value)];
      }
      assert errors == before + if modelErrors.value == [] then [] else [(i, modelErrors.value)];
    }
    assert models[..|models|] == models;
    r := Some(errors);
  }

  /** The body of the provider loop of `validate`. */
  method ValidateProvider(file: Promote.Stored, order: seq<string>) returns (r: Option<ProviderCheck>)
    ensures r == CheckProvider(file, order)
  {
    if file.Missing? {
      return Some(NoFile);
    }
    if file.Unreadable? {
      return None;
    }
    if file.NotJson? {
      return Some(InvalidJson);
    }
    var data := file.v;
    var present := PyIn("models", data);
    if present.None? {
      return None;
    }
    if !present.value {
      return Some(MissingModels);
    }
    if !data.Obj? {
      return None;
    }
    var items := Items(ModelList(data.fields["models"], order));
    if items.None? {
      return None;
    }
    var failures := ValidateModels(items.value);
    if failures.None? {
      return None;
    }
    r := Some(Checked(|items.value|, failures.value));
  }

  /** `has_errors` after the providers `ps`; None where one of them raises. */
  function AnyFailed(ps: seq<string>, files: string -> Promote.Stored, orders: string -> seq<string>): Option<bool>
  {
    if ps == [] then Some(false)
    else
      var last := ps[|ps| - 1];
      match AnyFailed(ps[..|ps| - 1], files, orders)
      case None => None
      case Some(before) =>
        match CheckProvider(files(last), orders(last))
        case None => None
        case Some(c) => Some(before || Failed(c))
  }

  /** Once a provider raises, the whole command does. */
  lemma {:induction false} AnyFailedRaiseExtends(ps: seq<string>, files: string -> Promote.Stored,
                                                 orders: string -> seq<string>, n: nat)
    requires n <= |ps| && AnyFailed(ps[..n], files, orders).None?
    ensures AnyFailed(ps, files, orders).None?
    decreases |ps| - n
  {
    if n < |ps| {
      assert ps[..n + 1][..n] == ps[..n];
      AnyFailedRaiseExtends(ps, files, orders, n + 1);
    } else {
      assert ps[..n] == ps;
    }
  }

  /** The provider loop of `validate` raises exactly when the check of some provider raises. */
  lemma {:induction false} AnyFailedRaises(ps: seq<string>, files: string -> Promote.Stored, orders: string -> seq<string>)
    ensures AnyFailed(ps, files, orders).None? <==>
      exists i :: 0 <= i < |ps| && CheckProvider(files(ps[i]), orders(ps[i])).None?
  {
    if ps != [] {
      var n := |ps| - 1;
      AnyFailedRaises(ps[..n], files, orders);
      if exists i :: 0 <= i < n && CheckProvider(files(ps[..n][i]), orders(ps[..n][i])).None? {
        var i :| 0 <= i < n && CheckProvider(files(ps[..n][i]), orders(ps[..n][i])).None?;
        assert ps[i] == ps[..n][i];
      }
      if exists i :: 0 <= i < |ps| && CheckProvider(files(ps[i]), orders(ps[i])).None? {
        var i :| 0 <= i < |ps| && CheckProvider(files(ps[i]), orders(ps[i])).None?;
        if i < n {
          assert ps[..n][i] == ps[i];
        }
      }
    }
  }

  /** `has_errors` is set exactly when some provider's check failed. */
  lemma {:induction false} AnyFailedSpec(ps: seq<string>, files: string -> Promote.Stored, orders: string -> seq<string>)
    requires AnyFailed(ps, files, orders).Some?
    ensures forall i :: 0 <= i < |ps| ==> CheckProvider(files(ps[i]), orders(ps[i])).Some?
    ensures AnyFailed(ps, files, orders).value <==>
      exists i :: 0 <= i < |ps| && Failed(CheckProvider(files(ps[i]), orders(ps[i])).value)
  {
    if ps != [] {
      var n := |ps| - 1;
      var init := ps[..n];
      AnyFailedSpec(init, files, orders);
      forall i | 0 <= i < n
        ensures ps[i] == init[i]
      {
      }
      if exists i :: 0 <= i < |ps| && Failed(CheckProvider(files(ps[i]), orders(ps[i])).value) {
        var i :| 0 <= i < |ps| && Failed(CheckProvider(files(ps[i]), orders(ps[i])).value);
        if i < n {
          assert Failed(CheckProvider(files(init[i]), orders(init[i])).value);
        }
      }
    }
  }

  /**
   * The `validate` command: Some(true) where it aborts, Some(false) where it
   * reports every file valid or finds no models directory, None where it raises.
   */
  function ValidateCommand(dirExists: bool, provider: string, files: string -> Promote.Stored,
                           orders: string -> seq<string>): Option<bool>
  {
    if !dirExists then Some(false) else AnyFailed(Providers(provider), files, orders)
  }

  /** The command aborts exactly when some provider's file is invalid, lacks `models` or has a failing model. */
  lemma AbortIff(dirExists: bool, provider: string, files: string -> Promote.Stored, orders: string -> seq<string>)
    requires ValidateCommand(dirExists, provider, files, orders).Some?
    ensures ValidateCommand(dirExists, provider, files, orders).value <==>
      dirExists && exists p :: p in Providers(provider) && CheckProvider(files(p), orders(p)).Some? &&
                               Failed(CheckProvider(files(p), orders(p)).value)
  {
    if dirExists {
      var ps := Providers(provider);
      AnyFailedSpec(ps, files, orders);
      if exists p :: p in ps && CheckProvider(files(p), orders(p)).Some? && Failed(CheckProvider(files(p), orders(p)).value) {
        var p :| p in ps && CheckProvider(files(p), orders(p)).Some? && Failed(CheckProvider(files(p), orders(p)).value);
        var i :| 0 <= i < |ps| && ps[i] == p;
      }
    }
  }

  /** `validate` raises exactly when the directory exists and the check of some selected provider raises. */
  lemma ValidateRaises(dirExists: bool, provider: string, files: string -> Promote.Stored, orders: string -> seq<string>)
    ensures ValidateCommand(dirExists, provider, files, orders).None? <==>
      dirExists && exists p :: p in Providers(provider) && CheckProvider(files(p), orders(p)).None?
  {
    var ps := Providers(provider);
    AnyFailedRaises(ps, files, orders);
    if exists p :: p in ps && CheckProvider(files(p), orders(p)).None? {
      var p :| p in ps && CheckProvider(files(p), orders(p)).None?;
      var i :| 0 <= i < |ps| && ps[i] == p;
    }
  }

  /** A selected provider file that exists but cannot be opened ends `validate` with a traceback. */
  lemma UnreadableFileRaises(provider: string, files: string -> Promote.Stored, orders: string -> seq<string>, p: string)
    requires p in Providers(provider) && files(p).Unreadable?
    ensures ValidateCommand(true, provider, files, orders).None?
  {
    ValidateRaises(true, provider, files, orders);
  }

  /** The `validate` command: the loop over providers setting `has_errors`. */
  method Validate(dirExists: bool, provider: string, files: string -> Promote.Stored, orders: string -> seq<string>)
    returns (r: Option<bool>)
    ensures r == ValidateCommand(dirExists, provider, files, orders)
  {
    if !dirExists {
      return Some(false);
    }
    var providers := Providers(provider);
    var hasErrors := false;
    for i := 0 to |providers|
      invariant AnyFailed(providers[..i], files, orders) == Some(hasErrors)
    {
      assert providers[..i + 1][..i] == providers[..i];
      var prov := providers[i];
      var check := ValidateProvider(files(prov), orders(prov));
      if check.None? {
        AnyFailedRaiseExtends(providers, files, orders, i + 1);
        return None;
      }
      if Failed(check.value) {
        hasErrors := true;
      }
    }
    assert providers[..|providers|] == providers;
    r := Some(hasErrors);
  }

  // ---------------------------------------------------------------------
  // list
  // ---------------------------------------------------------------------

  /** One model line of `list`: with its two prices, or "pricing not available". */
  datatype Line =
    | Priced(id: Value, input: Value, output: Value)
    | NoPricing(id: Value)

  /**
   * The line `list` prints for one model; None where it raises (`.get` on a
   * non-dict, or a present price that `:.2f` cannot format: not a number,
   * or an int too large for a double, which raises OverflowError).
   */
  function ListLine(model: Value): Option<Line>
  {
    if !model.Obj? then None
    else
      var m := model.fields;
      var id := Or(Get(m, "model_id"), GetOr(m, "model_name", Str("unknown")));
      var input := Get(m, "dollars_per_million_tokens_input");
      var output := Get(m, "dollars_per_million_tokens_output");
      if input != Null && output != Null then
        if IsNumber(input) && IsNumber(output) && NumberToFloat(input).Some? && NumberToFloat(output).Some?
        then Some(Priced(id, input, output))
        else None
      else Some(NoPricing(id))
  }

  /** Pricing is printed exactly when both prices are present and not None. */
  lemma PricingIffBothPrices(m: Record)
    requires ListLine(Obj(m)).Some?
    ensures ListLine(Obj(m)).value.Priced? <==>
      Get(m, "dollars_per_million_tokens_input") != Null && Get(m, "dollars_per_million_tokens_output") != Null
    ensures ListLine(Obj(m)).value.Priced? ==>
      ListLine(Obj(m)).value.input == m["dollars_per_million_tokens_input"] &&
      ListLine(Obj(m)).value.output == m["dollars_per_million_tokens_output"]
  {
  }

  /** A price that is an int too large for a double cannot be formatted with `:.2f`: the line raises. */
  lemma HugePriceRaises(m: Record, n: int)
    requires Get(m, "dollars_per_million_tokens_input") == Int(n) && Get(m, "dollars_per_million_tokens_output") != Null
    requires n >= FLOAT_INT_LIMIT
    ensures ListLine(Obj(m)).None?
  {
  }

  /** The lines of one provider in text mode: none when its model list is empty; None where it raises. */
  function ListProvider(data: Value, order: seq<string>): Option<seq<Line>>
  {
    if !data.Obj? then None
    else
      var modelList := ModelList(GetOr(data.fields, "models", Obj(map[])), order);
      if !Truthy(modelList) then Some([])
      else
        match Items(modelList)
        case None => None
        case Some(models) => ListLines(models)
  }

  function ListLines(models: seq<Value>): (r: Option<seq<Line>>)
    ensures r.Some? ==> |r.value| == |models|
  {
    if models == [] then Some([])
    else
      match ListLines(models[..|models| - 1])
      case None => None
      case Some(before) =>
        match ListLine(models[|models| - 1])
        case None => None
        case Some(line) => Some(before + [line])
  }

  /** The lines of a model list raise exactly when the line of some model raises. */
  lemma {:induction false} ListLinesRaises(models: seq<Value>)
    ensures ListLines(models).None? <==> exists i :: 0 <= i < |models| && ListLine(models[i]).None?
  {
    if models != [] {
      var n := |models| - 1;
      ListLinesRaises(models[..n]);
      if exists i :: 0 <= i < n && ListLine(models[..n][i]).None? {
        var i :| 0 <= i < n && ListLine(models[..n][i]).None?;
        assert models[i] == models[..n][i];
      }
      if exists i :: 0 <= i < |models| && ListLine(models[i]).None? {
        var i :| 0 <= i < |models| && ListLine(models[i]).None?;
        if i < n {
          assert models[..n][i] == models[i];
        }
      }
    }
  }

  /** Each line is the line of the model at the same position. */
  lemma {:induction false} ListLinesSpec(models: seq<Value>)
    requires ListLines(models).Some?
    ensures forall i :: 0 <= i < |models| ==> ListLine(models[i]) == Some(ListLines(models).value[i])
  {
    if models != [] {
      var n := |models| - 1;
      ListLinesSpec(models[..n]);
      forall i | 0 <= i < n
        ensures models[i] == models[..n][i]
      {
      }
    }
  }

  /** Text-mode `list`: the lines of every listed provider, and `total_count`. */
  datatype Listing = Listing(lines: seq<Line>, total: nat)

  function ListText(ps: seq<string>, files: string -> Promote.Stored, orders: string -> seq<string>): Option<Listing>
  {
    if ps == [] then Some(Listing([], 0))
    else
      var last := ps[|ps| - 1];
      match ListText(ps[..|ps| - 1], files, orders)
      case None => None
      case Some(before) => ListMore(before, files(last), orders(last))
  }

  /** The listing after one more provider: a missing file is skipped. */
  function ListMore(before: Listing, file: Promote.Stored, order: seq<string>): Option<Listing>
  {
    match file
    case Missing => Some(before)
    case Unreadable => None
    case NotJson => None
    case Loaded(data) =>
      match ListProvider(data, order)
      case None => None
      case Some(lines) => Some(Listing(before.lines + lines, before.total + |lines|))
  }

  /** Listing one provider raises: its file cannot be read or parsed, or its lines raise. */
  predicate ListRaises(file: Promote.Stored, order: seq<string>)
  {
    file.Unreadable? || file.NotJson? || (file.Loaded? && ListProvider(file.v, order).None?)
  }

  /** One more provider. */
  lemma ListTextStep(ps: seq<string>, files: string -> Promote.Stored, orders: string -> seq<string>, i: nat,
                     before: Listing)
    requires i < |ps| && ListText(ps[..i], files, orders) == Some(before)
    ensures ListText(ps[..i + 1], files, orders) == ListMore(before, files(ps[i]), orders(ps[i]))
  {
    assert ps[..i + 1][..i] == ps[..i];
  }

  /** Once a provider raises, the whole listing does. */
  lemma {:induction false} ListRaiseExtends(ps: seq<string>, files: string -> Promote.Stored,
                                            orders: string -> seq<string>, n: nat)
    requires n <= |ps| && ListText(ps[..n], files, orders).None?
    ensures ListText(ps, files, orders).None?
    decreases |ps| - n
  {
    if n < |ps| {
      assert ps[..n + 1][..n] == ps[..n];
      ListRaiseExtends(ps, files, orders, n + 1);
    } else {
      assert ps[..n] == ps;
    }
  }

  /** The text listing raises exactly when listing some provider raises. */
  lemma {:induction false} ListTextRaises(ps: seq<string>, files: string -> Promote.Stored, orders: string -> seq<string>)
    ensures ListText(ps, files, orders).None? <==> exists i :: 0 <= i < |ps| && ListRaises(files(ps[i]), orders(ps[i]))
  {
    if ps != [] {
      var n := |ps| - 1;
      ListTextRaises(ps[..n], files, orders);
      if exists i :: 0 <= i < n && ListRaises(files(ps[..n][i]), orders(ps[..n][i])) {
        var i :| 0 <= i < n && ListRaises(files(ps[..n][i]), orders(ps[..n][i]));
        assert ps[i] == ps[..n][i];
      }
      if exists i :: 0 <= i < |ps| && ListRaises(files(ps[i]), orders(ps[i])) {
        var i :| 0 <= i < |ps| && ListRaises(files(ps[i]), orders(ps[i]));
        if i < n {
          assert ps[..n][i] == ps[i];
        }
      }
    }
  }

  /** `total_count` is the number of model lines printed. */
  lemma {:induction false} ListTotalCountsLines(ps: seq<string>, files: string -> Promote.Stored, orders: string -> seq<string>)
    requires ListText(ps, files, orders).Some?
    ensures ListText(ps, files, orders).value.total == |ListText(ps, files, orders).value.lines|
  {
    if ps != [] {
      ListTotalCountsLines(ps[..|ps| - 1], files, orders);
    }
  }

  /**
   * Text-mode `list`: without a models directory it stops at once with the
   * missing-directory message; otherwise the provider loop accumulates the
   * lines and `total_count`, and the total decides the closing message.
   */
  method ListModels(dirExists: bool, provider: string, files: string -> Promote.Stored, orders: string -> seq<string>)
    returns (r: Option<Summary>)
    ensures r == ListCommand(dirExists, false, provider, files, orders)
  {
    if !dirExists {
      return Some(NoDirectory);
    }
    var listing := ListEach(Providers(provider), files, orders);
    if listing.None? {
      return None;
    }
    r := Some(if listing.value.total > 0 then Total(listing.value.total) else NoModelsFound);
  }

  /** The provider loop of `list`, over any provider sequence. */
  method ListEach(providers: seq<string>, files: string -> Promote.Stored, orders: string -> seq<string>)
    returns (r: Option<Listing>)
    ensures r == ListText(providers, files, orders)
  {
    var lines: seq<Line> := [];
    var totalCount: nat := 0;
    for i := 0 to |providers|
      invariant ListText(providers[..i], files, orders) == Some(Listing(lines, totalCount))
    {
      ListTextStep(providers, files, orders, i, Listing(lines, totalCount));
      var prov := providers[i];
      var file := files(prov);
      if file.Missing? {
        continue;
      }
      if file.Unreadable? || file.NotJson? {
        ListRaiseExtends(providers, files, orders, i + 1);
        return None;
      }
      var shown := ListProvider(file.v, orders(prov));
      if shown.None? {
        ListRaiseExtends(providers, files, orders, i + 1);
        return None;
      }
      lines := lines + shown.value;
      totalCount := totalCount + |shown.value|;
    }
    assert providers[..|providers|] == providers;
    r := Some(Listing(lines, totalCount));
  }

  // ---------------------------------------------------------------------
  // list --json
  // ---------------------------------------------------------------------

  /** `all_models` after the providers `ps`: each listed provider's model list; None where one raises. */
  function JsonModels(ps: seq<string>, files: string -> Promote.Stored, orders: string -> seq<string>): Option<map<string, Value>>
  {
    if ps == [] then Some(map[])
    else
      var last := ps[|ps| - 1];
      match JsonModels(ps[..|ps| - 1], files, orders)
      case None => None
      case Some(before) =>
        match files(last)
        case Missing => Some(before)
        case Unreadable => None
        case NotJson => None
        case Loaded(data) =>
          if !data.Obj? then None
          else Some(before[last := ModelList(GetOr(data.fields, "models", Obj(map[])), orders(last))])
  }

  /** Every provider with a loaded file has its model list in `all_models`, and no other key is there. */
  lemma {:induction false} JsonModelsSpec(ps: seq<string>, files: string -> Promote.Stored, orders: string -> seq<string>, p: string)
    requires JsonModels(ps, files, orders).Some?
    ensures p in JsonModels(ps, files, orders).value <==> p in ps && files(p).Loaded?
    ensures p in ps && files(p).Loaded? ==>
      files(p).v.Obj? &&
      JsonModels(ps, files, orders).value[p] == ModelList(GetOr(files(p).v.fields, "models", Obj(map[])), orders(p))
  {
    if ps != [] {
      var n := |ps| - 1;
      JsonModelsSpec(ps[..n], files, orders, p);
      if p in ps && p != ps[n] {
        var i :| 0 <= i < |ps| && ps[i] == p;
        assert ps[..n][i] == p;
      }
      if p in ps[..n] {
        var i :| 0 <= i < n && ps[..n][i] == p;
        assert ps[i] == p;
      }
    }
  }

  /** Collecting one provider into `all_models` raises: its file cannot be read or parsed, or is not a dict. */
  predicate JsonRaises(file: Promote.Stored)
  {
    file.Unreadable? || file.NotJson? || (file.Loaded? && !file.v.Obj?)
  }

  /** Collecting `all_models` raises exactly when some provider's file cannot be read or parsed, or is not a dict. */
  lemma {:induction false} JsonModelsRaises(ps: seq<string>, files: string -> Promote.Stored, orders: string -> seq<string>)
    ensures JsonModels(ps, files, orders).None? <==>
      exists i :: 0 <= i < |ps| && JsonRaises(files(ps[i]))
  {
    if ps != [] {
      var n := |ps| - 1;
      JsonModelsRaises(ps[..n], files, orders);
      if exists i :: 0 <= i < n && JsonRaises(files(ps[..n][i])) {
        var i :| 0 <= i < n && JsonRaises(files(ps[..n][i]));
        assert ps[i] == ps[..n][i];
      }
      if exists i :: 0 <= i < |ps| && JsonRaises(files(ps[i])) {
        var i :| 0 <= i < |ps| && JsonRaises(files(ps[i]));
        if i < n {
          assert ps[..n][i] == ps[i];
        }
      }
    }
  }

  /** What `list` reports after its provider loop. */
  datatype Summary =
    | NoDirectory           // "No models directory found. ..." on stderr, nothing else
    | Total(count: nat)     // "Total: <count> models"
    | NoModelsFound         // "No models found. ..."
    | Dump(all: map<string, Value>)  // `all_models` written as JSON

  /**
   * `list --json` as written: the loop fills `all_models` but never writes
   * it, and leaves `total_count` at 0, so the command ends with the
   * no-models message. A missing directory is reported as in text mode.
   */
  function ListJsonAsWritten(dirExists: bool, ps: seq<string>, files: string -> Promote.Stored, orders: string -> seq<string>): Option<Summary>
  {
    if !dirExists then Some(NoDirectory)
    else
    match JsonModels(ps, files, orders)
    case None => None
    case Some(_) => Some(NoModelsFound)
  }

  /** One provider file with one model: `list --json` collects it and still reports that there are no models. */
  lemma ListJsonHidesModels()
    ensures var files := (p: string) => Promote.Loaded(Obj(map["models" := List([Obj(map["model_name" := Str("gpt-4o")])])]));
      var orders: string -> seq<string> := (p: string) => [];
      && JsonModels(["openai"], files, orders) == Some(map["openai" := List([Obj(map["model_name" := Str("gpt-4o")])])])
      && ListJsonAsWritten(true, ["openai"], files, orders) == Some(NoModelsFound)
  {
    var files := (p: string) => Promote.Loaded(Obj(map["models" := List([Obj(map["model_name" := Str("gpt-4o")])])]));
    var orders: string -> seq<string> := (p: string) => [];
    assert ["openai"][..0] == [];
  }

  /**
   * `list`: the missing-directory message when there is no models directory;
   * otherwise the text listing's total, or (corrected) the collected
   * `all_models` written as JSON.
   */
  function ListCommand(dirExists: bool, outputJson: bool, provider: string, files: string -> Promote.Stored, orders: string -> seq<string>): Option<Summary>
  {
    var ps := Providers(provider);
    if !dirExists then Some(NoDirectory)
    else if outputJson then
      match JsonModels(ps, files, orders)
      case None => None
      case Some(all) => Some(Dump(all))
    else
      match ListText(ps, files, orders)
      case None => None
      case Some(listing) => Some(if listing.total > 0 then Total(listing.total) else NoModelsFound)
  }

  /** With the correction, `list --json` writes every listed provider's model list. */
  lemma ListJsonDumpsModels(dirExists: bool, provider: string, files: string -> Promote.Stored, orders: string -> seq<string>, p: string)
    requires ListCommand(dirExists, true, provider, files, orders).Some?
    requires dirExists && p in Providers(provider) && files(p).Loaded?
    ensures ListCommand(dirExists, true, provider, files, orders).value.Dump?
    ensures var all := ListCommand(dirExists, true, provider, files, orders).value.all;
      files(p).v.Obj? && p in all && all[p] == ModelList(GetOr(files(p).v.fields, "models", Obj(map[])), orders(p))
  {
    JsonModelsSpec(Providers(provider), files, orders, p);
  }

  /**
   * In text mode a missing directory gives only the missing-directory
   * message; otherwise the no-models message appears exactly when no model
   * line was printed, and the total is the number of lines printed.
   */
  lemma TextSummary(dirExists: bool, provider: string, files: string -> Promote.Stored, orders: string -> seq<string>)
    requires ListCommand(dirExists, false, provider, files, orders).Some?
    ensures !dirExists ==> ListCommand(dirExists, false, provider, files, orders) == Some(NoDirectory)
    ensures dirExists ==> ListText(Providers(provider), files, orders).Some?
    ensures dirExists ==> var listing := ListText(Providers(provider), files, orders).value;
      ListCommand(dirExists, false, provider, files, orders).value == if listing.lines == [] then NoModelsFound else Total(|listing.lines|)
  {
    if dirExists {
      ListTotalCountsLines(Providers(provider), files, orders);
    }
  }

  /**
   * `list` raises exactly when the directory exists and some selected
   * provider raises: in text mode when listing it raises, in JSON mode when
   * collecting it raises.
   */
  lemma ListCommandRaises(dirExists: bool, outputJson: bool, provider: string, files: string -> Promote.Stored,
                          orders: string -> seq<string>)
    ensures !outputJson ==> (ListCommand(dirExists, outputJson, provider, files, orders).None? <==>
      dirExists && exists p :: p in Providers(provider) && ListRaises(files(p), orders(p)))
    ensures outputJson ==> (ListCommand(dirExists, outputJson, provider, files, orders).None? <==>
      dirExists && exists p :: p in Providers(provider) && JsonRaises(files(p)))
  {
    var ps := Providers(provider);
    ListTextRaises(ps, files, orders);
    JsonModelsRaises(ps, files, orders);
    if exists p :: p in ps && ListRaises(files(p), orders(p)) {
      var p :| p in ps && ListRaises(files(p), orders(p));
      var i :| 0 <= i < |ps| && ps[i] == p;
    }
    if exists p :: p in ps && JsonRaises(files(p)) {
      var p :| p in ps && JsonRaises(files(p));
      var i :| 0 <= i < |ps| && ps[i] == p;
    }
  }

  /** Without a models directory neither mode reads a provider file: both report only the missing directory. */
  lemma NoDirectoryEitherMode(outputJson: bool, provider: string, files: string -> Promote.Stored, orders: string -> seq<string>)
    ensures ListCommand(false, outputJson, provider, files, orders) == Some(NoDirectory)
    ensures ListJsonAsWritten(false, Providers(provider), files, orders) == Some(NoDirectory)
  {
  }
}

=== FILE: document_parser.dfy ===
/**
 * The deterministic bookkeeping around the LLM calls that extract model
 * records from provider documents: the retry decision for one chat call,
 * fence stripping of the answer, the progressive accumulation over the
 * documents, the paid-model filter and the conversion of records into
 * `ModelInfo` values.
 *
 * The LLM service, the file system and the image resizer are not modelled:
 * what they return is an input (`Attempt`, `Document`, `parseJson`).
 */
module DocumentParser {
  import opened Wrappers
  import opened Json
  import opened Strings

  const INPUT_PRICE := "dollars_per_million_tokens_input"
  const OUTPUT_PRICE := "dollars_per_million_tokens_output"

  // ---------------------------------------------------------------------
  // Code fences
  // ---------------------------------------------------------------------

  /** `t[:-3]` when `t` ends with a closing fence. */
  function DropClosingFence(t: string): string
  {
    if EndsWith(t, "```") then t[..|t| - 3] else t
  }

  /** `_strip_code_fences`: unwrap a Markdown code block around a JSON answer. */
  function StripCodeFences(content: string): string
  {
    var text := Strip(content);
    if StartsWith(text, "```json") then Strip(DropClosingFence(text[7..]))
    else if StartsWith(text, "```") then Strip(DropClosingFence(text[3..]))
    else text
  }

  /** The `json` opener is a fence opener too. */
  lemma JsonFenceIsFence(t: string)
    requires StartsWith(t, "```json")
    ensures StartsWith(t, "```")
  {
    assert t[..3] == t[..7][..3];
  }

  /** Text that does not open with a fence comes back stripped and otherwise unchanged. */
  lemma UnfencedText(content: string)
    requires !StartsWith(Strip(content), "```")
    ensures StripCodeFences(content) == Strip(content)
  {
    if StartsWith(Strip(content), "```json") {
      JsonFenceIsFence(Strip(content));
    }
  }

  /** The answer never starts or ends with whitespace. */
  lemma FencesResultStripped(content: string)
    ensures Stripped(StripCodeFences(content))
  {
    var text := Strip(content);
    StripSpec(content);
    if StartsWith(text, "```json") {
      StripSpec(DropClosingFence(text[7..]));
    } else if StartsWith(text, "```") {
      StripSpec(DropClosingFence(text[3..]));
    }
  }

  /**
   * A body wrapped in a ```json fence comes back as the stripped body; the
   * seven-character `json` opener is tried before the plain three-character
   * one, so the word `json` is not left behind.
   */
  lemma FenceRoundTrip(body: string)
    ensures StripCodeFences("```json" + body + "```") == Strip(body)
  {
    var s := "```json" + body + "```";
    FencedIsStripped(body);
    JsonOpener(s, body);
    ClosingFenceDropped(body);
    Unfence(s);
  }

  lemma JsonOpener(s: string, body: string)
    requires s == "```json" + body + "```"
    ensures StartsWith(s, "```json") && s[7..] == body + "```"
  {
    assert s[..7] == "```json";
  }

  lemma Unfence(s: string)
    requires Stripped(s) && StartsWith(s, "```json")
    ensures StripCodeFences(s) == Strip(DropClosingFence(s[7..]))
  {
    StripOfStripped(s);
  }

  lemma FencedIsStripped(body: string)
    ensures Stripped("```json" + body + "```")
  {
    var s := "```json" + body + "```";
    assert s[0] == '`';
    assert s[|s| - 1] == '`';
  }

  lemma ClosingFenceDropped(body: string)
    ensures DropClosingFence(body + "```") == body
  {
    var t := body + "```";
    assert t[|t| - 3..] == "```";
    assert t[..|t| - 3] == body;
  }

  // ---------------------------------------------------------------------
  // The retry decision of one chat call
  // ---------------------------------------------------------------------

  /** What one attempt of the chat service gives: an answer, a timeout or an error. */
  datatype Attempt =
    | Reply(content: string, parsed: Option<Value>)
    | TimedOut
    | Raised(message: string)

  /** A first attempt that fails this way is tried again. */
  predicate Retried(a: Attempt)
  {
    a.TimedOut? || (a.Raised? && !Contains(Lower(a.message), "rate"))
  }

  /** The outcome of `_chat_with_timeout` when attempt `i` gives `call(i)`. */
  function ChatOutcome(call: nat -> Attempt): Attempt
  {
    if Retried(call(0)) then call(1) else call(0)
  }

  /**
   * `_chat_with_timeout`: at most two attempts. A reply is returned at once;
   * a first-attempt timeout, or error not mentioning "rate", is retried; a
   * rate error, or any failure of the second attempt, is raised.
   */
  method ChatWithTimeout(call: nat -> Attempt) returns (result: Attempt, attempts: nat)
    ensures result == ChatOutcome(call)
    ensures attempts == (if Retried(call(0)) then 2 else 1)
    ensures call(0).Reply? ==> result == call(0) && attempts == 1
    ensures call(0).Raised? && Contains(Lower(call(0).message), "rate") ==> result == call(0) && attempts == 1
    ensures attempts == 2 ==> result == call(1)
  {
    var attempt := 0;
    while attempt < 2
      invariant 0 <= attempt <= 1
      invariant attempt == 1 ==> Retried(call(0))
      decreases 2 - attempt
    {
      var a := call(attempt);
      if a.Reply? {
        return a, attempt + 1;
      }
      if attempt == 0 && Retried(a) {
        attempt := attempt + 1;
      } else {
        return a, attempt + 1;
      }
    }
    assert false;
  }

  // ---------------------------------------------------------------------
  // One document
  // ---------------------------------------------------------------------

  /**
   * What the environment does while one document is processed: whether the
   * file exists, the attempts of the chat call, whether the resizer produced
   * a new image, and the attempts of the chat call on that image.
   */
  datatype Run = Run(
    present: bool,
    call: nat -> Attempt,
    resized: bool,
    retryCall: nat -> Attempt)

  /** One document: its file name and what happens when it is processed. */
  datatype Document = Document(name: string, run: Run)

  /** `doc_path.suffix.lower()`. */
  function FileType(name: string): string
  {
    Lower(Suffix(name))
  }

  /** `str(e) or "No error message provided"`. */
  function ErrorMessage(message: string): string
  {
    if message == "" then "No error message provided" else message
  }

  /** The error that sends a PNG document to the resizer. */
  predicate TooLarge(fileType: string, message: string)
  {
    fileType == ".png" && (Contains(message, "image dimensions exceed") || Contains(message, "8000 pixels"))
  }

  /** The reply the document's processing continues with; None where it gives up. */
  function ReplyOf(d: Document): Option<Attempt>
  {
    match ChatOutcome(d.run.call)
    case Reply(c, p) => Some(Reply(c, p))
    case TimedOut => None
    case Raised(m) =>
      if TooLarge(FileType(d.name), ErrorMessage(m)) && d.run.resized && ChatOutcome(d.run.retryCall).Reply? then
        Some(ChatOutcome(d.run.retryCall))
      else None
  }

  /** A payload `{"models": [...]}` stands for its list. */
  function ModelsPayload(v: Value): Value
  {
    if v.Obj? && "models" in v.fields then v.fields["models"] else v
  }

  /**
   * `_parse_models_from_response`: the structured payload when there is one,
   * otherwise the fence-stripped text read as JSON by `parseJson`; None where
   * the text is not JSON (Python raises ValueError).
   */
  function ParseResponse(content: string, parsed: Option<Value>, parseJson: string -> Option<Value>): Option<Value>
  {
    if parsed.Some? && parsed.value != Null then Some(ModelsPayload(parsed.value))
    else
      match parseJson(StripCodeFences(content))
      case None => None
      case Some(v) => Some(ModelsPayload(v))
  }

  /**
   * `_process_single_document_progressive`: the models after this document.
   * Every failure before an answer keeps `accumulated`; an answer gives its
   * models, or `[]` when they are empty. None where an answer is not JSON,
   * or is truthy without a length (a number, `true`): reporting how many
   * models it holds calls `len()` on it.
   */
  function ProcessDocument(d: Document, accumulated: Value, parseJson: string -> Option<Value>): Option<Value>
  {
    if !d.run.present then Some(accumulated)
    else
      match ReplyOf(d)
      case None => Some(accumulated)
      case Some(reply) =>
        match ParseResponse(reply.content, reply.parsed, parseJson)
        case None => None
        case Some(models) =>
          if Uncountable(models) then None
          else Some(Or(models, List([])))
  }

  /** A document that is missing, or whose chat fails without a usable resize, keeps what was accumulated. */
  lemma FailedDocumentKeeps(d: Document, accumulated: Value, parseJson: string -> Option<Value>)
    requires !d.run.present || !ChatOutcome(d.run.call).Reply?
    requires !(d.run.resized && ChatOutcome(d.run.call).Raised? && ChatOutcome(d.run.retryCall).Reply?)
    ensures ProcessDocument(d, accumulated, parseJson) == Some(accumulated)
  {
  }

  /** A document processed without raising gives back the old models or a non-empty answer, or `[]`. */
  lemma ProcessedResult(d: Document, accumulated: Value, parseJson: string -> Option<Value>)
    requires ProcessDocument(d, accumulated, parseJson).Some?
    ensures var r := ProcessDocument(d, accumulated, parseJson).value;
      r == accumulated || Truthy(r) || r == List([])
  {
  }

  // ---------------------------------------------------------------------
  // The progressive loop over the documents
  // ---------------------------------------------------------------------

  /** The accumulated models after processing `docs` starting from `accumulated`. */
  function Accumulate(docs: seq<Document>, accumulated: Value, parseJson: string -> Option<Value>): Option<Value>
    decreases |docs|
  {
    if docs == [] then Some(accumulated)
    else
      match ProcessDocument(docs[0], accumulated, parseJson)
      case None => None
      case Some(updated) => Accumulate(docs[1..], if Truthy(updated) then updated else accumulated, parseJson)
  }

  /**
   * Accumulated models are never erased: once non-empty they stay non-empty,
   * and the result is either the starting value or a non-empty answer.
   */
  lemma {:induction false} AccumulateNeverErases(docs: seq<Document>, accumulated: Value, parseJson: string -> Option<Value>)
    requires Accumulate(docs, accumulated, parseJson).Some?
    ensures var r := Accumulate(docs, accumulated, parseJson).value;
      (Truthy(accumulated) ==> Truthy(r)) && (r == accumulated || Truthy(r))
    decreases |docs|
  {
    if docs != [] {
      var updated := ProcessDocument(docs[0], accumulated, parseJson).value;
      AccumulateNeverErases(docs[1..], if Truthy(updated) then updated else accumulated, parseJson);
    }
  }

  /** An answer whose models are truthy but have no length: counting them raises TypeError. */
  predicate Uncountable(models: Value)
  {
    Truthy(models) && PyLen(models).None?
  }

  /**
   * The chat answered for `d`, and the answer is not JSON or its models are
   * uncountable: the ways processing a document raises.
   */
  predicate AnswerRaises(d: Document, parseJson: string -> Option<Value>)
  {
    && d.run.present
    && ReplyOf(d).Some?
    && var answer := ParseResponse(ReplyOf(d).value.content, ReplyOf(d).value.parsed, parseJson);
       answer.None? || Uncountable(answer.value)
  }

  /** Processing a document raises exactly when its answer is not JSON or its models are uncountable. */
  lemma ProcessDocumentRaises(d: Document, accumulated: Value, parseJson: string -> Option<Value>)
    ensures ProcessDocument(d, accumulated, parseJson).None? <==> AnswerRaises(d, parseJson)
  {
  }

  /** A structured answer that is a non-zero number raises where its models are counted, whatever was accumulated. */
  lemma NumericAnswerRaises(d: Document, accumulated: Value, parseJson: string -> Option<Value>, content: string, n: int)
    requires d.run.present && ReplyOf(d) == Some(Reply(content, Some(Int(n)))) && n != 0
    ensures ProcessDocument(d, accumulated, parseJson).None?
    ensures Accumulate([d], accumulated, parseJson).None?
  {
  }

  /** The document loop raises exactly when some document's answer raises, whatever was accumulated. */
  lemma {:induction false} AccumulateRaises(docs: seq<Document>, accumulated: Value, parseJson: string -> Option<Value>)
    ensures Accumulate(docs, accumulated, parseJson).None? <==> exists i :: 0 <= i < |docs| && AnswerRaises(docs[i], parseJson)
    decreases |docs|
  {
    if docs != [] {
      var first := ProcessDocument(docs[0], accumulated, parseJson);
      ProcessDocumentRaises(docs[0], accumulated, parseJson);
      SomeAnswerRaisesSplit(docs, parseJson);
      if first.Some? {
        var next := if Truthy(first.value) then first.value else accumulated;
        assert Accumulate(docs, accumulated, parseJson) == Accumulate(docs[1..], next, parseJson);
        AccumulateRaises(docs[1..], next, parseJson);
      }
    }
  }

  /** Some document's answer raises: the first one's, or one of the rest. */
  lemma SomeAnswerRaisesSplit(docs: seq<Document>, parseJson: string -> Option<Value>)
    requires docs != []
    ensures (exists i :: 0 <= i < |docs| && AnswerRaises(docs[i], parseJson)) <==>
      AnswerRaises(docs[0], parseJson) || exists i :: 0 <= i < |docs[1..]| && AnswerRaises(docs[1..][i], parseJson)
  {
    if exists i :: 0 <= i < |docs| && AnswerRaises(docs[i], parseJson) {
      var i :| 0 <= i < |docs| && AnswerRaises(docs[i], parseJson);
      if i > 0 {
        assert docs[1..][i - 1] == docs[i];
      }
    }
    if exists i :: 0 <= i < |docs[1..]| && AnswerRaises(docs[1..][i], parseJson) {
      var i :| 0 <= i < |docs[1..]| && AnswerRaises(docs[1..][i], parseJson);
      assert docs[i + 1] == docs[1..][i];
    }
  }

  /** When every document fails or answers nothing, the result is what was there before. */
  lemma {:induction false} AccumulateAllEmpty(docs: seq<Document>, accumulated: Value, parseJson: string -> Option<Value>)
    requires forall i :: 0 <= i < |docs| ==>
      var u := ProcessDocument(docs[i], accumulated, parseJson); u.Some? && !Truthy(u.value)
    ensures Accumulate(docs, accumulated, parseJson) == Some(accumulated)
    decreases |docs|
  {
    if docs != [] {
      assert forall i :: 0 <= i < |docs| - 1 ==> docs[1..][i] == docs[i + 1];
      AccumulateAllEmpty(docs[1..], accumulated, parseJson);
    }
  }

  /** The per-document loop of `parse_provider_docs_async`. */
  method AccumulateModels(docs: seq<Document>, parseJson: string -> Option<Value>) returns (r: Option<Value>)
    ensures r == Accumulate(docs, List([]), parseJson)
  {
    var accumulated := List([]);
    var i := 0;
    while i < |docs|
      invariant 0 <= i <= |docs|
      invariant Accumulate(docs, List([]), parseJson) == Accumulate(docs[i..], accumulated, parseJson)
    {
      assert docs[i..][1..] == docs[i + 1..];
      var updated := ProcessDocument(docs[i], accumulated, parseJson);
      if updated.None? {
        return None;
      }
      if Truthy(updated.value) {
        accumulated := updated.value;
      }
      i := i + 1;
    }
    return Some(accumulated);
  }

  // ---------------------------------------------------------------------
  // Document-type counts
  // ---------------------------------------------------------------------

  /** The running `doc_types` dict after counting the `kind` of each of `names`. */
  function Tally(names: seq<string>, kind: string -> string): map<string, nat>
    decreases |names|
  {
    if names == [] then map[]
    else
      var t := Tally(names[..|names| - 1], kind);
      var e := kind(names[|names| - 1]);
      t[e := (if e in t then t[e] else 0) + 1]
  }

  /** The sum of the counts in a tally. */
  ghost function SumCounts(m: map<string, nat>): nat
    decreases |m.Keys|
  {
    if m == map[] then 0
    else
      var k :| k in m;
      m[k] + SumCounts(m - {k})
  }

  lemma {:induction false} SumCountsRemove(m: map<string, nat>, k: string)
    requires k in m
    ensures SumCounts(m) == m[k] + SumCounts(m - {k})
    decreases |m.Keys|
  {
    var j :| j in m && SumCounts(m) == m[j] + SumCounts(m - {j});
    if j != k {
      SumCountsRemove(m - {j}, k);
      SumCountsRemove(m - {k}, j);
      assert m - {j} - {k} == m - {k} - {j};
    }
  }

  /** Every document is counted exactly once. */
  lemma {:induction false} TallySum(names: seq<string>, kind: string -> string)
    ensures SumCounts(Tally(names, kind)) == |names|
    decreases |names|
  {
    if names != [] {
      var front := names[..|names| - 1];
      var t := Tally(front, kind);
      var e := kind(names[|names| - 1]);
      TallySum(front, kind);
      SumCountsIncrement(t, e);
    }
  }

  /** Counting one more occurrence of `e` adds one to the sum. */
  lemma SumCountsIncrement(t: map<string, nat>, e: string)
    ensures SumCounts(t[e := (if e in t then t[e] else 0) + 1]) == SumCounts(t) + 1
  {
    var u := t[e := (if e in t then t[e] else 0) + 1];
    SumCountsRemove(u, e);
    assert u - {e} == t - {e};
    if e in t {
      SumCountsRemove(t, e);
    } else {
      assert t - {e} == t;
    }
  }

  /** The tally has a count exactly for the file types that occur. */
  lemma {:induction false} TallyKeys(names: seq<string>, kind: string -> string, e: string)
    ensures e in Tally(names, kind) <==> exists i :: 0 <= i < |names| && kind(names[i]) == e
    decreases |names|
  {
    if names != [] {
      var front := names[..|names| - 1];
      TallyKeys(front, kind, e);
      if e != kind(names[|names| - 1]) {
        if exists i :: 0 <= i < |names| && kind(names[i]) == e {
          var i :| 0 <= i < |names| && kind(names[i]) == e;
          assert front[i] == names[i];
        }
        if exists i :: 0 <= i < |front| && kind(front[i]) == e {
          var i :| 0 <= i < |front| && kind(front[i]) == e;
          assert front[i] == names[i];
        }
      }
    }
  }

  /** The tally of one more name. */
  lemma TallyStep(names: seq<string>, kind: string -> string, i: nat)
    requires i < |names|
    ensures var t := Tally(names[..i], kind); var e := kind(names[i]);
      Tally(names[..i + 1], kind) == t[e := (if e in t then t[e] else 0) + 1]
  {
    assert names[..i + 1][..i] == names[..i];
  }

  /** The `doc_types` loop of `parse_provider_docs_async`. */
  method CountDocTypes(names: seq<string>) returns (docTypes: map<string, nat>)
    ensures docTypes == Tally(names, FileType)
  {
    docTypes := map[];
    var i := 0;
    while i < |names|
      invariant 0 <= i <= |names|
      invariant docTypes == Tally(names[..i], FileType)
    {
      TallyStep(names, FileType, i);
      var ext := FileType(names[i]);
      docTypes := docTypes[ext := (if ext in docTypes then docTypes[ext] else 0) + 1];
      i := i + 1;
    }
    assert names[..|names|] == names;
  }

  // ---------------------------------------------------------------------
  // The paid-model filter
  // ---------------------------------------------------------------------

  /** `model.get(key, 0) or 0`. */
  function PriceOf(model: Record, key: string): Value
  {
    Or(GetOr(model, key, Int(0)), Int(0))
  }

  /**
   * Whether `_validate_and_filter_models` keeps a record; None where Python
   * raises (the record is not a dict, or a price compared with 0 is not a
   * number). The output price is not looked at once the input price fails.
   */
  function Keep(model: Value): Option<bool>
  {
    if !model.Obj? then None
    else
      match LeZero(PriceOf(model.fields, INPUT_PRICE))
      case None => None
      case Some(true) => Some(false)
      case Some(false) =>
        match LeZero(PriceOf(model.fields, OUTPUT_PRICE))
        case None => None
        case Some(le) => Some(!le)
  }

  /** A price that is there, is a number, and is positive. */
  predicate PositivePrice(model: Record, key: string)
  {
    key in model && IsNumber(model[key]) && NumValue(model[key]) > 0.0
  }

  /** A record with both prices positive: a paid model. */
  predicate Paid(model: Value)
  {
    model.Obj? && PositivePrice(model.fields, INPUT_PRICE) && PositivePrice(model.fields, OUTPUT_PRICE)
  }

  /** A price that `<= 0` can be evaluated on: absent, None, falsy or a number. */
  predicate ComparablePrice(model: Record, key: string)
  {
    key !in model || !Truthy(model[key]) || IsNumber(model[key])
  }

  /**
   * A record is kept exactly when both prices are positive numbers; missing,
   * None and zero prices count as 0. A dict whose prices are numbers, None
   * or missing never makes the filter raise.
   */
  lemma KeepSpec(model: Value)
    ensures Keep(model) == Some(true) <==> Paid(model)
    ensures model.Obj? && ComparablePrice(model.fields, INPUT_PRICE) && ComparablePrice(model.fields, OUTPUT_PRICE)
      ==> Keep(model).Some?
  {
  }

  /** `_validate_and_filter_models(models)`; None where Python raises. */
  function PaidModels(models: seq<Value>): Option<seq<Value>>
    decreases |models|
  {
    if models == [] then Some([])
    else
      match Keep(models[0])
      case None => None
      case Some(k) =>
        match PaidModels(models[1..])
        case None => None
        case Some(rest) => Some(if k then [models[0]] + rest else rest)
  }

  /** `a` is `b` with some elements left out, in the same order. */
  predicate IsSubsequence(a: seq<Value>, b: seq<Value>)
    decreases |b|
  {
    if a == [] then true
    else if b == [] then false
    else if a[0] == b[0] then IsSubsequence(a[1..], b[1..])
    else IsSubsequence(a, b[1..])
  }

  lemma {:induction false} SubsequenceDropHead(a: seq<Value>, b: seq<Value>)
    requires a != [] && IsSubsequence(a, b)
    ensures IsSubsequence(a[1..], b)
    decreases |b|, 1
  {
    if a[0] != b[0] {
      SubsequenceDropHead(a, b[1..]);
    }
    SubsequenceTail(a[1..], b);
  }

  /** A subsequence of the tail of `b` is a subsequence of `b`. */
  lemma {:induction false} SubsequenceTail(a: seq<Value>, b: seq<Value>)
    requires b != [] && IsSubsequence(a, b[1..])
    ensures IsSubsequence(a, b)
    decreases |b|, 0
  {
    if a != [] && a[0] == b[0] {
      SubsequenceDropHead(a, b[1..]);
    }
  }

  /**
   * The filter keeps exactly the paid records, in their original order: the
   * result is a subsequence of the input, every element is paid, and every
   * paid record of the input is in it.
   */
  lemma {:induction false} PaidModelsSpec(models: seq<Value>)
    requires PaidModels(models).Some?
    ensures var r := PaidModels(models).value;
      && IsSubsequence(r, models)
      && |r| <= |models|
      && (forall x :: x in r ==> Paid(x))
      && (forall i :: 0 <= i < |models| && Paid(models[i]) ==> models[i] in r)
    decreases |models|
  {
    if models != [] {
      var rest := PaidModels(models[1..]).value;
      PaidModelsSpec(models[1..]);
      KeepSpec(models[0]);
      forall i | 0 <= i < |models| && Paid(models[i])
        ensures models[i] in PaidModels(models).value
      {
        if i > 0 {
          assert models[i] == models[1..][i - 1];
        }
      }
      if !Keep(models[0]).value {
        SubsequenceTail(rest, models);
      }
    }
  }

  /** The filter raises exactly when some record makes `Keep` raise. */
  lemma {:induction false} PaidModelsRaises(models: seq<Value>)
    ensures PaidModels(models).None? <==> exists i :: 0 <= i < |models| && Keep(models[i]).None?
    decreases |models|
  {
    if models != [] {
      PaidModelsRaises(models[1..]);
      if exists i :: 0 <= i < |models| && Keep(models[i]).None? {
        var i :| 0 <= i < |models| && Keep(models[i]).None?;
        if i > 0 {
          assert models[1..][i - 1] == models[i];
        }
      }
      if exists i :: 0 <= i < |models[1..]| && Keep(models[1..][i]).None? {
        var i :| 0 <= i < |models[1..]| && Keep(models[1..][i]).None?;
        assert models[i + 1] == models[1..][i];
      }
    }
  }

  /** `valid + rest` where `rest` is there. */
  function Prefixed(valid: seq<Value>, rest: Option<seq<Value>>): Option<seq<Value>>
  {
    match rest
    case None => None
    case Some(r) => Some(valid + r)
  }

  /** The loop of `_validate_and_filter_models`. */
  method FilterPaidModels(models: seq<Value>) returns (r: Option<seq<Value>>)
    ensures r == PaidModels(models)
  {
    var valid: seq<Value> := [];
    var i := 0;
    assert models[0..] == models;
    assert PaidModels(models).Some? ==> [] + PaidModels(models).value == PaidModels(models).value;
    while i < |models|
      invariant 0 <= i <= |models|
      invariant PaidModels(models) == Prefixed(valid, PaidModels(models[i..]))
    {
      assert models[i..][1..] == models[i + 1..];
      var keep := Keep(models[i]);
      if keep.None? {
        return None;
      }
      if keep.value {
        var rest := PaidModels(models[i + 1..]);
        assert rest.Some? ==> valid + ([models[i]] + rest.value) == (valid + [models[i]]) + rest.value;
        valid := valid + [models[i]];
      }
      i := i + 1;
    }
    assert valid + [] == valid;
    r := Some(valid);
  }

  // ---------------------------------------------------------------------
  // ModelInfo
  // ---------------------------------------------------------------------

  /**
   * The `ModelInfo` dataclass. The dataclass does not check its field types,
   * so the fields copied from the record keep whatever value they had; the
   * flags have gone through `bool()` and the prices through `float()`.
   */
  datatype ModelInfo = ModelInfo(
    modelId: Value,
    displayName: Value,
    description: Value,
    useCases: Value,
    maxInputTokens: Value,
    maxOutputTokens: Value,
    supportsVision: bool,
    supportsFunctionCalling: bool,
    supportsJsonMode: bool,
    supportsParallelToolCalls: bool,
    dollarsPerMillionTokensInput: real,
    dollarsPerMillionTokensOutput: real,
    releaseDate: Value,
    deprecationDate: Value,
    notes: Value,
    modelAliases: Value,
    supportsStreaming: bool,
    supportsAudio: bool,
    supportsDocuments: bool,
    supportsJsonSchema: bool,
    supportsLogprobs: bool,
    supportsMultipleResponses: bool,
    supportsCaching: bool,
    isReasoningModel: bool,
    speedTier: Value,
    intelligenceTier: Value,
    requiresTier: Value,
    requiresWaitlist: bool,
    modelFamily: Value,
    recommendedUseCases: Value,
    isActive: bool,
    addedDate: Value)

  /** `bool(model_data.get(key, default))`. */
  predicate Flag(d: Record, key: string, default: bool)
  {
    Truthy(GetOr(d, key, Bool(default)))
  }

  /** A truthy alias that is not a list becomes a one-element list. */
  function Aliases(a: Value): Value
  {
    if Truthy(a) && !a.List? then List([a]) else a
  }

  /** The body of the `try` in `_map_models`; None where it raises and the record is skipped. */
  function MapModel(model: Value, p: Parsers): Option<ModelInfo>
  {
    if !model.Obj? then None
    else
      var d := model.fields;
      var modelId := Or(Get(d, "model_id"), Get(d, "model_name"));
      match (PyFloat(PriceOf(d, INPUT_PRICE), p), PyFloat(PriceOf(d, OUTPUT_PRICE), p))
      case (Some(dollarsIn), Some(dollarsOut)) =>
        Some(ModelInfo(
          modelId,
          Or(Get(d, "display_name"), modelId),
          Or(Get(d, "description"), Str("")),
          Or(Or(Get(d, "use_cases"), Get(d, "recommended_use_cases")), List([])),
          Or(GetOr(d, "max_input_tokens", Int(0)), Int(0)),
          Get(d, "max_output_tokens"),
          Flag(d, "supports_vision", false),
          Flag(d, "supports_function_calling", false),
          Flag(d, "supports_json_mode", false),
          Flag(d, "supports_parallel_tool_calls", false),
          dollarsIn,
          dollarsOut,
          Get(d, "release_date"),
          Or(Get(d, "deprecated_date"), Get(d, "deprecation_date")),
          Get(d, "notes"),
          Aliases(Get(d, "model_aliases")),
          Flag(d, "supports_streaming", true),
          Flag(d, "supports_audio", false),
          Flag(d, "supports_documents", false),
          Flag(d, "supports_json_schema", false),
          Flag(d, "supports_logprobs", false),
          Flag(d, "supports_multiple_responses", false),
          Flag(d, "supports_caching", false),
          Flag(d, "is_reasoning_model", false),
          Get(d, "speed_tier"),
          Get(d, "intelligence_tier"),
          Get(d, "requires_tier"),
          Flag(d, "requires_waitlist", false),
          Get(d, "model_family"),
          Get(d, "recommended_use_cases"),
          Flag(d, "is_active", true),
          Get(d, "added_date")))
      case _ => None
  }

  /**
   * The fallbacks of `_map_models`: model_id falls back to model_name,
   * display_name to the id, description to "", max_input_tokens to 0; a
   * truthy alias that is not a list is wrapped in one; absent flags are
   * False except supports_streaming and is_active, which are True.
   */
  lemma MapModelDefaults(d: Record, p: Parsers)
    requires MapModel(Obj(d), p).Some?
    ensures var mi := MapModel(Obj(d), p).value;
      && (Truthy(Get(d, "model_id")) ==> mi.modelId == d["model_id"])
      && (!Truthy(Get(d, "model_id")) ==> mi.modelId == Get(d, "model_name"))
      && (!Truthy(Get(d, "display_name")) ==> mi.displayName == mi.modelId)
      && ("description" !in d ==> mi.description == Str(""))
      && ("max_input_tokens" !in d ==> mi.maxInputTokens == Int(0))
      && (var a := Get(d, "model_aliases");
          (Truthy(a) && !a.List? ==> mi.modelAliases == List([a])) && (a.List? || !Truthy(a) ==> mi.modelAliases == a))
      && ("supports_streaming" !in d ==> mi.supportsStreaming)
      && ("is_active" !in d ==> mi.isActive)
      && ("supports_vision" !in d ==> !mi.supportsVision)
      && ("is_reasoning_model" !in d ==> !mi.isReasoningModel)
  {
  }

  /**
   * A paid record maps to a model with positive prices, and is dropped only
   * when an integer price is too large for a float.
   */
  lemma PaidMapsPositive(model: Value, p: Parsers)
    requires Paid(model)
    ensures MapModel(model, p).Some? ==>
      MapModel(model, p).value.dollarsPerMillionTokensInput > 0.0 &&
      MapModel(model, p).value.dollarsPerMillionTokensOutput > 0.0
    ensures MapModel(model, p).None? <==>
      NumberToFloat(model.fields[INPUT_PRICE]).None? || NumberToFloat(model.fields[OUTPUT_PRICE]).None?
  {
  }

  /** The models built from `valid`, skipping the records whose mapping raises. */
  function MappedModels(valid: seq<Value>, convert: Value -> Option<ModelInfo>): seq<ModelInfo>
    decreases |valid|
  {
    if valid == [] then []
    else
      (match convert(valid[0]) case Some(mi) => [mi] case None => []) + MappedModels(valid[1..], convert)
  }

  /**
   * Each mapped model comes from some record, each record that maps is
   * there, and there are at most as many models as records.
   */
  lemma {:induction false} MappedModelsSpec(valid: seq<Value>, convert: Value -> Option<ModelInfo>)
    ensures |MappedModels(valid, convert)| <= |valid|
    ensures forall mi :: mi in MappedModels(valid, convert) ==> exists i :: 0 <= i < |valid| && convert(valid[i]) == Some(mi)
    ensures forall i :: 0 <= i < |valid| && convert(valid[i]).Some? ==> convert(valid[i]).value in MappedModels(valid, convert)
    decreases |valid|
  {
    if valid != [] {
      MappedModelsSpec(valid[1..], convert);
      var r := MappedModels(valid, convert);
      forall mi | mi in r
        ensures exists i :: 0 <= i < |valid| && convert(valid[i]) == Some(mi)
      {
        if mi !in MappedModels(valid[1..], convert) {
          assert convert(valid[0]) == Some(mi);
        } else {
          var i :| 0 <= i < |valid[1..]| && convert(valid[1..][i]) == Some(mi);
          assert valid[i + 1] == valid[1..][i];
        }
      }
      forall i | 0 <= i < |valid| && convert(valid[i]).Some?
        ensures convert(valid[i]).value in r
      {
        if i > 0 {
          assert valid[i] == valid[1..][i - 1];
        }
      }
    }
  }

  /** One more record converted: its model, if any, joins the prefix already converted. */
  lemma MappedStep(valid: seq<Value>, convert: Value -> Option<ModelInfo>, i: nat, models: seq<ModelInfo>, mi: Option<ModelInfo>)
    requires i < |valid| && convert(valid[i]) == mi
    requires MappedModels(valid, convert) == models + MappedModels(valid[i..], convert)
    ensures MappedModels(valid, convert) == (models + if mi.Some? then [mi.value] else []) + MappedModels(valid[i + 1..], convert)
  {
    assert valid[i..][1..] == valid[i + 1..];
    var head := if mi.Some? then [mi.value] else [];
    assert MappedModels(valid[i..], convert) == head + MappedModels(valid[i + 1..], convert);
    assert models + (head + MappedModels(valid[i + 1..], convert)) == (models + head) + MappedModels(valid[i + 1..], convert);
  }

  /** The conversion loop of `_map_models`, with `convert` the conversion of one record (`Converter(p)`). */
  method MapValidModels(valid: seq<Value>, convert: Value -> Option<ModelInfo>) returns (models: seq<ModelInfo>)
    ensures models == MappedModels(valid, convert)
  {
    models := [];
    var i := 0;
    while i < |valid|
      invariant 0 <= i <= |valid|
      invariant MappedModels(valid, convert) == models + MappedModels(valid[i..], convert)
    {
      var mi := convert(valid[i]);
      MappedStep(valid, convert, i, models, mi);
      if mi.Some? {
        models := models + [mi.value];
      }
      i := i + 1;
    }
    assert valid[i..] == [];
  }

  /** `_model_from_dict` with the parsers fixed, as the loop applies it. */
  function Converter(p: Parsers): Value -> Option<ModelInfo>
  {
    (v: Value) => MapModel(v, p)
  }

  /** `_map_models(all_models)`; None where the pricing filter raises. */
  function MapModels(all: seq<Value>, p: Parsers): Option<seq<ModelInfo>>
  {
    match PaidModels(all)
    case None => None
    case Some(valid) => Some(MappedModels(valid, Converter(p)))
  }

  /** `_map_models`: filter, then convert. */
  method MapAllModels(all: seq<Value>, p: Parsers) returns (r: Option<seq<ModelInfo>>)
    ensures r == MapModels(all, p)
  {
    var valid := FilterPaidModels(all);
    if valid.None? {
      return None;
    }
    var models := MapValidModels(valid.value, Converter(p));
    r := Some(models);
  }

  /** Every model `_map_models` returns comes from a paid record and has positive prices. */
  lemma MapModelsPaid(all: seq<Value>, p: Parsers)
    requires MapModels(all, p).Some?
    ensures |MapModels(all, p).value| <= |all|
    ensures forall mi :: mi in MapModels(all, p).value ==>
      mi.dollarsPerMillionTokensInput > 0.0 && mi.dollarsPerMillionTokensOutput > 0.0
  {
    var valid := PaidModels(all).value;
    PaidModelsSpec(all);
    MappedModelsSpec(valid, Converter(p));
    forall mi | mi in MapModels(all, p).value
      ensures mi.dollarsPerMillionTokensInput > 0.0 && mi.dollarsPerMillionTokensOutput > 0.0
    {
      var i :| 0 <= i < |valid| && MapModel(valid[i], p) == Some(mi);
      PaidMapsPositive(valid[i], p);
    }
  }

  // ---------------------------------------------------------------------
  // The whole extraction
  // ---------------------------------------------------------------------

  /**
   * `_map_models(accumulated_models)` for whatever the documents left: a
   * list is filtered and mapped; iterating an empty dict or string gives
   * nothing; anything else raises.
   */
  function MapAccumulated(accumulated: Value, p: Parsers): Option<seq<ModelInfo>>
  {
    match accumulated
    case List(xs) => MapModels(xs, p)
    case Obj(m) => if m == map[] then Some([]) else None
    case Str(s) => if s == "" then Some([]) else None
    case _ => None
  }

  /** `parse_provider_docs_async`; None where it raises. */
  function ParseProviderDocs(docs: seq<Document>, parseJson: string -> Option<Value>, p: Parsers): Option<seq<ModelInfo>>
  {
    match Accumulate(docs, List([]), parseJson)
    case None => None
    case Some(models) => MapAccumulated(models, p)
  }

  /**
   * `parse_provider_docs_async` raises exactly when the document loop does
   * (some answer is not JSON or uncountable), or the accumulated answer is
   * not a list (a non-empty dict or string), or mapping the list raises.
   */
  lemma ParseProviderDocsRaises(docs: seq<Document>, parseJson: string -> Option<Value>, p: Parsers)
    ensures ParseProviderDocs(docs, parseJson, p).None? <==>
      || Accumulate(docs, List([]), parseJson).None?
      || !Accumulate(docs, List([]), parseJson).value.List?
      || MapModels(Accumulate(docs, List([]), parseJson).value.items, p).None?
  {
    if Accumulate(docs, List([]), parseJson).Some? {
      AccumulateNeverErases(docs, List([]), parseJson);
    }
  }

  /** `parse_provider_docs_async`: count the document types, accumulate, then map. */
  method ParseProviderDocsAsync(docs: seq<Document>, parseJson: string -> Option<Value>, p: Parsers)
    returns (r: Option<seq<ModelInfo>>, docTypes: map<string, nat>)
    ensures r == ParseProviderDocs(docs, parseJson, p)
    ensures docTypes == Tally(seq(|docs|, i requires 0 <= i < |docs| => docs[i].name), FileType)
  {
    docTypes := CountDocTypes(seq(|docs|, i requires 0 <= i < |docs| => docs[i].name));
    var accumulated := AccumulateModels(docs, parseJson);
    if accumulated.None? {
      return None, docTypes;
    }
    if accumulated.value.List? {
      r := MapAllModels(accumulated.value.items, p);
    } else {
      r := MapAccumulated(accumulated.value, p);
    }
  }

  /** Every model extracted from a provider's documents has positive prices. */
  lemma ExtractedModelsPaid(docs: seq<Document>, parseJson: string -> Option<Value>, p: Parsers)
    requires ParseProviderDocs(docs, parseJson, p).Some?
    ensures forall mi :: mi in ParseProviderDocs(docs, parseJson, p).value ==>
      mi.dollarsPerMillionTokensInput > 0.0 && mi.dollarsPerMillionTokensOutput > 0.0
  {
    var acc := Accumulate(docs, List([]), parseJson).value;
    if acc.List? {
      MapModelsPaid(acc.items, p);
    }
  }
}

=== FILE: extract.dfy ===
/**
 * Extraction of one provider's documents into a draft: keying the extracted
 * models as `provider:model_id`, the Anthropic capability override, and the
 * draft with its source counts, normalised before it is written.
 */
module Extract {
  import opened Wrappers
  import opened Json
  import opened Strings
  import DocumentParser
  import SchemaUtils

  type ModelInfo = DocumentParser.ModelInfo

  /** `_screenshot_model_to_registry_dict`: the registry record of one extracted model. */
  function RegistryDict(provider: string, m: ModelInfo): Record
  {
    DescriptiveFields(m) + CapabilityFields(m) + IdentityFields(provider, m)
  }

  /** The descriptive part of the record, copied from the dataclass. */
  function DescriptiveFields(m: ModelInfo): Record
  {
    map[
      "display_name" := m.displayName,
      "description" := m.description,
      "model_aliases" := m.modelAliases,
      "max_input_tokens" := m.maxInputTokens,
      "max_output_tokens" := m.maxOutputTokens,
      "speed_tier" := m.speedTier,
      "intelligence_tier" := m.intelligenceTier,
      "requires_tier" := m.requiresTier,
      "model_family" := m.modelFamily,
      "recommended_use_cases" := m.recommendedUseCases,
      "release_date" := m.releaseDate,
      "added_date" := m.addedDate
    ]
  }

  /** The capability flags of the record. */
  function CapabilityFields(m: ModelInfo): Record
  {
    map[
      "supports_vision" := Bool(m.supportsVision),
      "supports_function_calling" := Bool(m.supportsFunctionCalling),
      "supports_json_mode" := Bool(m.supportsJsonMode),
      "supports_parallel_tool_calls" := Bool(m.supportsParallelToolCalls),
      "supports_streaming" := Bool(m.supportsStreaming),
      "supports_audio" := Bool(m.supportsAudio),
      "supports_documents" := Bool(m.supportsDocuments),
      "supports_json_schema" := Bool(m.supportsJsonSchema),
      "supports_logprobs" := Bool(m.supportsLogprobs),
      "supports_multiple_responses" := Bool(m.supportsMultipleResponses),
      "supports_caching" := Bool(m.supportsCaching),
      "is_reasoning_model" := Bool(m.isReasoningModel),
      "requires_waitlist" := Bool(m.requiresWaitlist),
      "is_active" := Bool(m.isActive)
    ]
  }

  /** The identifying part of the record: provider, name, prices, deprecation date. */
  function IdentityFields(provider: string, m: ModelInfo): Record
  {
    map[
      "provider" := Str(provider),
      "model_name" := m.modelId,
      "dollars_per_million_tokens_input" := Real(m.dollarsPerMillionTokensInput),
      "dollars_per_million_tokens_output" := Real(m.dollarsPerMillionTokensOutput),
      "deprecated_date" := m.deprecationDate
    ]
  }

  /**
   * The record names the provider and the model by its id; the dataclass's
   * `deprecation_date` is stored under `deprecated_date`, and the prices
   * become floats.
   */
  lemma RegistryDictFields(provider: string, m: ModelInfo)
    ensures var r := RegistryDict(provider, m);
      && "provider" in r && r["provider"] == Str(provider)
      && "model_name" in r && r["model_name"] == m.modelId
      && "deprecated_date" in r && r["deprecated_date"] == m.deprecationDate
      && "dollars_per_million_tokens_input" in r && r["dollars_per_million_tokens_input"] == Real(m.dollarsPerMillionTokensInput)
      && "dollars_per_million_tokens_output" in r && r["dollars_per_million_tokens_output"] == Real(m.dollarsPerMillionTokensOutput)
  {
    var id := IdentityFields(provider, m);
    forall k | k in id
      ensures k in RegistryDict(provider, m) && RegistryDict(provider, m)[k] == id[k]
    {
      MergeRight(DescriptiveFields(m) + CapabilityFields(m), id, k);
    }
  }

  /** How an f-string renders a model id: a string as itself, anything else by `str()`. */
  function KeyText(id: Value, render: Value -> string): string
  {
    if id.Str? then id.s else render(id)
  }

  /** `f"{provider}:{m.model_id}"`. */
  function KeyOf(provider: string, m: ModelInfo, render: Value -> string): string
  {
    provider + ":" + KeyText(m.modelId, render)
  }

  /**
   * A dict filled by a loop over `items` that stores `val(x)` under `key(x)`
   * and skips the items without a key: a later item replaces an earlier one.
   */
  function Table<T>(items: seq<T>, key: T -> Option<string>, val: T -> Record): map<string, Record>
    decreases |items|
  {
    if items == [] then map[]
    else
      var rest := Table(items[..|items| - 1], key, val);
      match key(items[|items| - 1])
      case None => rest
      case Some(k) => rest[k := val(items[|items| - 1])]
  }

  /** The keys of a table are exactly the keys of its items. */
  lemma {:induction false} TableKeys<T>(items: seq<T>, key: T -> Option<string>, val: T -> Record, k: string)
    ensures k in Table(items, key, val) <==> exists i :: 0 <= i < |items| && key(items[i]) == Some(k)
    decreases |items|
  {
    if items != [] {
      var front := items[..|items| - 1];
      TableKeys(front, key, val, k);
      if exists i :: 0 <= i < |items| && key(items[i]) == Some(k) {
        var i :| 0 <= i < |items| && key(items[i]) == Some(k);
        if i < |front| {
          assert front[i] == items[i];
        }
      }
      if exists i :: 0 <= i < |front| && key(front[i]) == Some(k) {
        var i :| 0 <= i < |front| && key(front[i]) == Some(k);
        assert front[i] == items[i];
      }
    }
  }

  /** Item `i` is the last one with key `k`. */
  predicate LastWithKey<T>(items: seq<T>, key: T -> Option<string>, k: string, i: int)
  {
    && 0 <= i < |items| && key(items[i]) == Some(k)
    && forall j :: i < j < |items| ==> key(items[j]) != Some(k)
  }

  /** A table entry holds the value of the last item with that key. */
  lemma {:induction false} TableLastWins<T>(items: seq<T>, key: T -> Option<string>, val: T -> Record, k: string)
    requires k in Table(items, key, val)
    ensures exists i :: LastWithKey(items, key, k, i) && Table(items, key, val)[k] == val(items[i])
    decreases |items|
  {
    var front := items[..|items| - 1];
    var last := |items| - 1;
    if key(items[last]) == Some(k) {
      assert LastWithKey(items, key, k, last);
    } else {
      assert Table(items, key, val)[k] == Table(front, key, val)[k];
      TableLastWins(front, key, val, k);
      var i :| LastWithKey(front, key, k, i) && Table(front, key, val)[k] == val(front[i]);
      assert front[i] == items[i];
      forall j | i < j < |items|
        ensures key(items[j]) != Some(k)
      {
        if j < last {
          assert front[j] == items[j];
        }
      }
      assert LastWithKey(items, key, k, i);
    }
  }

  /** A table has at most one key per item. */
  lemma {:induction false} TableSize<T>(items: seq<T>, key: T -> Option<string>, val: T -> Record)
    ensures |Table(items, key, val)| <= |items|
    decreases |items|
  {
    if items != [] {
      var rest := Table(items[..|items| - 1], key, val);
      TableSize(items[..|items| - 1], key, val);
      match key(items[|items| - 1])
      case None =>
      case Some(k) =>
        if k in rest {
          assert rest[k := val(items[|items| - 1])].Keys == rest.Keys;
        } else {
          assert rest[k := val(items[|items| - 1])].Keys == rest.Keys + {k};
        }
    }
  }

  /** The key of a model: none for an empty id. */
  function ModelKey(provider: string, render: Value -> string): ModelInfo -> Option<string>
  {
    (m: ModelInfo) => if Truthy(m.modelId) then Some(KeyOf(provider, m, render)) else None
  }

  /** The record of a model. */
  function ModelRecord(provider: string): ModelInfo -> Record
  {
    (m: ModelInfo) => RegistryDict(provider, m)
  }

  /** The `keyed` dict of `_screenshot_models_to_keyed`. */
  function Keyed(provider: string, models: seq<ModelInfo>, render: Value -> string): map<string, Record>
  {
    Table(models, ModelKey(provider, render), ModelRecord(provider))
  }

  /** `_screenshot_models_to_keyed`. */
  method ScreenshotModelsToKeyed(provider: string, models: seq<ModelInfo>, render: Value -> string)
    returns (keyed: map<string, Record>)
    ensures keyed == Keyed(provider, models, render)
  {
    keyed := map[];
    var i := 0;
    while i < |models|
      invariant 0 <= i <= |models|
      invariant keyed == Table(models[..i], ModelKey(provider, render), ModelRecord(provider))
    {
      assert models[..i + 1][..i] == models[..i];
      var m := models[i];
      if Truthy(m.modelId) {
        keyed := keyed[KeyOf(provider, m, render) := RegistryDict(provider, m)];
      }
      i := i + 1;
    }
    assert models[..|models|] == models;
  }

  /**
   * Keys come exactly from the models with a non-empty id; each key holds
   * the record of the last model with that key; there are at most as many
   * keys as models.
   */
  lemma KeyedSpec(provider: string, models: seq<ModelInfo>, render: Value -> string, k: string)
    ensures k in Keyed(provider, models, render) <==>
      exists i :: 0 <= i < |models| && Truthy(models[i].modelId) && KeyOf(provider, models[i], render) == k
    ensures k in Keyed(provider, models, render) ==>
      exists i :: LastWithKey(models, ModelKey(provider, render), k, i) &&
        Keyed(provider, models, render)[k] == RegistryDict(provider, models[i])
    ensures |Keyed(provider, models, render)| <= |models|
  {
    var key := ModelKey(provider, render);
    TableKeys(models, key, ModelRecord(provider), k);
    TableSize(models, key, ModelRecord(provider));
    if k in Keyed(provider, models, render) {
      TableLastWins(models, key, ModelRecord(provider), k);
    }
  }

  /** Every keyed record names the provider, and its key is `provider:` followed by its model name. */
  lemma KeyedRecords(provider: string, models: seq<ModelInfo>, render: Value -> string, k: string)
    requires k in Keyed(provider, models, render)
    ensures var r := Keyed(provider, models, render)[k];
      && "provider" in r && r["provider"] == Str(provider)
      && "model_name" in r && Truthy(r["model_name"])
      && k == provider + ":" + KeyText(r["model_name"], render)
  {
    KeyedSpec(provider, models, render, k);
    var i :| LastWithKey(models, ModelKey(provider, render), k, i) && Keyed(provider, models, render)[k] == RegistryDict(provider, models[i]);
    RegistryDictFields(provider, models[i]);
  }

  /** The three capabilities the Anthropic post-processing turns on. */
  function AnthropicFlags(r: Record): Record
  {
    r["supports_function_calling" := Bool(true)]["supports_json_schema" := Bool(true)]["supports_json_mode" := Bool(true)]
  }

  /** The keyed records after the Anthropic post-processing step. */
  function AnthropicOverride(provider: string, keyed: map<string, Record>): map<string, Record>
  {
    if provider == "anthropic" && keyed != map[] then map k | k in keyed :: AnthropicFlags(keyed[k]) else keyed
  }

  /** The post-processing loop: each Anthropic record gets the three capabilities in place. */
  method ApplyAnthropicOverride(provider: string, keyed: map<string, Record>) returns (r: map<string, Record>)
    ensures r == AnthropicOverride(provider, keyed)
  {
    r := keyed;
    if provider == "anthropic" && keyed != map[] {
      var todo := keyed.Keys;
      while todo != {}
        invariant todo <= keyed.Keys && r.Keys == keyed.Keys
        invariant forall k :: k in keyed && k !in todo ==> r[k] == AnthropicFlags(keyed[k])
        invariant forall k :: k in todo ==> r[k] == keyed[k]
        decreases todo
      {
        var k :| k in todo;
        r := r[k := AnthropicFlags(r[k])];
        todo := todo - {k};
      }
    }
  }

  /**
   * For "anthropic", every record ends with function calling, JSON schema
   * and JSON mode on, and nothing else changes; other providers' records
   * are untouched.
   */
  lemma AnthropicOverrideSpec(provider: string, keyed: map<string, Record>, k: string, f: string)
    requires k in keyed
    ensures var r := AnthropicOverride(provider, keyed);
      && r.Keys == keyed.Keys
      && (provider != "anthropic" ==> r[k] == keyed[k])
      && (provider == "anthropic" ==>
            && r[k]["supports_function_calling"] == Bool(true)
            && r[k]["supports_json_schema"] == Bool(true)
            && r[k]["supports_json_mode"] == Bool(true)
            && (f !in {"supports_function_calling", "supports_json_schema", "supports_json_mode"} ==>
                  (f in r[k] <==> f in keyed[k]) && (f in keyed[k] ==> r[k][f] == keyed[k][f])))
  {
  }

  // ---------------------------------------------------------------------
  // The draft of one provider
  // ---------------------------------------------------------------------

  /** The files the three globs find: names ending in `.png`, `.pdf` or `.md` (case-sensitive). */
  function DocumentNames(dirExists: bool, entries: set<string>): set<string>
  {
    if dirExists then set n | n in entries && (EndsWith(n, ".png") || EndsWith(n, ".pdf") || EndsWith(n, ".md"))
    else {}
  }

  /** `len([f for f in files if f.suffix.lower() == fileType])`. */
  function CountType(files: seq<string>, fileType: string): nat
    decreases |files|
  {
    if files == [] then 0
    else CountType(files[1..], fileType) + (if DocumentParser.FileType(files[0]) == fileType then 1 else 0)
  }

  /** The per-type counts never exceed the number of documents. */
  lemma {:induction false} TypeCountsBounded(files: seq<string>)
    ensures CountType(files, ".png") + CountType(files, ".pdf") + CountType(files, ".md") <= |files|
    decreases |files|
  {
    if files != [] {
      TypeCountsBounded(files[1..]);
    }
  }

  /** The draft dict before normalisation. */
  function DraftOf(provider: string, files: seq<string>, keyed: map<string, Record>, date: string): Record
  {
    map[
      "provider" := Str(provider),
      "extraction_date" := Str(date),
      "sources" := Obj(map[
        "documents" := Int(|files|),
        "png_files" := Int(CountType(files, ".png")),
        "pdf_files" := Int(CountType(files, ".pdf")),
        "md_files" := Int(CountType(files, ".md")),
        "models_extracted" := Int(|keyed|)]),
      "models" := Obj(map k | k in keyed :: Obj(keyed[k]))
    ]
  }

  /** How one provider's extraction ends: a normalised draft, or no models and no draft. */
  datatype Outcome = Drafted(draft: Record) | NoModels

  /** The documents handed to the parser, in order. */
  function Documents(files: seq<string>, env: string -> DocumentParser.Run): seq<DocumentParser.Document>
  {
    seq(|files|, i requires 0 <= i < |files| => DocumentParser.Document(files[i], env(files[i])))
  }

  /** The keyed models of a provider after the override. */
  function FinalKeyed(provider: string, models: seq<ModelInfo>, render: Value -> string): map<string, Record>
  {
    AnthropicOverride(provider, Keyed(provider, models, render))
  }

  /**
   * One iteration of the provider loop of `extract_from_documents`, over the
   * sorted document names `files`; None where it raises.
   */
  function ExtractFrom(
    provider: string, files: seq<string>, env: string -> DocumentParser.Run,
    parseJson: string -> Option<Value>, p: Parsers, render: Value -> string, date: string): Option<Outcome>
  {
    match DocumentParser.ParseProviderDocs(Documents(files, env), parseJson, p)
    case None => None
    case Some(models) =>
      var keyed := FinalKeyed(provider, models, render);
      if keyed == map[] then Some(NoModels)
      else
        match SchemaUtils.DraftNormalized(DraftOf(provider, files, keyed, date), p)
        case None => None
        case Some(d) => Some(Drafted(d))
  }

  /** The draft's source counts are integers, so normalising its metadata never raises. */
  lemma DraftMetadataSucceeds(provider: string, files: seq<string>, keyed: map<string, Record>, date: string)
    ensures SchemaUtils.ExtractionMetadata(DraftOf(provider, files, keyed, date)).Some?
  {
    var draft := DraftOf(provider, files, keyed, date);
    var n := PyLen(draft["models"]).value;
    var src := draft["sources"];
    assert SchemaUtils.SourcesReadable(src);
    assert SchemaUtils.Count(src, "screenshot", SchemaUtils.Count(src, "png_files", Int(0))) == Int(CountType(files, ".png"));
    SchemaUtils.MetadataRaises(src, n);
  }

  /** Normalising a draft raises exactly when normalising one of its keyed models does. */
  lemma DraftOfRaises(provider: string, files: seq<string>, keyed: map<string, Record>, date: string, p: Parsers)
    ensures SchemaUtils.DraftNormalized(DraftOf(provider, files, keyed, date), p).None? <==>
      exists k :: k in keyed && SchemaUtils.NormalizedEntry(Obj(keyed[k]), p).None?
  {
    var draft := DraftOf(provider, files, keyed, date);
    DraftMetadataSucceeds(provider, files, keyed, date);
    SchemaUtils.DraftRaises(draft, p);
    var models := draft["models"].fields;
    assert forall k :: k in keyed <==> k in models;
    assert forall k :: k in keyed ==> models[k] == Obj(keyed[k]);
  }

  /**
   * Extraction for one provider raises exactly when parsing its documents
   * raises or normalising one of its keyed models does.
   */
  lemma ExtractFromRaises(
    provider: string, files: seq<string>, env: string -> DocumentParser.Run,
    parseJson: string -> Option<Value>, p: Parsers, render: Value -> string, date: string)
    ensures ExtractFrom(provider, files, env, parseJson, p, render, date).None? <==>
      || DocumentParser.ParseProviderDocs(Documents(files, env), parseJson, p).None?
      || var keyed := FinalKeyed(provider, DocumentParser.ParseProviderDocs(Documents(files, env), parseJson, p).value, render);
         exists k :: k in keyed && SchemaUtils.NormalizedEntry(Obj(keyed[k]), p).None?
  {
    var parsed := DocumentParser.ParseProviderDocs(Documents(files, env), parseJson, p);
    if parsed.Some? {
      DraftOfRaises(provider, files, FinalKeyed(provider, parsed.value, render), date, p);
    }
  }

  /** One iteration of the provider loop of `extract_from_documents`. */
  method ExtractProvider(
    provider: string, dirExists: bool, entries: set<string>, env: string -> DocumentParser.Run,
    parseJson: string -> Option<Value>, p: Parsers, render: Value -> string, date: string)
    returns (files: seq<string>, r: Option<Outcome>)
    ensures SortedStrictly(files) && |files| == |DocumentNames(dirExists, entries)|
    ensures forall n :: n in files <==> n in DocumentNames(dirExists, entries)
    ensures r == ExtractFrom(provider, files, env, parseJson, p, render, date)
  {
    files := SortStrings(DocumentNames(dirExists, entries));
    var models, _ := DocumentParser.ParseProviderDocsAsync(Documents(files, env), parseJson, p);
    if models.None? {
      return files, None;
    }
    var keyed := ScreenshotModelsToKeyed(provider, models.value, render);
    keyed := ApplyAnthropicOverride(provider, keyed);
    if keyed == map[] {
      return files, Some(NoModels);
    }
    var draft := SchemaUtils.NormalizeDraftFile(DraftOf(provider, files, keyed, date), p);
    if draft.None? {
      return files, None;
    }
    r := Some(Drafted(draft.value));
  }

  /**
   * The draft before normalisation counts every document, has per-type
   * counts that fit within that number, and one extracted model per key.
   */
  lemma DraftCounts(provider: string, files: seq<string>, keyed: map<string, Record>, date: string)
    ensures var s := DraftOf(provider, files, keyed, date)["sources"].fields;
      && s["documents"] == Int(|files|)
      && s["png_files"].i + s["pdf_files"].i + s["md_files"].i <= |files|
      && s["models_extracted"] == Int(|keyed|)
  {
    TypeCountsBounded(files);
  }

  /**
   * A draft is written only when some model was keyed, and it holds exactly
   * the keyed models, each under `provider:` and its model name.
   */
  lemma ExtractedDraft(
    provider: string, files: seq<string>, env: string -> DocumentParser.Run,
    parseJson: string -> Option<Value>, p: Parsers, render: Value -> string, date: string)
    requires ExtractFrom(provider, files, env, parseJson, p, render, date).Some?
    ensures var o := ExtractFrom(provider, files, env, parseJson, p, render, date).value;
      var models := DocumentParser.ParseProviderDocs(Documents(files, env), parseJson, p).value;
      var keyed := FinalKeyed(provider, models, render);
      && (o.NoModels? <==> keyed == map[])
      && (o.Drafted? ==>
            && "models" in o.draft && o.draft["models"].Obj?
            && o.draft["models"].fields.Keys == keyed.Keys
            && forall k :: k in keyed ==> StartsWith(k, provider + ":"))
  {
    var o := ExtractFrom(provider, files, env, parseJson, p, render, date).value;
    var models := DocumentParser.ParseProviderDocs(Documents(files, env), parseJson, p).value;
    var keyed := FinalKeyed(provider, models, render);
    if o.Drafted? {
      var draft := DraftOf(provider, files, keyed, date);
      SchemaUtils.DraftModels(draft, p);
      forall k | k in keyed
        ensures StartsWith(k, provider + ":")
      {
        KeyedSpec(provider, models, render, k);
        var i :| 0 <= i < |models| && Truthy(models[i].modelId) && KeyOf(provider, models[i], render) == k;
        assert k[..|provider + ":"|] == provider + ":";
      }
    }
  }
}

=== FILE: json.dfy ===
/**
 * The JSON-like values that registry files, draft files and LLM answers are
 * made of, together with the handful of Python semantics the registry code
 * relies on: `dict.get`, truthiness (`bool(x)`, `x or d`), `==` between
 * numbers of different types, numeric comparison, and the `float()`/`int()`
 * coercions.
 */
module Json {
  import opened Wrappers
  import opened Strings
  import Sets

  /** A Python value as produced by `json.load`; floats are modelled as exact reals. */
  datatype Value =
    | Null
    | Bool(b: bool)
    | Int(i: int)
    | Real(r: real)
    | Str(s: string)
    | List(items: seq<Value>)
    | Obj(fields: map<string, Value>)

  /** A JSON object: one model record, a draft file, a manifest. */
  type Record = map<string, Value>

  /** `d.get(key)`: the stored value, or None when the key is absent. */
  function Get(d: Record, key: string): Value
  {
    if key in d then d[key] else Null
  }

  /** `d.get(key, default)`. */
  function GetOr(d: Record, key: string, default: Value): Value
  {
    if key in d then d[key] else default
  }

  /** Python truthiness, `bool(v)`. */
  predicate Truthy(v: Value)
  {
    match v
    case Null => false
    case Bool(b) => b
    case Int(i) => i != 0
    case Real(r) => r != 0.0
    case Str(s) => s != ""
    case List(xs) => xs != []
    case Obj(m) => m != map[]
  }

  /** `v or d`. */
  function Or(v: Value, d: Value): Value
  {
    if Truthy(v) then v else d
  }

  /** `isinstance(v, (int, float))`; `bool` is a subclass of `int` in Python. */
  predicate IsNumber(v: Value)
  {
    v.Bool? || v.Int? || v.Real?
  }

  function NumValue(v: Value): real
    requires IsNumber(v)
  {
    match v
    case Bool(b) => if b then 1.0 else 0.0
    case Int(i) => i as real
    case Real(r) => r
  }

  /**
   * A canonical form under which Python's `==` is plain equality: booleans
   * and integers compare equal to the float of the same value, recursively
   * inside lists and dicts.
   */
  function Canon(v: Value): Value
  {
    match v
    case Bool(b) => Real(if b then 1.0 else 0.0)
    case Int(i) => Real(i as real)
    case List(xs) => List(seq(|xs|, k requires 0 <= k < |xs| => Canon(xs[k])))
    case Obj(m) => Obj(map k | k in m :: Canon(m[k]))
    case _ => v
  }

  /** Python `a == b`. */
  predicate PyEq(a: Value, b: Value)
  {
    Canon(a) == Canon(b)
  }

  /** `v <= 0`; None where Python raises TypeError (v is not a number). */
  function LeZero(v: Value): Option<bool>
  {
    if IsNumber(v) then Some(NumValue(v) <= 0.0) else None
  }

  /** `v < 0`; None where Python raises TypeError. */
  function LtZero(v: Value): Option<bool>
  {
    if IsNumber(v) then Some(NumValue(v) < 0.0) else None
  }

  /** `v > 0`; None where Python raises TypeError. */
  function GtZero(v: Value): Option<bool>
  {
    if IsNumber(v) then Some(NumValue(v) > 0.0) else None
  }

  /**
   * The smallest integer magnitude that `float(n)` rejects with OverflowError:
   * 2^1024 - 2^970, the midpoint between the largest double and 2^1024.
   */
  const FLOAT_INT_LIMIT: int := 179769313486231580793728971405303415079934132710037826936173778980444968292764750946649017977587207096330286416692887910946555547851940402630657488671505820681908902000708383676273854845817711531764475730270069855571366959622842914819860834936475292719074168444365510704342711559699508093042880177904174497792

  /**
   * How `float(s)` and `int(s)` read text. Python's numeric-literal grammar
   * is not part of this model; the readers are inputs.
   */
  datatype Parsers = Parsers(parseFloat: string -> Option<real>, parseInt: string -> Option<int>)

  /** Truncation toward zero, as `int(x)` does for a float. */
  function Trunc(r: real): int
  {
    if r >= 0.0 then r.Floor else -((-r).Floor)
  }

  /** `float(v)` for a number; None where an int is too large for a double. */
  function NumberToFloat(v: Value): Option<real>
    requires IsNumber(v)
  {
    match v
    case Bool(b) => Some(if b then 1.0 else 0.0)
    case Int(i) => if -FLOAT_INT_LIMIT < i < FLOAT_INT_LIMIT then Some(i as real) else None
    case Real(r) => Some(r)
  }

  /** `float(v)`; None where Python raises. */
  function PyFloat(v: Value, p: Parsers): Option<real>
  {
    match v
    case Str(s) => p.parseFloat(s)
    case _ => if IsNumber(v) then NumberToFloat(v) else None
  }

  /**
   * `a + b` where the sum is then compared with a number: ints (and bools)
   * add exactly, a float operand makes the sum a float. None where Python
   * raises: a non-number operand (strings and lists concatenate, but the
   * comparison that follows raises), or an int too large to convert.
   */
  function PyAdd(a: Value, b: Value): (r: Option<Value>)
    ensures r.Some? ==> IsNumber(a) && IsNumber(b) && (r.value.Int? || r.value.Real?)
    ensures r.Some? && r.value.Int? ==> !a.Real? && !b.Real? && r.value.i as real == NumValue(a) + NumValue(b)
    ensures r.Some? && r.value.Real? ==> r.value.r == NumValue(a) + NumValue(b)
    ensures IsNumber(a) && IsNumber(b) && !a.Real? && !b.Real? ==> r.Some?
  {
    if !IsNumber(a) || !IsNumber(b) then None
    else if !a.Real? && !b.Real? then Some(Int(IntOf(a) + IntOf(b)))
    else
      match (NumberToFloat(a), NumberToFloat(b))
      case (Some(x), Some(y)) => Some(Real(x + y))
      case _ => None
  }

  /** The integer a bool or int stands for. */
  function IntOf(v: Value): (n: int)
    requires v.Bool? || v.Int?
    ensures n as real == NumValue(v)
  {
    if v.Bool? then (if v.b then 1 else 0) else v.i
  }

  /** `len(v)`; None where Python raises TypeError. */
  function PyLen(v: Value): Option<nat>
  {
    match v
    case Str(s) => Some(|s|)
    case List(xs) => Some(|xs|)
    case Obj(m) => Some(|m.Keys|)
    case _ => None
  }

  /** `key in v` for a string key; None where Python raises TypeError (v is not a container). */
  function PyIn(key: string, v: Value): Option<bool>
  {
    match v
    case Obj(m) => Some(key in m)
    case List(xs) => Some(Str(key) in xs)
    case Str(s) => Some(Contains(s, key))
    case _ => None
  }

  /** `int(v)`; None where Python raises. */
  function PyInt(v: Value, p: Parsers): Option<int>
  {
    match v
    case Bool(b) => Some(if b then 1 else 0)
    case Int(i) => Some(i)
    case Real(r) => Some(Trunc(r))
    case Str(s) => p.parseInt(s)
    case _ => None
  }

  /** In a merge `a | b` the right-hand dict wins... */
  lemma MergeRight(a: Record, b: Record, k: string)
    requires k in b
    ensures k in a + b && (a + b)[k] == b[k]
  {
  }

  /** ...and a key it does not hold keeps its left-hand value. */
  lemma MergeLeft(a: Record, b: Record, k: string)
    requires k in a && k !in b
    ensures k in a + b && (a + b)[k] == a[k]
  {
  }

  /**
   * `order` is the iteration order of the dict `m`: every key of `m`, each
   * exactly once. Dicts are maps here, so where the source depends on
   * insertion order that order is a parameter, tied to its dict by this
   * predicate.
   */
  ghost predicate IsKeyOrder<V>(m: map<string, V>, order: seq<string>)
  {
    && (forall i, j :: 0 <= i < j < |order| ==> order[i] != order[j])
    && (forall k :: k in order <==> k in m)
  }

  /** A dict has as many entries as its iteration order has positions. */
  lemma KeyOrderLength<V>(m: map<string, V>, order: seq<string>)
    requires IsKeyOrder(m, order)
    ensures |order| == |m|
  {
    Sets.DistinctSeqCardinality(order);
    assert m.Keys == set x | x in order;
  }
}

=== FILE: promote.dfy ===
/**
 * Promotion of drafts to production: which providers are promoted, the
 * spot check a draft must pass, the version bump and content stamp of the
 * published record, the manifest update, and the split of the providers
 * into successful and failed ones.
 */
module Promote {
  import opened Wrappers
  import opened Json
  import opened Strings

  /** A JSON file as the commands see it. */
  datatype Stored =
    | Missing          // the path does not exist
    | Unreadable       // it exists but cannot be opened or decoded as text (OSError, UnicodeDecodeError)
    | NotJson          // its text is not JSON (json.JSONDecodeError)
    | Loaded(v: Value) // json.load returned `v`

  /** Why `_validate_for_production` raises. */
  datatype Rejection =
    | NoModelsDict                             // no dict under "models" (or the draft is not a dict)
    | MissingField(key: string, field: string) // a spot-checked model lacks a required field
    | NotAContainer(key: string)               // `req in model` raises TypeError

  const DRAFT_SUFFIX := ".draft.json"
  const HASH_FIELD := "content_sha256_jcs"
  const SCHEMA_VERSION := "3.0"
  /** How many model entries the production check looks at. */
  const SPOT_CHECKED := 5
  const REQUIRED_FOR_PRODUCTION: seq<string> := ["model_name", "provider"]

  // ---------------------------------------------------------------------
  // _validate_for_production
  // ---------------------------------------------------------------------

  /** The first required field `model` lacks, if any; `in` on a non-container raises. */
  function MissingRequired(key: string, model: Value, fields: seq<string>): Option<Rejection>
  {
    if fields == [] then None
    else
      match PyIn(fields[0], model)
      case None => Some(NotAContainer(key))
      case Some(false) => Some(MissingField(key, fields[0]))
      case Some(true) => MissingRequired(key, model, fields[1..])
  }

  /** The spot check over the given model keys, in order. */
  function SpotCheck(models: map<string, Value>, keys: seq<string>): Option<Rejection>
  {
    if keys == [] then None
    else
      var here := if keys[0] in models then MissingRequired(keys[0], models[keys[0]], REQUIRED_FOR_PRODUCTION) else None;
      if here.Some? then here else SpotCheck(models, keys[1..])
  }

  /** The keys of the first five entries, `order` being the key order of the models dict. */
  function FirstEntries(order: seq<string>): seq<string>
  {
    if |order| <= SPOT_CHECKED then order else order[..SPOT_CHECKED]
  }

  /** Holds when the draft carries a dict under "models". */
  predicate HasModelsDict(data: Value)
  {
    data.Obj? && "models" in data.fields && data.fields["models"].Obj?
  }

  /** `_validate_for_production(data)`: None when it returns, the reason when it raises. */
  function ProductionCheck(data: Value, order: seq<string>): Option<Rejection>
  {
    if !HasModelsDict(data) then Some(NoModelsDict)
    else SpotCheck(data.fields["models"].fields, FirstEntries(order))
  }

  /** A model passes the spot check iff `in` finds every required field in it. */
  lemma {:induction false} MissingRequiredSpec(key: string, model: Value, fields: seq<string>)
    ensures MissingRequired(key, model, fields).None? <==>
      forall i :: 0 <= i < |fields| ==> PyIn(fields[i], model) == Some(true)
  {
    if fields != [] {
      MissingRequiredSpec(key, model, fields[1..]);
      assert forall i :: 1 <= i < |fields| ==> fields[1..][i - 1] == fields[i];
    }
  }

  lemma {:induction false} SpotCheckSpec(models: map<string, Value>, keys: seq<string>)
    ensures SpotCheck(models, keys).None? <==>
      forall i :: 0 <= i < |keys| && keys[i] in models ==> MissingRequired(keys[i], models[keys[i]], REQUIRED_FOR_PRODUCTION).None?
  {
    if keys != [] {
      SpotCheckSpec(models, keys[1..]);
      assert forall i :: 1 <= i < |keys| ==> keys[1..][i - 1] == keys[i];
    }
  }

  /**
   * A draft passes iff it has a models dict and each of the first five
   * entries contains both "model_name" and "provider".
   */
  lemma ProductionCheckSpec(data: Value, order: seq<string>)
    ensures ProductionCheck(data, order).None? <==>
      HasModelsDict(data) &&
      forall i :: 0 <= i < |order| && i < SPOT_CHECKED && order[i] in data.fields["models"].fields ==>
        PyIn("model_name", data.fields["models"].fields[order[i]]) == Some(true) &&
        PyIn("provider", data.fields["models"].fields[order[i]]) == Some(true)
  {
    if HasModelsDict(data) {
      var models := data.fields["models"].fields;
      var first := FirstEntries(order);
      SpotCheckSpec(models, first);
      forall i | 0 <= i < |first| && first[i] in models
        ensures MissingRequired(first[i], models[first[i]], REQUIRED_FOR_PRODUCTION).None? <==>
          PyIn("model_name", models[first[i]]) == Some(true) && PyIn("provider", models[first[i]]) == Some(true)
      {
        MissingRequiredSpec(first[i], models[first[i]], REQUIRED_FOR_PRODUCTION);
      }
    }
  }

  /**
   * Over the dict's own key order, the spot check looks at `min(5, len)`
   * distinct models of the dict: the first ones in that order.
   */
  lemma SpotCheckedEntries(models: map<string, Value>, order: seq<string>)
    requires IsKeyOrder(models, order)
    ensures |FirstEntries(order)| == if |models| <= SPOT_CHECKED then |models| else SPOT_CHECKED
    ensures forall i :: 0 <= i < |FirstEntries(order)| ==> FirstEntries(order)[i] == order[i] && order[i] in models
    ensures forall i, j :: 0 <= i < j < |FirstEntries(order)| ==> FirstEntries(order)[i] != FirstEntries(order)[j]
  {
    KeyOrderLength(models, order);
  }

  /** Entries after the fifth are never looked at: replacing one changes nothing. */
  lemma LaterEntriesIgnored(data: Record, order: seq<string>, k: string, v: Value)
    requires "models" in data && data["models"].Obj?
    requires k !in FirstEntries(order)
    ensures ProductionCheck(Obj(data["models" := Obj(data["models"].fields[k := v])]), order) ==
            ProductionCheck(Obj(data), order)
  {
    SpotCheckUnaffected(data["models"].fields, FirstEntries(order), k, v);
  }

  lemma {:induction false} SpotCheckUnaffected(models: map<string, Value>, keys: seq<string>, k: string, v: Value)
    requires k !in keys
    ensures SpotCheck(models[k := v], keys) == SpotCheck(models, keys)
  {
    if keys != [] {
      SpotCheckUnaffected(models, keys[1..], k, v);
    }
  }

  /** `_validate_for_production`. */
  method ValidateForProduction(data: Value, order: seq<string>) returns (r: Option<Rejection>)
    ensures r == ProductionCheck(data, order)
  {
    if !(data.Obj? && "models" in data.fields && data.fields["models"].Obj?) {
      return Some(NoModelsDict);
    }
    var models := data.fields["models"].fields;
    var first := FirstEntries(order);
    var i := 0;
    while i < |first|
      invariant 0 <= i <= |first|
      invariant SpotCheck(models, first) == SpotCheck(models, first[i..])
    {
      assert first[i..][1..] == first[i + 1..];
      if first[i] in models {
        var model := models[first[i]];
        var j := 0;
        while j < |REQUIRED_FOR_PRODUCTION|
          invariant 0 <= j <= |REQUIRED_FOR_PRODUCTION|
          invariant MissingRequired(first[i], model, REQUIRED_FOR_PRODUCTION) ==
                    MissingRequired(first[i], model, REQUIRED_FOR_PRODUCTION[j..])
        {
          assert REQUIRED_FOR_PRODUCTION[j..][1..] == REQUIRED_FOR_PRODUCTION[j + 1..];
          var req := REQUIRED_FOR_PRODUCTION[j];
          var found := PyIn(req, model);
          if found.None? {
            return Some(NotAContainer(first[i]));
          }
          if !found.value {
            return Some(MissingField(first[i], req));
          }
          j := j + 1;
        }
      }
      i := i + 1;
    }
    r := None;
  }

  // ---------------------------------------------------------------------
  // Versions and stamping
  // ---------------------------------------------------------------------

  /** `_get_current_version`: the stored version, 0 when absent, unreadable or not convertible. */
  function CurrentVersion(file: Stored, p: Parsers): (v: int)
    ensures !file.Loaded? ==> v == 0
    ensures file.Loaded? && file.v.Obj? && "version" !in file.v.fields ==> v == 0
    ensures file.Loaded? && file.v.Obj? && "version" in file.v.fields && file.v.fields["version"].Int? ==>
      v == file.v.fields["version"].i
  {
    match file
    case Loaded(Obj(d)) =>
      (match PyInt(GetOr(d, "version", Int(0)), p)
       case Some(n) => n
       case None => 0)
    case _ => 0
  }

  /** The promoted record: the draft with its new version, timestamp and content hash. */
  function Stamped(draft: Record, version: int, now: string, hash: Record -> string): Record
  {
    var dated := draft["version" := Int(version)]["updated_at" := Str(now)];
    dated[HASH_FIELD := Str(hash(dated))]
  }

  /**
   * Stamping adds exactly version, updated_at and the hash; the hash is
   * taken over the record before it is inserted, so it covers every other
   * field (and a hash the draft already carried), never itself.
   */
  lemma StampedSpec(draft: Record, version: int, now: string, hash: Record -> string)
    ensures Stamped(draft, version, now, hash).Keys == draft.Keys + {"version", "updated_at", HASH_FIELD}
    ensures Stamped(draft, version, now, hash)["version"] == Int(version)
    ensures Stamped(draft, version, now, hash)["updated_at"] == Str(now)
    ensures forall k :: k in draft && k !in {"version", "updated_at", HASH_FIELD} ==> Stamped(draft, version, now, hash)[k] == draft[k]
    ensures HASH_FIELD !in draft ==>
      Stamped(draft, version, now, hash)[HASH_FIELD] == Str(hash(Stamped(draft, version, now, hash) - {HASH_FIELD}))
  {
    var dated := draft["version" := Int(version)]["updated_at" := Str(now)];
    if HASH_FIELD !in draft {
      assert Stamped(draft, version, now, hash) - {HASH_FIELD} == dated;
    }
  }

  /** The stamping in `promote`, which updates the loaded draft in place. */
  method Stamp(draft: Record, version: int, now: string, hash: Record -> string) returns (r: Record)
    ensures r == Stamped(draft, version, now, hash)
  {
    r := draft;
    r := r["version" := Int(version)];
    r := r["updated_at" := Str(now)];
    r := r[HASH_FIELD := Str(hash(r))];
  }

  // ---------------------------------------------------------------------
  // _update_manifest
  // ---------------------------------------------------------------------

  /** The manifest `_update_manifest` starts from: the file, or a fresh one. */
  function ManifestBase(stored: Stored): Value
  {
    if stored.Loaded? then stored.v else Obj(map["providers" := Obj(map[])])
  }

  /** `d.setdefault(key, value)` as far as the dict is concerned. */
  function SetDefault(d: Record, key: string, value: Value): (r: Record)
    ensures key in r && (key in d ==> r == d)
    ensures key !in d ==> r == d[key := value]
  {
    if key in d then d else d[key := value]
  }

  /**
   * `_update_manifest`: the manifest it writes, or None where a
   * `setdefault` or an item assignment hits a value that is not a dict.
   */
  function ManifestUpdated(stored: Stored, provider: string, version: int, today: string, now: string): Option<Record>
  {
    var base := ManifestBase(stored);
    if !base.Obj? then None
    else
      var providers := GetOr(base.fields, "providers", Obj(map[]));
      if !providers.Obj? then None
      else
        var entry := GetOr(providers.fields, provider, Obj(map[]));
        if !entry.Obj? then None
        else
          var dated := entry.fields["version" := Int(version)]["last_updated" := Str(today)];
          var updated := base.fields["providers" := Obj(providers.fields[provider := Obj(dated)])];
          Some(SetDefault(SetDefault(updated, "schema_version", Str(SCHEMA_VERSION)), "updated_at", Str(now + "Z")))
  }

  /** The provider table of a manifest, when it is a dict. */
  function ProviderTable(manifest: Record): Option<map<string, Value>>
  {
    if "providers" in manifest && manifest["providers"].Obj? then Some(manifest["providers"].fields) else None
  }

  /** The update fails exactly where Python raises: the manifest, its providers or the entry is not a dict. */
  lemma ManifestFailure(stored: Stored, provider: string, version: int, today: string, now: string)
    ensures ManifestUpdated(stored, provider, version, today, now).None? <==>
      !ManifestBase(stored).Obj? ||
      !GetOr(ManifestBase(stored).fields, "providers", Obj(map[])).Obj? ||
      !GetOr(GetOr(ManifestBase(stored).fields, "providers", Obj(map[])).fields, provider, Obj(map[])).Obj?
  {
  }

  /** The provider's entry gets the version and date; its other fields stay. */
  lemma ManifestEntry(stored: Stored, provider: string, version: int, today: string, now: string)
    requires ManifestUpdated(stored, provider, version, today, now).Some?
    ensures var m := ManifestUpdated(stored, provider, version, today, now).value;
      ProviderTable(m).Some? && provider in ProviderTable(m).value &&
      ProviderTable(m).value[provider].Obj? &&
      ProviderTable(m).value[provider].fields["version"] == Int(version) &&
      ProviderTable(m).value[provider].fields["last_updated"] == Str(today)
    ensures var m := ManifestUpdated(stored, provider, version, today, now).value;
      var was := GetOr(GetOr(ManifestBase(stored).fields, "providers", Obj(map[])).fields, provider, Obj(map[])).fields;
      ProviderTable(m).Some? && provider in ProviderTable(m).value && ProviderTable(m).value[provider].Obj? &&
      ProviderTable(m).value[provider].fields.Keys == was.Keys + {"version", "last_updated"} &&
      forall f :: f in was && f != "version" && f != "last_updated" ==> ProviderTable(m).value[provider].fields[f] == was[f]
  {
  }

  /** Other providers' entries are untouched. */
  lemma ManifestOtherProviders(stored: Stored, provider: string, version: int, today: string, now: string, q: string)
    requires ManifestUpdated(stored, provider, version, today, now).Some?
    requires q != provider
    ensures var m := ManifestUpdated(stored, provider, version, today, now).value;
      var was := GetOr(ManifestBase(stored).fields, "providers", Obj(map[])).fields;
      ProviderTable(m).Some? && (q in ProviderTable(m).value <==> q in was) &&
      (q in was ==> ProviderTable(m).value[q] == was[q])
  {
  }

  /**
   * Top-level keys other than "providers" are kept; schema_version and
   * updated_at are only filled in when absent.
   */
  lemma ManifestTopLevel(stored: Stored, provider: string, version: int, today: string, now: string, k: string)
    requires ManifestUpdated(stored, provider, version, today, now).Some?
    requires k != "providers"
    ensures var m := ManifestUpdated(stored, provider, version, today, now).value;
      var base := ManifestBase(stored).fields;
      && (k in base ==> k in m && m[k] == base[k])
      && (k !in base ==> (k in m <==> k == "schema_version" || k == "updated_at"))
      && (k == "schema_version" && k !in base ==> m[k] == Str(SCHEMA_VERSION))
      && (k == "updated_at" && k !in base ==> m[k] == Str(now + "Z"))
  {
  }

  /** An absent or unreadable manifest is replaced by one that lists only this provider. */
  lemma ManifestReset(stored: Stored, provider: string, version: int, today: string, now: string)
    requires !stored.Loaded?
    ensures ManifestUpdated(stored, provider, version, today, now).Some?
    ensures var m := ManifestUpdated(stored, provider, version, today, now).value;
      m.Keys == {"providers", "schema_version", "updated_at"} &&
      ProviderTable(m).Some? && ProviderTable(m).value.Keys == {provider}
  {
    var m := ManifestUpdated(stored, provider, version, today, now).value;
    assert m.Keys == {"providers", "schema_version", "updated_at"};
  }

  /** `_update_manifest`, with its `setdefault` calls and in-place assignments. */
  method UpdateManifest(stored: Stored, provider: string, version: int, today: string, now: string)
    returns (r: Option<Record>)
    ensures r == ManifestUpdated(stored, provider, version, today, now)
  {
    var manifest := Obj(map["providers" := Obj(map[])]);
    if stored.Loaded? {
      manifest := stored.v;
    }
    if !manifest.Obj? {
      return None;
    }
    var top := manifest.fields;
    ghost var base := top;
    if "providers" !in top {
      top := top["providers" := Obj(map[])];
    }
    var providers := top["providers"];
    if !providers.Obj? {
      return None;
    }
    var entries := providers.fields;
    ghost var table := entries;
    if provider !in entries {
      entries := entries[provider := Obj(map[])];
    }
    var entry := entries[provider];
    if !entry.Obj? {
      return None;
    }
    var fields := entry.fields;
    fields := fields["version" := Int(version)];
    fields := fields["last_updated" := Str(today)];
    top := top["providers" := Obj(entries[provider := Obj(fields)])];
    assert entries[provider := Obj(fields)] == table[provider := Obj(fields)];
    assert top == base["providers" := Obj(table[provider := Obj(fields)])];
    if "schema_version" !in top {
      top := top["schema_version" := Str(SCHEMA_VERSION)];
    }
    if "updated_at" !in top {
      top := top["updated_at" := Str(now + "Z")];
    }
    r := Some(top);
  }

  // ---------------------------------------------------------------------
  // Provider discovery and the newest draft
  // ---------------------------------------------------------------------

  /** Matches the pattern `*.draft.json`. */
  predicate IsDraftName(name: string)
  {
    EndsWith(name, DRAFT_SUFFIX)
  }

  /** Matches the pattern `{prov}.*.draft.json`. */
  predicate IsDraftOf(name: string, prov: string)
  {
    |prov| + 1 + |DRAFT_SUFFIX| <= |name| && StartsWith(name, prov + ".") && EndsWith(name, DRAFT_SUFFIX)
  }

  /** With provider "all": the distinct names before the first "." of the draft files. */
  function Discovered(listing: seq<string>): set<string>
  {
    set n | n in listing && IsDraftName(n) :: BeforeFirstDot(n)
  }

  /** The draft files of one provider, in directory order. */
  function DraftsOf(prov: string, listing: seq<string>): (r: seq<string>)
    ensures forall n :: n in r <==> n in listing && IsDraftOf(n, prov)
  {
    if listing == [] then []
    else
      var rest := DraftsOf(prov, listing[..|listing| - 1]);
      if IsDraftOf(listing[|listing| - 1], prov) then rest + [listing[|listing| - 1]] else rest
  }

  /**
   * The first of `sorted(names, key=mtime, reverse=True)`: the sort is
   * stable, so among the newest files the first in directory order.
   */
  function Newest(names: seq<string>, mtime: string -> int): string
    requires names != []
  {
    if |names| == 1 then names[0]
    else
      var best := Newest(names[..|names| - 1], mtime);
      if mtime(names[|names| - 1]) > mtime(best) then names[|names| - 1] else best
  }

  lemma {:induction false} NewestSpec(names: seq<string>, mtime: string -> int)
    requires names != []
    ensures exists i :: 0 <= i < |names| && names[i] == Newest(names, mtime) && (forall j :: 0 <= j < i ==> mtime(names[j]) < mtime(names[i]))
    ensures forall j :: 0 <= j < |names| ==> mtime(names[j]) <= mtime(Newest(names, mtime))
  {
    if |names| == 1 {
      assert names[0] == Newest(names, mtime);
    } else {
      var front := names[..|names| - 1];
      var last := |names| - 1;
      NewestSpec(front, mtime);
      var best := Newest(front, mtime);
      assert forall j :: 0 <= j < last ==> names[j] == front[j];
      if mtime(names[last]) > mtime(best) {
        assert forall j :: 0 <= j < last ==> mtime(names[j]) < mtime(names[last]);
        assert names[last] == Newest(names, mtime);
      } else {
        var i :| 0 <= i < |front| && front[i] == best && (forall j :: 0 <= j < i ==> mtime(front[j]) < mtime(front[i]));
        assert names[i] == Newest(names, mtime);
      }
    }
  }

  /** A name ending in the draft suffix counts as a draft file. */
  lemma SuffixedIsDraft(prov: string)
    ensures IsDraftName(prov + DRAFT_SUFFIX)
  {
    var name := prov + DRAFT_SUFFIX;
    assert name[|name| - |DRAFT_SUFFIX|..] == DRAFT_SUFFIX;
  }

  /** The provider part of `<prov>.draft.json` is `prov` when it has no dot. */
  lemma ProviderOfUndated(prov: string)
    requires forall k :: 0 <= k < |prov| ==> prov[k] != '.'
    ensures BeforeFirstDot(prov + DRAFT_SUFFIX) == prov
  {
    var name := prov + DRAFT_SUFFIX;
    assert name[|prov|] == DRAFT_SUFFIX[0] == '.';
    var i := FindFirst(name, '.');
    assert i == |prov|;
    assert name[..i] == prov;
  }

  /** `<prov>.draft.json` makes `prov` a discovered provider... */
  lemma UndatedDraftDiscovered(prov: string)
    requires forall k :: 0 <= k < |prov| ==> prov[k] != '.'
    ensures prov in Discovered([prov + DRAFT_SUFFIX])
  {
    SuffixedIsDraft(prov);
    ProviderOfUndated(prov);
    assert prov + DRAFT_SUFFIX in [prov + DRAFT_SUFFIX];
  }

  /** ...but, with nothing between the provider and the suffix, it is never that provider's draft. */
  lemma UndatedDraftIgnored(prov: string)
    ensures DraftsOf(prov, [prov + DRAFT_SUFFIX]) == []
  {
    var name := prov + DRAFT_SUFFIX;
    assert !IsDraftOf(name, prov);
    assert [name][..0] == [];
  }

  // ---------------------------------------------------------------------
  // The promotion loop
  // ---------------------------------------------------------------------

  /** What `promote` finds on disk and in the clock; all of it is input here. */
  datatype Env = Env(
    listing: seq<string>,             // names in the drafts directory, in directory order
    mtime: string -> int,             // modification time of each draft file
    drafts: string -> Stored,         // content of each draft file
    keyOrder: string -> seq<string>,  // key order of the models dict of each draft file
    production: string -> Stored,     // models/<provider>.json before the run
    parsers: Parsers,
    today: string,                    // datetime.now() as %Y-%m-%d
    now: string,                      // datetime.now().isoformat()
    hash: Record -> string)           // SHA-256 of the canonical JSON

  /** The outcome for one provider: success, the record written to production, the manifest after. */
  datatype Promotion = Promotion(ok: bool, published: Option<Record>, manifest: Stored)

  /** The provider has a draft, the newest one loads, and it passes the production check. */
  predicate DraftPasses(prov: string, env: Env)
  {
    var names := DraftsOf(prov, env.listing);
    names != [] &&
    var path := Newest(names, env.mtime);
    env.drafts(path).Loaded? && ProductionCheck(env.drafts(path).v, env.keyOrder(path)).None?
  }

  /** One iteration of the loop in `promote`. */
  function PromotionOf(prov: string, env: Env, manifest: Stored): Promotion
  {
    var names := DraftsOf(prov, env.listing);
    if names == [] then Promotion(false, None, manifest)
    else
      var path := Newest(names, env.mtime);
      var stored := env.drafts(path);
      if !stored.Loaded? || ProductionCheck(stored.v, env.keyOrder(path)).Some? then Promotion(false, None, manifest)
      else
        var version := CurrentVersion(env.production(prov), env.parsers) + 1;
        var record := Stamped(stored.v.fields, version, env.now, env.hash);
        match ManifestUpdated(manifest, prov, version, env.today, env.now)
        case None => Promotion(false, Some(record), manifest)
        case Some(m) => Promotion(true, Some(record), Loaded(Obj(m)))
  }

  /** The lists and files after the loop has processed `ps`. */
  datatype Report = Report(successful: seq<string>, failed: seq<string>, published: map<string, Record>, manifest: Stored)

  /** The lists and files after one more provider `p`, whose outcome is `o`. */
  function Then(r: Report, p: string, o: Promotion): Report
  {
    Report(
      if o.ok then r.successful + [p] else r.successful,
      if o.ok then r.failed else r.failed + [p],
      if o.published.Some? then r.published[p := o.published.value] else r.published,
      o.manifest)
  }

  /** One iteration of the loop as a function of the provider and the manifest. */
  function Step(env: Env): (string, Stored) -> Promotion
  {
    (p: string, m: Stored) => PromotionOf(p, env, m)
  }

  /** The loop over `ps`, each provider seeing the manifest the previous ones left. */
  function Run(ps: seq<string>, step: (string, Stored) -> Promotion, manifest: Stored): Report
  {
    if ps == [] then Report([], [], map[], manifest)
    else
      var r := Run(ps[..|ps| - 1], step, manifest);
      Then(r, ps[|ps| - 1], step(ps[|ps| - 1], r.manifest))
  }

  /** One more provider of the loop. */
  lemma RunStep(ps: seq<string>, step: (string, Stored) -> Promotion, manifest: Stored, i: nat)
    requires i < |ps|
    ensures var r := Run(ps[..i], step, manifest);
      Run(ps[..i + 1], step, manifest) == Then(r, ps[i], step(ps[i], r.manifest))
  {
    assert ps[..i + 1][..i] == ps[..i];
  }

  /**
   * One provider: success needs a draft, a passing check and a manifest
   * update; the published record carries the previous version + 1; the
   * manifest changes only on success.
   */
  lemma PromotionSpec(prov: string, env: Env, manifest: Stored)
    ensures var o := PromotionOf(prov, env, manifest);
      && (o.published.Some? <==> DraftPasses(prov, env))
      && (o.ok ==> o.published.Some?)
      && (!o.ok ==> o.manifest == manifest)
      && (o.published.Some? ==> o.published.value["version"] == Int(CurrentVersion(env.production(prov), env.parsers) + 1))
  {
    var names := DraftsOf(prov, env.listing);
    if names != [] {
      var path := Newest(names, env.mtime);
      var stored := env.drafts(path);
      if stored.Loaded? && ProductionCheck(stored.v, env.keyOrder(path)).None? {
        StampedSpec(stored.v.fields, CurrentVersion(env.production(prov), env.parsers) + 1, env.now, env.hash);
      }
    }
  }

  /** A manifest that cannot be updated fails the provider after its record was written. */
  lemma ManifestFailureAfterPublish(prov: string, env: Env, manifest: Stored)
    requires manifest.Loaded? && !manifest.v.Obj?
    ensures !PromotionOf(prov, env, manifest).ok
    ensures PromotionOf(prov, env, manifest).manifest == manifest
  {
  }

  /** Every processed provider ends in exactly one of the two lists, in processing order. */
  lemma {:induction false} RunPartition(ps: seq<string>, step: (string, Stored) -> Promotion, manifest: Stored)
    ensures multiset(Run(ps, step, manifest).successful) + multiset(Run(ps, step, manifest).failed) == multiset(ps)
    ensures |Run(ps, step, manifest).successful| + |Run(ps, step, manifest).failed| == |ps|
  {
    if ps != [] {
      RunPartition(ps[..|ps| - 1], step, manifest);
      assert ps == ps[..|ps| - 1] + [ps[|ps| - 1]];
    }
  }

  /** With distinct providers, no provider is both successful and failed. */
  lemma RunDisjoint(ps: seq<string>, step: (string, Stored) -> Promotion, manifest: Stored, p: string)
    requires forall i, j :: 0 <= i < j < |ps| ==> ps[i] != ps[j]
    ensures !(p in Run(ps, step, manifest).successful && p in Run(ps, step, manifest).failed)
  {
    RunPartition(ps, step, manifest);
    var r := Run(ps, step, manifest);
    if p in r.successful && p in r.failed {
      assert multiset(ps)[p] >= 2;
      DistinctCount(ps, p);
    }
  }

  lemma {:induction false} DistinctCount(ps: seq<string>, p: string)
    requires forall i, j :: 0 <= i < j < |ps| ==> ps[i] != ps[j]
    ensures multiset(ps)[p] <= 1
  {
    if ps != [] {
      var front := ps[..|ps| - 1];
      DistinctCount(front, p);
      assert ps == front + [ps[|ps| - 1]];
      if ps[|ps| - 1] == p {
        assert p !in front;
      }
    }
  }

  /** `p` was published with the previous version + 1, and the manifest of `r` records that version. */
  ghost predicate Recorded(r: Report, p: string, env: Env)
  {
    var version := Int(CurrentVersion(env.production(p), env.parsers) + 1);
    && p in r.published && Get(r.published[p], "version") == version
    && var m := r.manifest;
    && m.Loaded? && m.v.Obj? && ProviderTable(m.v.fields).Some? && p in ProviderTable(m.v.fields).value
    && ProviderTable(m.v.fields).value[p].Obj?
    && Get(ProviderTable(m.v.fields).value[p].fields, "version") == version
  }

  /** The provider just promoted is recorded. */
  lemma RecordedLast(r: Report, last: string, env: Env)
    requires PromotionOf(last, env, r.manifest).ok
    ensures Recorded(Then(r, last, PromotionOf(last, env, r.manifest)), last, env)
  {
    PromotionSpec(last, env, r.manifest);
    var version := CurrentVersion(env.production(last), env.parsers) + 1;
    var m := ManifestUpdated(r.manifest, last, version, env.today, env.now);
    assert m.Some? && PromotionOf(last, env, r.manifest).manifest == Loaded(Obj(m.value));
    ManifestEntry(r.manifest, last, version, env.today, env.now);
  }

  /** A provider recorded earlier stays recorded, unless it is promoted again with success. */
  lemma RecordedKept(r: Report, last: string, env: Env, p: string)
    requires Recorded(r, p, env)
    requires p != last || !PromotionOf(last, env, r.manifest).ok
    ensures Recorded(Then(r, last, PromotionOf(last, env, r.manifest)), p, env)
  {
    var o := PromotionOf(last, env, r.manifest);
    PromotionSpec(last, env, r.manifest);
    if o.ok {
      var version := CurrentVersion(env.production(last), env.parsers) + 1;
      var m := ManifestUpdated(r.manifest, last, version, env.today, env.now);
      assert m.Some? && o.manifest == Loaded(Obj(m.value));
      ManifestBaseLoaded(r.manifest);
      ManifestOtherProviders(r.manifest, last, version, env.today, env.now, p);
    }
  }

  /**
   * Each successful provider was published with the previous version + 1,
   * and the final manifest records that version for it.
   */
  lemma {:induction false} RunSuccess(ps: seq<string>, env: Env, manifest: Stored, p: string)
    requires p in Run(ps, Step(env), manifest).successful
    ensures Recorded(Run(ps, Step(env), manifest), p, env)
  {
    var front := ps[..|ps| - 1];
    var last := ps[|ps| - 1];
    var r := Run(front, Step(env), manifest);
    assert Run(ps, Step(env), manifest) == Then(r, last, PromotionOf(last, env, r.manifest));
    if p in r.successful {
      RunSuccess(front, env, manifest, p);
    }
    if p == last && PromotionOf(last, env, r.manifest).ok {
      RecordedLast(r, last, env);
    } else {
      RecordedKept(r, last, env, p);
    }
  }

  lemma ManifestBaseLoaded(stored: Stored)
    requires stored.Loaded?
    ensures ManifestBase(stored) == stored.v
  {
  }

  /** The body of the loop in `promote` for one provider; the file writes are left out. */
  method PromoteOne(prov: string, env: Env, manifest: Stored) returns (o: Promotion)
    ensures o == PromotionOf(prov, env, manifest)
  {
    var names := DraftsOf(prov, env.listing);
    if names == [] {
      return Promotion(false, None, manifest);
    }
    var path := Newest(names, env.mtime);
    var stored := env.drafts(path);
    if !stored.Loaded? {
      return Promotion(false, None, manifest);
    }
    var rejection := ValidateForProduction(stored.v, env.keyOrder(path));
    if rejection.Some? {
      return Promotion(false, None, manifest);
    }
    var version := CurrentVersion(env.production(prov), env.parsers) + 1;
    var record := Stamp(stored.v.fields, version, env.now, env.hash);
    var updated := UpdateManifest(manifest, prov, version, env.today, env.now);
    if updated.None? {
      return Promotion(false, Some(record), manifest);
    }
    o := Promotion(true, Some(record), Loaded(Obj(updated.value)));
  }

  /** `promote`: choose the providers, then run the loop over them in sorted order. */
  method PromoteAll(provider: string, env: Env, manifest0: Stored) returns (order: seq<string>, report: Report)
    ensures provider != "all" ==> order == [provider]
    ensures provider == "all" ==> SortedStrictly(order) && forall x :: x in order <==> x in Discovered(env.listing)
    ensures report == Run(order, Step(env), manifest0)
  {
    if provider == "all" {
      order := SortStrings(Discovered(env.listing));
    } else {
      order := [provider];
    }
    var successful: seq<string> := [];
    var failed: seq<string> := [];
    var published: map<string, Record> := map[];
    var manifest := manifest0;
    var i := 0;
    while i < |order|
      invariant 0 <= i <= |order|
      invariant Report(successful, failed, published, manifest) == Run(order[..i], Step(env), manifest0)
    {
      RunStep(order, Step(env), manifest0, i);
      var prov := order[i];
      var o := PromoteOne(prov, env, manifest);
      assert o == Step(env)(prov, manifest);
      ghost var next := Then(Report(successful, failed, published, manifest), prov, o);
      if o.published.Some? {
        published := published[prov := o.published.value];
      }
      if o.ok {
        successful := successful + [prov];
      } else {
        failed := failed + [prov];
      }
      manifest := o.manifest;
      assert Report(successful, failed, published, manifest) == next;
      i := i + 1;
    }
    assert order[..|order|] == order;
    report := Report(successful, failed, published, manifest);
  }
}

=== FILE: reasoning_models.dfy ===
/**
 * The reasoning-model patch of a registry file: every model whose name is
 * one of the configured o1, o3 or GPT-5 names is flagged as a reasoning
 * model and given its minimum recommended reasoning-token budget, and the
 * number of such models is reported.
 */
module ReasoningModels {
  import opened Wrappers
  import opened Json
  import opened Strings
  import Sets

  /** One entry of `REASONING_MODELS_CONFIG`. */
  datatype Config = Config(isReasoningModel: bool, minRecommendedReasoningTokens: nat)

  const O_SERIES := Config(true, 5000)
  const GPT5_SERIES := Config(true, 2000)

  /** `REASONING_MODELS_CONFIG`: the o1 and o3 names get 5000 tokens, the GPT-5 names 2000. */
  const REASONING_MODELS_CONFIG: map<string, Config> := map[
    "o1" := O_SERIES,
    "o1-2024-12-17" := O_SERIES,
    "o1-mini" := O_SERIES,
    "o1-pro" := O_SERIES,
    "o1-pro-2025-03-19" := O_SERIES,
    "o3" := O_SERIES,
    "o3-2025-04-16" := O_SERIES,
    "o3-deep-research" := O_SERIES,
    "o3-deep-research-2025-06-26" := O_SERIES,
    "o3-mini" := O_SERIES,
    "o3-mini-2025-01-31" := O_SERIES,
    "o3-pro" := O_SERIES,
    "o3-pro-2025-06-10" := O_SERIES,
    "gpt-5" := GPT5_SERIES,
    "gpt-5-2025-08-07" := GPT5_SERIES,
    "gpt-5-chat-latest" := GPT5_SERIES,
    "gpt-5-codex" := GPT5_SERIES,
    "gpt-5-mini" := GPT5_SERIES,
    "gpt-5-mini-2025-08-07" := GPT5_SERIES,
    "gpt-5-nano" := GPT5_SERIES,
    "gpt-5-nano-2025-08-07" := GPT5_SERIES,
    "gpt-5-pro" := GPT5_SERIES,
    "gpt-5-pro-2025-10-06" := GPT5_SERIES
  ]

  /** Every configured name is an o1, o3 or GPT-5 name, flagged as reasoning, with the budget of its series. */
  lemma ConfigSeries(name: string)
    requires name in REASONING_MODELS_CONFIG
    ensures StartsWith(name, "o1") || StartsWith(name, "o3") || StartsWith(name, "gpt-5")
    ensures REASONING_MODELS_CONFIG[name].isReasoningModel
    ensures REASONING_MODELS_CONFIG[name].minRecommendedReasoningTokens == if StartsWith(name, "gpt-5") then 2000 else 5000
  {
    if name[0] == 'o' {
      assert REASONING_MODELS_CONFIG[name] == O_SERIES;
      NotGpt5(name);
    }
  }

  lemma NotGpt5(name: string)
    requires |name| > 0 && name[0] == 'o'
    ensures !StartsWith(name, "gpt-5")
  {
    if |name| >= 5 {
      assert name[..5][0] == 'o';
    }
  }

  /**
   * The name a model is looked up by: what follows the first ':' of its key,
   * or else its `model_name` (empty when absent); None where `.get` raises
   * because the model is not a dict.
   */
  function ModelName(key: string, modelData: Value): Option<Value>
  {
    var colon := FindFirst(key, ':');
    if colon < |key| then Some(Str(key[colon + 1..]))
    else if modelData.Obj? then Some(GetOr(modelData.fields, "model_name", Str("")))
    else None
  }

  /** The name is the text after the first colon of a key that has one. */
  lemma ModelNameFromKey(key: string, modelData: Value, i: nat)
    requires i < |key| && key[i] == ':' && forall j :: 0 <= j < i ==> key[j] != ':'
    ensures ModelName(key, modelData) == Some(Str(key[i + 1..]))
  {
    assert FindFirst(key, ':') == i;
  }

  /** A key without a colon falls back on the model's `model_name`. */
  lemma ModelNameFromRecord(key: string, modelData: Value)
    requires forall j :: 0 <= j < |key| ==> key[j] != ':'
    ensures ModelName(key, modelData) ==
      if modelData.Obj? then Some(GetOr(modelData.fields, "model_name", Str(""))) else None
  {
  }

  /** `model_name in REASONING_MODELS_CONFIG`: None where the name is unhashable (a list or a dict). */
  function ConfigOf(name: Value): Option<Option<Config>>
  {
    match name
    case Str(s) => Some(if s in REASONING_MODELS_CONFIG then Some(REASONING_MODELS_CONFIG[s]) else None)
    case List(_) => None
    case Obj(_) => None
    case _ => Some(None)
  }

  /** The two assignments to a configured model. */
  function Flagged(fields: Record, config: Config): Record
  {
    fields["is_reasoning_model" := Bool(config.isReasoningModel)]
          ["min_recommended_reasoning_tokens" := Int(config.minRecommendedReasoningTokens)]
  }

  /**
   * One iteration of the loop of `update_json_file`: the model afterwards and
   * whether it counts in `updates_made`; None where the iteration raises.
   */
  function EntryUpdate(key: string, modelData: Value): Option<(Value, bool)>
  {
    match ModelName(key, modelData)
    case None => None
    case Some(name) =>
      match ConfigOf(name)
      case None => None
      case Some(None) => Some((modelData, false))
      case Some(Some(config)) =>
        if modelData.Obj? then Some((Obj(Flagged(modelData.fields, config)), true)) else None
  }

  /** A list or a dict: `in` on a dict raises TypeError for it. */
  predicate Unhashable(v: Value)
  {
    v.List? || v.Obj?
  }

  /**
   * Updating one entry raises exactly when its name cannot be found (a
   * non-dict under a key without a colon), or the name is unhashable, or
   * the name is configured but the entry is not a dict.
   */
  lemma EntryUpdateRaises(key: string, modelData: Value)
    ensures EntryUpdate(key, modelData).None? <==>
      match ModelName(key, modelData)
      case None => true
      case Some(name) => Unhashable(name) || (!modelData.Obj? && name.Str? && name.s in REASONING_MODELS_CONFIG)
  {
  }

  /** A configured model ends flagged with its series' budget; every other field is kept. */
  lemma ConfiguredEntry(key: string, modelData: Value, name: string)
    requires ModelName(key, modelData) == Some(Str(name)) && name in REASONING_MODELS_CONFIG
    requires modelData.Obj?
    ensures EntryUpdate(key, modelData).Some? && EntryUpdate(key, modelData).value.1
    ensures var after := EntryUpdate(key, modelData).value.0;
      && after.Obj?
      && after.fields.Keys == modelData.fields.Keys + {"is_reasoning_model", "min_recommended_reasoning_tokens"}
      && after.fields["is_reasoning_model"] == Bool(true)
      && after.fields["min_recommended_reasoning_tokens"] == Int(if StartsWith(name, "gpt-5") then 2000 else 5000)
      && forall f :: f in modelData.fields && f != "is_reasoning_model" && f != "min_recommended_reasoning_tokens" ==>
           after.fields[f] == modelData.fields[f]
  {
    ConfigSeries(name);
  }

  /** A model whose name is not configured is left as it is and not counted. */
  lemma UnconfiguredEntry(key: string, modelData: Value, name: Value)
    requires ModelName(key, modelData) == Some(name)
    requires ConfigOf(name) == Some(None)
    ensures EntryUpdate(key, modelData) == Some((modelData, false))
  {
  }

  /** A model is counted exactly when its name is a configured string. */
  lemma CountedIffConfigured(key: string, modelData: Value)
    requires EntryUpdate(key, modelData).Some?
    ensures EntryUpdate(key, modelData).value.1 <==>
      exists name :: ModelName(key, modelData) == Some(Str(name)) && name in REASONING_MODELS_CONFIG
  {
    if EntryUpdate(key, modelData).value.1 {
      var name := ModelName(key, modelData).value.s;
      assert ModelName(key, modelData) == Some(Str(name));
    }
  }

  /** Every model of the dict updates without raising. */
  predicate AllUpdate(models: map<string, Value>)
  {
    forall k :: k in models ==> EntryUpdate(k, models[k]).Some?
  }

  function UpdatedModels(models: map<string, Value>): (r: map<string, Value>)
    requires AllUpdate(models)
    ensures r.Keys == models.Keys
  {
    map k | k in models :: EntryUpdate(k, models[k]).value.0
  }

  /** The keys of the models counted among `keys`. */
  function CountedKeys(models: map<string, Value>, keys: set<string>): set<string>
    requires keys <= models.Keys
    requires forall k :: k in keys ==> EntryUpdate(k, models[k]).Some?
  {
    set k | k in keys && EntryUpdate(k, models[k]).value.1
  }

  /** What `update_json_file` does with a loaded file. */
  datatype Outcome =
    | NoModels                                      // warns and writes nothing
    | Written(data: Record, updatesMade: nat)       // writes `data` back

  /**
   * `update_json_file` on the loaded JSON value; None where it raises
   * (`data['models']` on a non-dict, `.items()` on a non-dict, or an
   * iteration that raises).
   */
  function ReasoningUpdate(data: Value): Option<Outcome>
  {
    if data.Obj? then
      if "models" !in data.fields then Some(NoModels)
      else
        var models := data.fields["models"];
        if !models.Obj? || !AllUpdate(models.fields) then None
        else Some(Written(data.fields["models" := Obj(UpdatedModels(models.fields))],
                          |CountedKeys(models.fields, models.fields.Keys)|))
    else if PyIn("models", data) == Some(false) then Some(NoModels)
    else None
  }

  /**
   * `update_json_file` raises exactly when `models` is present but is not a
   * dict, or some entry raises, or the file holds no dict and `in` raises or
   * finds `models` in it.
   */
  lemma ReasoningUpdateRaises(data: Value)
    ensures ReasoningUpdate(data).None? <==>
      if data.Obj? then
        "models" in data.fields &&
        (!data.fields["models"].Obj? ||
         exists k :: k in data.fields["models"].fields && EntryUpdate(k, data.fields["models"].fields[k]).None?)
      else PyIn("models", data) != Some(false)
  {
  }

  /** A dict without `models` is not written back. */
  lemma NoModelsNotWritten(data: Value)
    requires data.Obj? && "models" !in data.fields
    ensures ReasoningUpdate(data) == Some(NoModels)
  {
  }

  /** `updates_made` is at most the number of models. */
  lemma UpdatesMadeBounded(data: Value)
    requires ReasoningUpdate(data).Some? && ReasoningUpdate(data).value.Written?
    ensures data.Obj? && "models" in data.fields && data.fields["models"].Obj?
    ensures ReasoningUpdate(data).value.updatesMade <= |data.fields["models"].fields|
  {
    var models := data.fields["models"].fields;
    Sets.SubsetCardinality(CountedKeys(models, models.Keys), models.Keys);
  }

  /** The update keeps every model's name, so a second one looks the same names up. */
  lemma NamePreserved(key: string, modelData: Value)
    requires EntryUpdate(key, modelData).Some?
    ensures ModelName(key, EntryUpdate(key, modelData).value.0) == ModelName(key, modelData)
  {
  }

  /** Updating an updated model changes nothing and counts it the same way. */
  lemma EntryIdempotent(key: string, modelData: Value)
    requires EntryUpdate(key, modelData).Some?
    ensures EntryUpdate(key, EntryUpdate(key, modelData).value.0) == EntryUpdate(key, modelData)
  {
    NamePreserved(key, modelData);
    var (after, counted) := EntryUpdate(key, modelData).value;
    if counted {
      var config := ConfigOf(ModelName(key, modelData).value).value.value;
      assert Flagged(after.fields, config) == after.fields;
    }
  }

  /** Running the patch on its own output writes the same file with the same count. */
  lemma ReasoningUpdateIdempotent(data: Value)
    requires ReasoningUpdate(data).Some? && ReasoningUpdate(data).value.Written?
    ensures var once := ReasoningUpdate(data).value;
      ReasoningUpdate(Obj(once.data)) == Some(once)
  {
    var models := data.fields["models"].fields;
    var updated := UpdatedModels(models);
    forall k | k in updated
      ensures EntryUpdate(k, updated[k]) == EntryUpdate(k, models[k])
    {
      EntryIdempotent(k, models[k]);
    }
    assert AllUpdate(updated);
    assert UpdatedModels(updated) == updated;
    assert CountedKeys(updated, updated.Keys) == CountedKeys(models, models.Keys);
    var once := data.fields["models" := Obj(updated)];
    assert once["models" := Obj(updated)] == once;
  }

  /** The body of the loop of `update_json_file` for one model. */
  method UpdateModel(key: string, modelData: Value) returns (r: Option<(Value, bool)>)
    ensures r == EntryUpdate(key, modelData)
  {
    var name: Value;
    var colon := FindFirst(key, ':');
    if colon < |key| {
      name := Str(key[colon + 1..]);
    } else if modelData.Obj? {
      name := GetOr(modelData.fields, "model_name", Str(""));
    } else {
      return None;
    }
    if name.List? || name.Obj? {
      return None;
    }
    if !name.Str? || name.s !in REASONING_MODELS_CONFIG {
      return Some((modelData, false));
    }
    if !modelData.Obj? {
      return None;
    }
    var config := REASONING_MODELS_CONFIG[name.s];
    var fields := modelData.fields;
    fields := fields["is_reasoning_model" := Bool(config.isReasoningModel)];
    fields := fields["min_recommended_reasoning_tokens" := Int(config.minRecommendedReasoningTokens)];
    r := Some((Obj(fields), true));
  }

  /**
   * The loop invariant of `update_json_file`: the models in `done` hold
   * their updated value, the others their original one, and `count` is the
   * number of configured models among `done`.
   */
  ghost predicate Progress(original: map<string, Value>, models: map<string, Value>, done: set<string>, count: int)
  {
    && Updated(original, models, done)
    && count == |CountedKeys(original, done)|
  }

  ghost predicate Updated(original: map<string, Value>, models: map<string, Value>, done: set<string>)
  {
    && done <= original.Keys
    && models.Keys == original.Keys
    && (forall k :: k in done ==> EntryUpdate(k, original[k]).Some? && models[k] == EntryUpdate(k, original[k]).value.0)
    && (forall k :: k in original && k !in done ==> models[k] == original[k])
  }

  lemma ProgressStart(original: map<string, Value>)
    ensures Progress(original, original, {}, 0)
  {
    assert CountedKeys(original, {}) == {};
  }

  lemma ProgressStep(original: map<string, Value>, models: map<string, Value>, done: set<string>, count: int,
                     key: string, v: Value, counted: bool)
    requires Progress(original, models, done, count)
    requires key in original && key !in done && EntryUpdate(key, original[key]) == Some((v, counted))
    ensures Progress(original, models[key := v], done + {key}, count + if counted then 1 else 0)
  {
    UpdatedStep(original, models, done, key, v);
    CountedStep(original, done, key);
  }

  lemma UpdatedStep(original: map<string, Value>, models: map<string, Value>, done: set<string>, key: string, v: Value)
    requires Updated(original, models, done)
    requires key in original && key !in done && EntryUpdate(key, original[key]).Some?
    requires v == EntryUpdate(key, original[key]).value.0
    ensures Updated(original, models[key := v], done + {key})
  {
  }

  /** Counting one more key: it joins the counted keys exactly when its model is configured. */
  lemma CountedStep(original: map<string, Value>, done: set<string>, key: string)
    requires done <= original.Keys && key in original && key !in done
    requires forall k :: k in done + {key} ==> EntryUpdate(k, original[k]).Some?
    ensures |CountedKeys(original, done + {key})| ==
      |CountedKeys(original, done)| + if EntryUpdate(key, original[key]).value.1 then 1 else 0
  {
    assert CountedKeys(original, done + {key}) ==
      CountedKeys(original, done) + (if EntryUpdate(key, original[key]).value.1 then {key} else {});
  }

  lemma ProgressEnd(original: map<string, Value>, models: map<string, Value>, count: int)
    requires Progress(original, models, original.Keys, count)
    ensures AllUpdate(original)
    ensures models == UpdatedModels(original)
    ensures count == |CountedKeys(original, original.Keys)|
  {
  }

  /** `update_json_file` on the loaded JSON value: the loop over the models, then the write-back. */
  method UpdateJsonFile(data: Value) returns (r: Option<Outcome>)
    ensures r == ReasoningUpdate(data)
  {
    if !data.Obj? {
      if PyIn("models", data) == Some(false) {
        return Some(NoModels);
      }
      return None;
    }
    if "models" !in data.fields {
      return Some(NoModels);
    }
    if !data.fields["models"].Obj? {
      return None;
    }
    var original := data.fields["models"].fields;
    var models := original;
    var updatesMade := 0;
    var rest := original.Keys;
    ProgressStart(original);
    while rest != {}
      invariant rest <= original.Keys
      invariant Progress(original, models, original.Keys - rest, updatesMade)
      decreases rest
    {
      var key :| key in rest;
      var next := UpdateModel(key, original[key]);
      if next.None? {
        return None;
      }
      ProgressStep(original, models, original.Keys - rest, updatesMade, key, next.value.0, next.value.1);
      models := models[key := next.value.0];
      if next.value.1 {
        updatesMade := updatesMade + 1;
      }
      assert original.Keys - (rest - {key}) == (original.Keys - rest) + {key};
      rest := rest - {key};
    }
    assert original.Keys - rest == original.Keys;
    ProgressEnd(original, models, updatesMade);
    r := Some(Written(data.fields["models" := Obj(models)], updatesMade));
  }
}

=== FILE: review.dfy ===
/**
 * The review step: the difference between the current catalogue of a
 * provider and a draft catalogue (models added, removed and changed field by
 * field), and the replay of such a difference onto the current catalogue.
 */
module Review {
  import opened Wrappers
  import opened Json

  /** The old and the new value of one field of one model. */
  datatype Change = Change(before: Value, after: Value)

  /** The `{"added", "removed", "changed"}` dict built by the diff. */
  datatype Diff = Diff(added: Record, removed: Record, changed: map<string, map<string, Change>>)

  const EMPTY_DIFF := Diff(map[], map[], map[])

  /** The field the diff never reports. */
  const CONFIDENCE := "_confidence"

  /** `d.get("models", {})`. */
  function ModelsOf(d: Record): Value
  {
    GetOr(d, "models", Obj(map[]))
  }

  /** The fields among `ks` whose value differs between two versions of one record. */
  function ChangesOver(cur: Record, draftRec: Record, ks: set<string>): map<string, Change>
  {
    map fk | fk in ks && fk != CONFIDENCE && !PyEq(Get(cur, fk), Get(draftRec, fk)) :: Change(Get(cur, fk), Get(draftRec, fk))
  }

  /** The per-field changes of one model present in both catalogues. */
  function FieldChanges(cur: Record, draftRec: Record): map<string, Change>
  {
    ChangesOver(cur, draftRec, cur.Keys + draftRec.Keys)
  }

  /**
   * The inputs on which `_generate_diff` does not raise: both `models` values
   * are dicts, and so is every model record found in both.
   */
  predicate Diffable(current: Record, draft: Record)
  {
    var cm := ModelsOf(current);
    var dm := ModelsOf(draft);
    cm.Obj? && dm.Obj? &&
    forall k :: k in cm.fields && k in dm.fields ==> cm.fields[k].Obj? && dm.fields[k].Obj?
  }

  /** The `changed` part of the diff over the shared keys `ks`. */
  function ChangedOver(cm: Record, dm: Record, ks: set<string>): map<string, map<string, Change>>
    requires forall k :: k in ks ==> k in cm && k in dm && cm[k].Obj? && dm[k].Obj?
  {
    map k | k in ks && FieldChanges(cm[k].fields, dm[k].fields) != map[] :: FieldChanges(cm[k].fields, dm[k].fields)
  }

  /** `_generate_diff(current, draft)`; None where Python raises. */
  function DiffOf(current: Record, draft: Record): Option<Diff>
  {
    if !Diffable(current, draft) then None
    else
      var cm := ModelsOf(current).fields;
      var dm := ModelsOf(draft).fields;
      Some(Diff(
        map k | k in dm && k !in cm :: dm[k],
        map k | k in cm && k !in dm :: cm[k],
        ChangedOver(cm, dm, cm.Keys * dm.Keys)))
  }

  /** The inner loop of `_generate_diff`: the changed fields of one model. */
  method CompareFields(cur: Record, draftRec: Record) returns (fc: map<string, Change>)
    ensures fc == FieldChanges(cur, draftRec)
  {
    fc := map[];
    var todo := cur.Keys + draftRec.Keys;
    ghost var seen: set<string> := {};
    while todo != {}
      invariant todo + seen == cur.Keys + draftRec.Keys && todo !! seen
      invariant fc == ChangesOver(cur, draftRec, seen)
      decreases todo
    {
      var fk :| fk in todo;
      if fk != CONFIDENCE && !PyEq(Get(cur, fk), Get(draftRec, fk)) {
        fc := fc[fk := Change(Get(cur, fk), Get(draftRec, fk))];
      }
      todo := todo - {fk};
      seen := seen + {fk};
    }
  }

  /** `_generate_diff`: the two comprehensions and the loop over the shared keys. */
  method GenerateDiff(current: Record, draft: Record) returns (r: Option<Diff>)
    ensures r == DiffOf(current, draft)
  {
    var cmv := ModelsOf(current);
    var dmv := ModelsOf(draft);
    if !cmv.Obj? || !dmv.Obj? {
      return None;
    }
    var cm := cmv.fields;
    var dm := dmv.fields;
    var added := map k | k in dm && k !in cm :: dm[k];
    var removed := map k | k in cm && k !in dm :: cm[k];
    var changed: map<string, map<string, Change>> := map[];
    var todo := cm.Keys * dm.Keys;
    ghost var done: set<string> := {};
    while todo != {}
      invariant todo + done == cm.Keys * dm.Keys && todo !! done
      invariant forall k :: k in done ==> cm[k].Obj? && dm[k].Obj?
      invariant changed == ChangedOver(cm, dm, done)
      decreases todo
    {
      var key :| key in todo;
      var cur := cm[key];
      var draftRec := dm[key];
      if !cur.Obj? || !draftRec.Obj? {
        return None;
      }
      var fc := CompareFields(cur.fields, draftRec.fields);
      ChangedOverStep(cm, dm, done, key);
      if fc != map[] {
        changed := changed[key := fc];
      }
      todo := todo - {key};
      done := done + {key};
    }
    r := Some(Diff(added, removed, changed));
  }

  /** One more shared model compared. */
  lemma ChangedOverStep(cm: Record, dm: Record, ks: set<string>, key: string)
    requires forall k :: k in ks ==> k in cm && k in dm && cm[k].Obj? && dm[k].Obj?
    requires key in cm && key in dm && cm[key].Obj? && dm[key].Obj?
    ensures var fc := FieldChanges(cm[key].fields, dm[key].fields);
      ChangedOver(cm, dm, ks + {key}) ==
        if fc != map[] then ChangedOver(cm, dm, ks)[key := fc] else ChangedOver(cm, dm, ks)
  {
  }

  /** The `new` halves of a model's changes. */
  function NewValues(cs: map<string, Change>): Record
  {
    map fk | fk in cs :: cs[fk].after
  }

  /**
   * `base = models.get(k, {}).copy()` followed by the writes of the new
   * values, for a model `m` already in the catalogue. A list survives only an
   * empty change set; anything without `copy` raises.
   */
  function Patch(m: Value, cs: map<string, Change>): Option<Value>
  {
    match m
    case Obj(f) => Some(Obj(f + NewValues(cs)))
    case List(_) => if cs == map[] then Some(m) else None
    case _ => None
  }

  /** The catalogue after the removals and the additions of a diff. */
  function Staged(models: Record, diff: Diff): Record
  {
    (models - diff.removed.Keys) + diff.added
  }

  /** The model stored under `k` once its changes `cs` are written; None where Python raises. */
  function PatchedEntry(staged: Record, cs: map<string, Change>, k: string): Option<Value>
  {
    if k in staged then Patch(staged[k], cs) else Some(Obj(NewValues(cs)))
  }

  predicate PatchableOver(staged: Record, changed: map<string, map<string, Change>>, ks: set<string>)
  {
    forall k :: k in ks && k in changed ==> PatchedEntry(staged, changed[k], k).Some?
  }

  predicate Patchable(staged: Record, changed: map<string, map<string, Change>>)
  {
    PatchableOver(staged, changed, changed.Keys)
  }

  /** The catalogue once the changes of the models in `ks` are written. */
  function PatchedOver(staged: Record, changed: map<string, map<string, Change>>, ks: set<string>): Record
    requires ks <= changed.Keys && PatchableOver(staged, changed, ks)
  {
    map k | k in staged.Keys + ks :: if k in ks then PatchedEntry(staged, changed[k], k).value else staged[k]
  }

  /** The catalogue after the changes of a diff. */
  function Patched(staged: Record, changed: map<string, map<string, Change>>): Record
    requires Patchable(staged, changed)
  {
    PatchedOver(staged, changed, changed.Keys)
  }

  /**
   * `_apply_diff(current, diff)`; None where Python raises. A list of models
   * survives only an empty diff, since `pop`, item assignment and `get` on a
   * list raise.
   */
  function Applied(current: Record, diff: Diff): Option<Record>
  {
    var m := ModelsOf(current);
    if m.List? then
      if diff == EMPTY_DIFF then Some(current["models" := m]) else None
    else if !m.Obj? then None
    else
      var staged := Staged(m.fields, diff);
      if !Patchable(staged, diff.changed) then None
      else Some(current["models" := Obj(Patched(staged, diff.changed))])
  }

  /** The writes `base[fk] = vals.get("new")` of one changed model. */
  method WriteNewValues(base: Record, cs: map<string, Change>) returns (b: Record)
    ensures b == base + NewValues(cs)
  {
    b := base;
    var todo := cs.Keys;
    ghost var seen: set<string> := {};
    while todo != {}
      invariant todo + seen == cs.Keys && todo !! seen
      invariant b == base + NewValues(map fk | fk in seen :: cs[fk])
      decreases todo
    {
      var fk :| fk in todo;
      b := b[fk := cs[fk].after];
      todo := todo - {fk};
      seen := seen + {fk};
    }
    assert (map fk | fk in seen :: cs[fk]) == cs;
  }

  /** The `pop` loop of `_apply_diff`. */
  method RemoveModels(models: Record, removed: set<string>) returns (rest: Record)
    ensures rest == models - removed
  {
    rest := models;
    var todo := removed;
    while todo != {}
      invariant todo <= removed
      invariant rest == models - (removed - todo)
      decreases todo
    {
      var k :| k in todo;
      rest := rest - {k};
      todo := todo - {k};
    }
  }

  /** The assignment loop over the added models of `_apply_diff`. */
  method AddModels(models: Record, added: Record) returns (all: Record)
    ensures all == models + added
  {
    all := models;
    var todo := added.Keys;
    ghost var seen: set<string> := {};
    while todo != {}
      invariant todo + seen == added.Keys && todo !! seen
      invariant all == models + (map k | k in seen :: added[k])
      decreases todo
    {
      var k :| k in todo;
      all := all[k := added[k]];
      todo := todo - {k};
      seen := seen + {k};
    }
    assert (map k | k in seen :: added[k]) == added;
  }

  /** The loop over the changed models of `_apply_diff`. */
  method PatchModels(staged: Record, changed: map<string, map<string, Change>>) returns (r: Option<Record>)
    ensures r.Some? <==> Patchable(staged, changed)
    ensures r.Some? ==> r.value == Patched(staged, changed)
  {
    var models := staged;
    var todo := changed.Keys;
    ghost var done: set<string> := {};
    while todo != {}
      invariant todo + done == changed.Keys && todo !! done
      invariant PatchableOver(staged, changed, done)
      invariant models == PatchedOver(staged, changed, done)
      decreases todo
    {
      var k :| k in todo;
      assert k !in done;
      var base := if k in models then models[k] else Obj(map[]);
      assert k in models ==> models[k] == staged[k];
      var entry: Value;
      if base.Obj? {
        var b := WriteNewValues(base.fields, changed[k]);
        assert k !in staged ==> b == NewValues(changed[k]);
        entry := Obj(b);
      } else if base.List? && changed[k] == map[] {
        entry := base;
      } else {
        return None;
      }
      assert PatchedEntry(staged, changed[k], k) == Some(entry);
      PatchedOverStep(staged, changed, done, k);
      models := models[k := entry];
      todo := todo - {k};
      done := done + {k};
    }
    r := Some(models);
  }

  /** One more model written. */
  lemma PatchedOverStep(staged: Record, changed: map<string, map<string, Change>>, ks: set<string>, k: string)
    requires ks <= changed.Keys && PatchableOver(staged, changed, ks)
    requires k in changed && PatchedEntry(staged, changed[k], k).Some?
    ensures PatchableOver(staged, changed, ks + {k})
    ensures PatchedOver(staged, changed, ks + {k}) == PatchedOver(staged, changed, ks)[k := PatchedEntry(staged, changed[k], k).value]
  {
  }

  /** `_apply_diff`: copy the catalogue, replay the diff, put it back into a copy of `current`. */
  method ApplyDiff(current: Record, diff: Diff) returns (r: Option<Record>)
    ensures r == Applied(current, diff)
  {
    var m := ModelsOf(current);
    if m.List? {
      if diff.removed != map[] || diff.added != map[] || diff.changed != map[] {
        return None;
      }
      return Some(current["models" := m]);
    }
    if !m.Obj? {
      return None;
    }
    var rest := RemoveModels(m.fields, diff.removed.Keys);
    var staged := AddModels(rest, diff.added);
    var patched := PatchModels(staged, diff.changed);
    if patched.None? {
      return None;
    }
    r := Some(current["models" := Obj(patched.value)]);
  }

  // ---------------------------------------------------------------------
  // Properties of the diff
  // ---------------------------------------------------------------------

  /**
   * A field is reported as changed exactly when it is not `_confidence` and
   * the two `get` results differ under Python's `==`; so a field absent on
   * one side and None on the other is not a change.
   */
  lemma FieldChangesSpec(cur: Record, draftRec: Record, fk: string)
    ensures fk in FieldChanges(cur, draftRec) <==> fk != CONFIDENCE && !PyEq(Get(cur, fk), Get(draftRec, fk))
    ensures fk in FieldChanges(cur, draftRec) ==> FieldChanges(cur, draftRec)[fk] == Change(Get(cur, fk), Get(draftRec, fk))
    ensures fk !in cur && Get(draftRec, fk) == Null ==> fk !in FieldChanges(cur, draftRec)
  {
  }

  /**
   * The diff partitions the model keys: `added` holds the draft-only models
   * verbatim, `removed` the current-only models, `changed` only shared keys,
   * each with a non-empty set of field changes; the three are disjoint.
   */
  lemma DiffPartition(current: Record, draft: Record)
    requires DiffOf(current, draft).Some?
    ensures var d := DiffOf(current, draft).value;
      var cm := ModelsOf(current).fields;
      var dm := ModelsOf(draft).fields;
      && d.added.Keys == dm.Keys - cm.Keys
      && d.removed.Keys == cm.Keys - dm.Keys
      && d.changed.Keys <= cm.Keys * dm.Keys
      && d.added.Keys !! d.removed.Keys
      && d.added.Keys !! d.changed.Keys
      && d.removed.Keys !! d.changed.Keys
      && (forall k :: k in d.added ==> d.added[k] == dm[k])
      && (forall k :: k in d.removed ==> d.removed[k] == cm[k])
      && (forall k :: k in d.changed ==> d.changed[k] != map[])
  {
  }

  /** A catalogue compared with itself has no additions, removals or changes. */
  lemma DiffSelf(x: Record)
    requires DiffOf(x, x).Some?
    ensures DiffOf(x, x) == Some(EMPTY_DIFF)
  {
    var m := ModelsOf(x).fields;
    forall k | k in m
      ensures FieldChanges(m[k].fields, m[k].fields) == map[]
    {
      var f := m[k].fields;
      forall fk | fk in FieldChanges(f, f)
        ensures false
      {
        FieldChangesSpec(f, f, fk);
      }
    }
  }

  /** `_apply_diff` touches only `models`: every other top-level key keeps its value. */
  lemma ApplyKeepsTopLevel(current: Record, diff: Diff, key: string)
    requires Applied(current, diff).Some? && key != "models"
    ensures "models" in Applied(current, diff).value
    ensures key in Applied(current, diff).value <==> key in current
    ensures key in current ==> Applied(current, diff).value[key] == current[key]
  {
  }

  /** Replaying the empty diff changes nothing in a catalogue that has a `models` dict or list. */
  lemma ApplyEmpty(current: Record)
    requires "models" in current && (current["models"].Obj? || current["models"].List?)
    ensures Applied(current, EMPTY_DIFF) == Some(current)
  {
    if current["models"].Obj? {
      var m := current["models"].fields;
      assert Staged(m, EMPTY_DIFF) == m;
      assert Patched(m, map[]) == m;
    }
    assert current["models" := current["models"]] == current;
  }

  /**
   * Round trip, at the level of model keys: replaying the diff of `draft`
   * against `current` yields exactly the draft's models, and the added ones
   * are the draft's records verbatim.
   */
  lemma RoundTripKeys(current: Record, draft: Record, k: string)
    requires DiffOf(current, draft).Some?
    ensures Applied(current, DiffOf(current, draft).value).Some?
    ensures var r := Applied(current, DiffOf(current, draft).value).value;
      var dm := ModelsOf(draft).fields;
      && r["models"].Obj?
      && (k in r["models"].fields <==> k in dm)
      && (k in dm && k !in ModelsOf(current).fields ==> r["models"].fields[k] == dm[k])
  {
    var d := DiffOf(current, draft).value;
    var cm := ModelsOf(current).fields;
    var dm := ModelsOf(draft).fields;
    var staged := Staged(cm, d);
    assert staged.Keys == dm.Keys;
    forall j | j in d.changed && j in staged
      ensures Patch(staged[j], d.changed[j]).Some?
    {
      assert staged[j] == cm[j];
    }
  }

  /**
   * Round trip, field by field, for a model in both catalogues: after the
   * replay every field other than `_confidence` equals the draft's under
   * Python's `==`, `_confidence` keeps its current value, and no field of the
   * current record disappears (a field the draft lacks becomes an explicit
   * None).
   */
  lemma RoundTripFields(current: Record, draft: Record, k: string, fk: string)
    requires DiffOf(current, draft).Some?
    requires k in ModelsOf(current).fields && k in ModelsOf(draft).fields
    ensures Applied(current, DiffOf(current, draft).value).Some?
    ensures var r := Applied(current, DiffOf(current, draft).value).value;
      var cur := ModelsOf(current).fields[k];
      var draftRec := ModelsOf(draft).fields[k];
      && r["models"].Obj? && k in r["models"].fields
      && var got := r["models"].fields[k];
      && got.Obj? && cur.Obj? && draftRec.Obj?
      && (fk != CONFIDENCE ==> PyEq(Get(got.fields, fk), Get(draftRec.fields, fk)))
      && (fk == CONFIDENCE ==> Get(got.fields, fk) == Get(cur.fields, fk))
      && (fk in cur.fields ==> fk in got.fields)
  {
    RoundTripKeys(current, draft, k);
    var d := DiffOf(current, draft).value;
    var cm := ModelsOf(current).fields;
    var cur := cm[k].fields;
    var draftRec := ModelsOf(draft).fields[k].fields;
    var fc := FieldChanges(cur, draftRec);
    var staged := Staged(cm, d);
    assert staged[k] == cm[k];
    assert Patched(staged, d.changed)[k] == Obj(cur + NewValues(fc)) by {
      if fc == map[] {
        assert cur + NewValues(fc) == cur;
      } else {
        assert d.changed[k] == fc;
      }
    }
    FieldChangesSpec(cur, draftRec, fk);
  }
}

=== FILE: schema_utils.dfy ===
/**
 * Normalisation and validation of draft records (src/registry/schema_utils.py).
 *
 * Every Python function here copies its argument and then rewrites fields of
 * the copy in loops over fixed field-name lists. Each is modelled as a method
 * with those loops, proved equal to a specification function, and the
 * properties the module promises are lemmas about the specification.
 * Records are values, so "the argument is never modified" holds by
 * construction.
 */
module SchemaUtils {
  import opened Wrappers
  import opened Json
  import opened Strings
  import opened Sets

  const ARRAY_FIELDS: seq<string> := ["model_aliases", "recommended_use_cases", "temperature_values"]

  const OPTIONAL_STRING_FIELDS: seq<string> :=
    ["speed_tier", "intelligence_tier", "model_family", "release_date", "deprecated_date",
     "added_date", "description", "notes", "api_endpoint", "tool_call_format"]

  const BOOLEAN_FIELDS: seq<string> :=
    ["supports_vision", "supports_function_calling", "supports_json_mode",
     "supports_parallel_tool_calls", "supports_streaming", "supports_audio",
     "supports_documents", "supports_json_schema", "supports_logprobs",
     "supports_multiple_responses", "supports_caching", "is_reasoning_model",
     "requires_waitlist", "is_active", "supports_temperature", "supports_system_message",
     "supports_pdf_input", "requires_flat_input", "supports_tool_choice"]

  const NUMERIC_FIELDS: seq<string> :=
    ["max_input_tokens", "max_output_tokens", "dollars_per_million_tokens_input",
     "dollars_per_million_tokens_output", "requires_tier"]

  const OPTIONAL_NUMERIC_FIELDS: seq<string> := ["max_temperature", "min_temperature", "max_tools"]

  /** The boolean fields that default to True when absent. */
  const DEFAULT_TRUE_BOOLEANS: seq<string> :=
    ["supports_streaming", "is_active", "supports_temperature", "supports_system_message",
     "supports_tool_choice"]

  /** No name occurs twice: each element is absent from the part before it. */
  predicate Distinct(fs: seq<string>)
  {
    forall i :: 0 <= i < |fs| ==> fs[i] !in fs[..i]
  }

  /** A key's presence and value in a record: None when absent. */
  function Slot(d: Record, k: string): Option<Value>
  {
    if k in d then Some(d[k]) else None
  }

  /** The value `d.get(k)` reads from a slot. */
  function SlotValue(s: Option<Value>): Value
  {
    if s.Some? then s.value else Null
  }

  // ---------------------------------------------------------------------
  // normalize_model_data
  // ---------------------------------------------------------------------

  /** The five field lists, visited in this order. */
  datatype FieldGroup = Arrays | OptionalStrings | Booleans | Numerics | OptionalNumerics

  function Fields(g: FieldGroup): seq<string>
  {
    match g
    case Arrays => ARRAY_FIELDS
    case OptionalStrings => OPTIONAL_STRING_FIELDS
    case Booleans => BOOLEAN_FIELDS
    case Numerics => NUMERIC_FIELDS
    case OptionalNumerics => OPTIONAL_NUMERIC_FIELDS
  }

  /** What visiting one field does: leave it, write a value, or raise. */
  datatype Edit = Keep | Write(v: Value) | Fail

  function BooleanDefault(f: string): bool
  {
    if f == "supports_streaming" then true
    else if f == "is_active" then true
    else if f in ["supports_temperature", "supports_system_message", "supports_tool_choice"] then true
    else if f in ["supports_pdf_input", "requires_flat_input"] then false
    else false
  }

  /** The edit a group's loop makes to field `f`, given that field's current slot. */
  function FieldEdit(g: FieldGroup, f: string, s: Option<Value>, p: Parsers): Edit
  {
    var v := SlotValue(s);
    match g
    case Arrays =>
      if v == Null then Write(if f != "temperature_values" then List([]) else Null)
      else if !v.List? then Write(if Truthy(v) then List([v]) else List([]))
      else Keep
    case OptionalStrings =>
      if v == Str("") then Write(Null)
      else if f == "description" && v == Null then Write(Str(""))
      else Keep
    case Booleans =>
      if s.None? then Write(Bool(BooleanDefault(f))) else Write(Bool(Truthy(v)))
    case Numerics =>
      if s.Some? && v == Null then Write(if StartsWith(f, "dollars_") then Real(0.0) else Int(0))
      else Keep
    case OptionalNumerics =>
      if s.Some? && v != Null then
        if Contains(f, "temperature") then
          (match PyFloat(v, p) case Some(x) => Write(Real(x)) case None => Fail)
        else
          (match PyInt(v, p) case Some(n) => Write(Int(n)) case None => Fail)
      else Keep
  }

  function ApplyEdit(d: Record, f: string, e: Edit): Option<Record>
  {
    match e
    case Keep => Some(d)
    case Write(v) => Some(d[f := v])
    case Fail => None
  }

  /** The slot a field has after an edit. */
  function EditedSlot(e: Edit, s: Option<Value>): Option<Value>
    requires e != Fail
  {
    if e.Write? then Some(e.v) else s
  }

  /** One loop of normalize_model_data over the fields `fs`, in order. */
  function Pass(d: Record, g: FieldGroup, fs: seq<string>, p: Parsers): Option<Record>
    decreases |fs|
  {
    if fs == [] then Some(d)
    else
      match Pass(d, g, fs[..|fs| - 1], p)
      case None => None
      case Some(d') =>
        var f := fs[|fs| - 1];
        ApplyEdit(d', f, FieldEdit(g, f, Slot(d', f), p))
  }

  function Then(r: Option<Record>, g: FieldGroup, p: Parsers): Option<Record>
  {
    if r.Some? then Pass(r.value, g, Fields(g), p) else None
  }

  /** The first four loops of normalize_model_data, which never raise. */
  function FirstFour(model: Record, p: Parsers): Option<Record>
  {
    Then(Then(Then(Pass(model, Arrays, Fields(Arrays), p), OptionalStrings, p), Booleans, p), Numerics, p)
  }

  /** normalize_model_data: the five loops in source order; None where Python raises. */
  function Normalize(model: Record, p: Parsers): Option<Record>
  {
    Then(FirstFour(model, p), OptionalNumerics, p)
  }

  /** Once a loop has raised, the rest of the list is never visited. */
  lemma {:induction false} PassFailureSticks(d: Record, g: FieldGroup, fs: seq<string>, p: Parsers, i: nat)
    requires i <= |fs| && Pass(d, g, fs[..i], p).None?
    ensures Pass(d, g, fs, p).None?
    decreases |fs| - i
  {
    if i < |fs| {
      assert fs[..i + 1][..i] == fs[..i];
      PassFailureSticks(d, g, fs, p, i + 1);
    } else {
      assert fs[..i] == fs;
    }
  }

  /** One loop of normalize_model_data, as the source writes it. */
  method RunPass(d: Record, g: FieldGroup, fs: seq<string>, p: Parsers) returns (r: Option<Record>)
    ensures r == Pass(d, g, fs, p)
  {
    var normalized := d;
    var i := 0;
    while i < |fs|
      invariant 0 <= i <= |fs|
      invariant Pass(d, g, fs[..i], p) == Some(normalized)
    {
      assert fs[..i + 1][..i] == fs[..i];
      var f := fs[i];
      var e := FieldEdit(g, f, Slot(normalized, f), p);
      if e.Fail? {
        PassFailureSticks(d, g, fs, p, i + 1);
        return None;
      }
      if e.Write? {
        normalized := normalized[f := e.v];
      }
      i := i + 1;
    }
    assert fs[..|fs|] == fs;
    r := Some(normalized);
  }

  method NormalizeModelData(model: Record, p: Parsers) returns (r: Option<Record>)
    ensures r == Normalize(model, p)
  {
    r := RunPass(model, Arrays, Fields(Arrays), p);
    if r.Some? { r := RunPass(r.value, OptionalStrings, Fields(OptionalStrings), p); }
    if r.Some? { r := RunPass(r.value, Booleans, Fields(Booleans), p); }
    if r.Some? { r := RunPass(r.value, Numerics, Fields(Numerics), p); }
    if r.Some? { r := RunPass(r.value, OptionalNumerics, Fields(OptionalNumerics), p); }
  }

  /** A pass over distinct fields edits each listed field once, from its original slot, and nothing else. */
  lemma {:induction false} PassSlots(d: Record, g: FieldGroup, fs: seq<string>, p: Parsers)
    requires Distinct(fs)
    ensures Pass(d, g, fs, p).Some? <==> forall f :: f in fs ==> FieldEdit(g, f, Slot(d, f), p) != Fail
    ensures Pass(d, g, fs, p).Some? ==>
      forall k :: Slot(Pass(d, g, fs, p).value, k) ==
        if k in fs then EditedSlot(FieldEdit(g, k, Slot(d, k), p), Slot(d, k)) else Slot(d, k)
    decreases |fs|
  {
    if fs != [] {
      var init := fs[..|fs| - 1];
      var f := fs[|fs| - 1];
      forall i | 0 <= i < |init|
        ensures init[i] !in init[..i]
      {
        assert init[..i] == fs[..i];
      }
      PassSlots(d, g, init, p);
      assert f !in init;
      assert forall x :: x in fs <==> x in init || x == f;
      var r := Pass(d, g, init, p);
      if r.Some? {
        assert Slot(r.value, f) == Slot(d, f);
      }
    }
  }

  ghost predicate Disjoint(a: seq<string>, b: seq<string>)
  {
    forall f :: f in a ==> f !in b
  }

  lemma DistinctShortLists()
    ensures Distinct(ARRAY_FIELDS) && Distinct(NUMERIC_FIELDS) && Distinct(OPTIONAL_NUMERIC_FIELDS)
  {
  }

  lemma DistinctOptionalStrings()
    ensures Distinct(OPTIONAL_STRING_FIELDS)
  {
  }

  lemma DistinctBooleans()
    ensures Distinct(BOOLEAN_FIELDS)
  {
  }

  /** No field list repeats a name. */
  lemma FieldsDistinct(g: FieldGroup)
    ensures Distinct(Fields(g))
  {
    DistinctShortLists();
    DistinctOptionalStrings();
    DistinctBooleans();
  }

  lemma DisjointSplit(a: seq<string>, b: seq<string>, k: nat)
    requires k <= |a| && Disjoint(a[..k], b) && Disjoint(a[k..], b)
    ensures Disjoint(a, b)
  {
    assert a == a[..k] + a[k..];
  }

  /** Every field name outside BOOLEAN_FIELDS that a loop visits. */
  ghost const NON_BOOLEAN_FIELDS: seq<string> :=
    ARRAY_FIELDS + OPTIONAL_STRING_FIELDS + NUMERIC_FIELDS + OPTIONAL_NUMERIC_FIELDS

  lemma DisjointBooleans0()
    ensures Disjoint(BOOLEAN_FIELDS[..4], NON_BOOLEAN_FIELDS)
  {
  }

  lemma DisjointBooleans4()
    ensures Disjoint(BOOLEAN_FIELDS[4..8], NON_BOOLEAN_FIELDS)
  {
  }

  lemma DisjointBooleans8()
    ensures Disjoint(BOOLEAN_FIELDS[8..12], NON_BOOLEAN_FIELDS)
  {
  }

  lemma DisjointBooleans12()
    ensures Disjoint(BOOLEAN_FIELDS[12..16], NON_BOOLEAN_FIELDS)
  {
  }

  lemma DisjointBooleans16()
    ensures Disjoint(BOOLEAN_FIELDS[16..], NON_BOOLEAN_FIELDS)
  {
  }

  /** No boolean field is in another list. */
  lemma DisjointBooleansOthers()
    ensures Disjoint(BOOLEAN_FIELDS, NON_BOOLEAN_FIELDS)
  {
    var b := BOOLEAN_FIELDS;
    DisjointBooleans0();
    DisjointBooleans4();
    DisjointBooleans8();
    DisjointBooleans12();
    DisjointBooleans16();
    assert b[12..][..4] == b[12..16];
    DisjointSplit(b[12..], NON_BOOLEAN_FIELDS, 4);
    assert b[8..][..4] == b[8..12] && b[8..][4..] == b[12..];
    DisjointSplit(b[8..], NON_BOOLEAN_FIELDS, 4);
    assert b[4..][..4] == b[4..8] && b[4..][4..] == b[8..];
    DisjointSplit(b[4..], NON_BOOLEAN_FIELDS, 4);
    DisjointSplit(b, NON_BOOLEAN_FIELDS, 4);
  }

  lemma DisjointArraysOthers()
    ensures Disjoint(ARRAY_FIELDS, OPTIONAL_STRING_FIELDS + NUMERIC_FIELDS + OPTIONAL_NUMERIC_FIELDS)
  {
  }

  lemma DisjointOptionalStringsLow()
    ensures Disjoint(OPTIONAL_STRING_FIELDS[..5], NUMERIC_FIELDS + OPTIONAL_NUMERIC_FIELDS)
  {
  }

  lemma DisjointOptionalStringsHigh()
    ensures Disjoint(OPTIONAL_STRING_FIELDS[5..], NUMERIC_FIELDS + OPTIONAL_NUMERIC_FIELDS)
  {
  }

  lemma DisjointNumerics()
    ensures Disjoint(NUMERIC_FIELDS, OPTIONAL_NUMERIC_FIELDS)
  {
  }

  /** The five lists share no name. */
  lemma ListsDisjoint()
    ensures Disjoint(ARRAY_FIELDS, OPTIONAL_STRING_FIELDS) && Disjoint(ARRAY_FIELDS, BOOLEAN_FIELDS)
    ensures Disjoint(ARRAY_FIELDS, NUMERIC_FIELDS) && Disjoint(ARRAY_FIELDS, OPTIONAL_NUMERIC_FIELDS)
    ensures Disjoint(OPTIONAL_STRING_FIELDS, BOOLEAN_FIELDS)
    ensures Disjoint(OPTIONAL_STRING_FIELDS, NUMERIC_FIELDS) && Disjoint(OPTIONAL_STRING_FIELDS, OPTIONAL_NUMERIC_FIELDS)
    ensures Disjoint(BOOLEAN_FIELDS, NUMERIC_FIELDS) && Disjoint(BOOLEAN_FIELDS, OPTIONAL_NUMERIC_FIELDS)
    ensures Disjoint(NUMERIC_FIELDS, OPTIONAL_NUMERIC_FIELDS)
  {
    DisjointBooleansOthers();
    DisjointArraysOthers();
    DisjointOptionalStringsLow();
    DisjointOptionalStringsHigh();
    DisjointSplit(OPTIONAL_STRING_FIELDS, NUMERIC_FIELDS + OPTIONAL_NUMERIC_FIELDS, 5);
    DisjointNumerics();
  }

  /** The group whose loop visits `k`, if any. */
  function GroupOf(k: string): Option<FieldGroup>
  {
    if k in ARRAY_FIELDS then Some(Arrays)
    else if k in OPTIONAL_STRING_FIELDS then Some(OptionalStrings)
    else if k in BOOLEAN_FIELDS then Some(Booleans)
    else if k in NUMERIC_FIELDS then Some(Numerics)
    else if k in OPTIONAL_NUMERIC_FIELDS then Some(OptionalNumerics)
    else None
  }

  /** The five lists are pairwise disjoint, so every key is visited by at most one loop. */
  lemma GroupOfSpec(k: string, g: FieldGroup)
    ensures k in Fields(g) <==> GroupOf(k) == Some(g)
  {
    ListsDisjoint();
  }

  /** The slot a key has after normalisation, as a function of its own original slot. */
  function NormalizedSlot(k: string, s: Option<Value>, p: Parsers): Option<Value>
  {
    match GroupOf(k)
    case None => s
    case Some(g) => var e := FieldEdit(g, k, s, p); if e.Fail? then s else EditedSlot(e, s)
  }

  /** The coercions of the optional numeric fields all succeed. */
  predicate CoercionsSucceed(model: Record, p: Parsers)
  {
    forall f :: f in Fields(OptionalNumerics) ==> FieldEdit(OptionalNumerics, f, Slot(model, f), p) != Fail
  }

  /** One loop, seen from a single key. */
  lemma PassSlotAt(d: Record, g: FieldGroup, p: Parsers, k: string)
    ensures Pass(d, g, Fields(g), p).Some? <==> forall f :: f in Fields(g) ==> FieldEdit(g, f, Slot(d, f), p) != Fail
    ensures Pass(d, g, Fields(g), p).Some? ==>
      Slot(Pass(d, g, Fields(g), p).value, k) ==
        if k in Fields(g) then EditedSlot(FieldEdit(g, k, Slot(d, k), p), Slot(d, k)) else Slot(d, k)
  {
    FieldsDistinct(g);
    PassSlots(d, g, Fields(g), p);
  }

  /** Only the optional numeric loop can raise. */
  lemma PassSucceeds(d: Record, g: FieldGroup, p: Parsers)
    requires g != OptionalNumerics
    ensures Pass(d, g, Fields(g), p).Some?
  {
    FieldsDistinct(g);
    PassSlots(d, g, Fields(g), p);
  }

  /** After the first four loops every key outside the optional numerics has its final slot. */
  lemma {:induction false} FirstFourSlot(model: Record, p: Parsers, k: string)
    ensures FirstFour(model, p).Some?
    ensures Slot(FirstFour(model, p).value, k) ==
      if GroupOf(k) == Some(OptionalNumerics) then Slot(model, k) else NormalizedSlot(k, Slot(model, k), p)
  {
    PassSucceeds(model, Arrays, p);
    var r1 := Pass(model, Arrays, Fields(Arrays), p).value;
    PassSucceeds(r1, OptionalStrings, p);
    var r2 := Pass(r1, OptionalStrings, Fields(OptionalStrings), p).value;
    PassSucceeds(r2, Booleans, p);
    var r3 := Pass(r2, Booleans, Fields(Booleans), p).value;
    PassSucceeds(r3, Numerics, p);
    PassSlotAt(model, Arrays, p, k);
    PassSlotAt(r1, OptionalStrings, p, k);
    PassSlotAt(r2, Booleans, p, k);
    PassSlotAt(r3, Numerics, p, k);
    GroupOfSpec(k, Arrays);
    GroupOfSpec(k, OptionalStrings);
    GroupOfSpec(k, Booleans);
    GroupOfSpec(k, Numerics);
    GroupOfSpec(k, OptionalNumerics);
  }

  /** Of the optional numeric fields, the two temperatures are the ones whose name contains "temperature". */
  lemma TemperatureFields()
    ensures forall f :: f in Fields(OptionalNumerics) ==> (Contains(f, "temperature") <==> f != "max_tools")
  {
    assert StartsWith("max_temperature"[4..], "temperature");
    assert StartsWith("min_temperature"[4..], "temperature");
  }

  /** normalize_model_data raises exactly when one of the optional numeric coercions does. */
  lemma NormalizeSucceeds(model: Record, p: Parsers)
    ensures Normalize(model, p).Some? <==> CoercionsSucceed(model, p)
  {
    FirstFourSlot(model, p, "");
    var r4 := FirstFour(model, p).value;
    forall f | f in Fields(OptionalNumerics)
      ensures FieldEdit(OptionalNumerics, f, Slot(r4, f), p) == FieldEdit(OptionalNumerics, f, Slot(model, f), p)
    {
      FirstFourSlot(model, p, f);
      GroupOfSpec(f, OptionalNumerics);
    }
    PassSlotAt(r4, OptionalNumerics, p, "");
  }

  /**
   * The central fact about normalize_model_data: when it succeeds, every
   * key's slot depends only on that key's original slot.
   */
  lemma NormalizeSlotAt(model: Record, p: Parsers, k: string)
    ensures Normalize(model, p).Some? ==>
      Slot(Normalize(model, p).value, k) == NormalizedSlot(k, Slot(model, k), p)
  {
    FirstFourSlot(model, p, k);
    PassSlotAt(FirstFour(model, p).value, OptionalNumerics, p, k);
    GroupOfSpec(k, OptionalNumerics);
  }

  /** Keys outside the five field lists pass through untouched, present or absent. */
  lemma NormalizeKeepsOtherKeys(model: Record, p: Parsers, k: string)
    requires CoercionsSucceed(model, p)
    requires k !in ARRAY_FIELDS && k !in OPTIONAL_STRING_FIELDS && k !in BOOLEAN_FIELDS
    requires k !in NUMERIC_FIELDS && k !in OPTIONAL_NUMERIC_FIELDS
    ensures Normalize(model, p).Some?
    ensures k in Normalize(model, p).value <==> k in model
    ensures k in model ==> Normalize(model, p).value[k] == model[k]
  {
    NormalizeSucceeds(model, p);
    NormalizeSlotAt(model, p, k);
  }

  /** model_aliases and recommended_use_cases always end as lists; temperature_values keeps None. */
  lemma NormalizeArrayFields(model: Record, p: Parsers, f: string)
    requires CoercionsSucceed(model, p)
    requires f == "model_aliases" || f == "recommended_use_cases"
    ensures Normalize(model, p).Some?
    ensures var r := Normalize(model, p).value;
      && f in r && r[f].List?
      && (Get(model, f) == Null ==> r[f] == List([]))
      && (Get(model, f) != Null && !Get(model, f).List? && Truthy(Get(model, f)) ==> r[f] == List([Get(model, f)]))
      && (!Truthy(Get(model, f)) && !Get(model, f).List? ==> r[f] == List([]))
      && (Get(model, f).List? ==> r[f] == model[f])
  {
    NormalizeSucceeds(model, p);
    NormalizeSlotAt(model, p, f);
    GroupOfSpec(f, Arrays);
  }

  /** temperature_values, the third array field, keeps a None value. */
  lemma NormalizeTemperatureValues(model: Record, p: Parsers)
    requires CoercionsSucceed(model, p)
    ensures Normalize(model, p).Some?
    ensures var r := Normalize(model, p).value;
      Get(model, "temperature_values") == Null ==> "temperature_values" in r && r["temperature_values"] == Null
  {
    NormalizeSucceeds(model, p);
    NormalizeSlotAt(model, p, "temperature_values");
    GroupOfSpec("temperature_values", Arrays);
  }

  /**
   * Every listed boolean field ends present and boolean: its truthiness when
   * present, True for the five default-on fields when absent, False otherwise.
   */
  lemma NormalizeBooleanFields(model: Record, p: Parsers, f: string)
    requires CoercionsSucceed(model, p)
    requires f in BOOLEAN_FIELDS
    ensures Normalize(model, p).Some?
    ensures var r := Normalize(model, p).value;
      && f in r && r[f].Bool?
      && (f in model ==> r[f] == Bool(Truthy(model[f])))
      && (f !in model ==> r[f] == Bool(f in DEFAULT_TRUE_BOOLEANS))
  {
    NormalizeSucceeds(model, p);
    NormalizeSlotAt(model, p, f);
    GroupOfSpec(f, Booleans);
  }

  /** Empty optional strings become None, while a missing or None description becomes "". */
  lemma NormalizeOptionalStrings(model: Record, p: Parsers, f: string)
    requires CoercionsSucceed(model, p)
    requires f in OPTIONAL_STRING_FIELDS
    ensures Normalize(model, p).Some?
    ensures var r := Normalize(model, p).value;
      && (Get(model, f) == Str("") ==> f in r && r[f] == Null)
      && (f == "description" && Get(model, f) == Null ==> f in r && r[f] == Str(""))
      && (Get(model, f) != Str("") && !(f == "description" && Get(model, f) == Null) ==> Slot(r, f) == Slot(model, f))
  {
    NormalizeSucceeds(model, p);
    NormalizeSlotAt(model, p, f);
    GroupOfSpec(f, OptionalStrings);
  }

  lemma NoNumericsToCoerce(model: Record, p: Parsers)
    requires forall f :: f in Fields(OptionalNumerics) ==> f !in model
    ensures CoercionsSucceed(model, p)
  {
  }

  /**
   * Normalisation is not idempotent: an empty description becomes None, and
   * normalising again turns that None into "".
   */
  lemma DescriptionAlternates(p: Parsers)
    ensures var once := Normalize(map["description" := Str("")], p);
      && once.Some? && Slot(once.value, "description") == Some(Null)
      && var twice := Normalize(once.value, p);
      && twice.Some? && Slot(twice.value, "description") == Some(Str(""))
  {
    var m := map["description" := Str("")];
    assert forall f :: f in Fields(OptionalNumerics) ==> f !in m;
    NoNumericsToCoerce(m, p);
    NormalizeOptionalStrings(m, p, "description");
    var once := Normalize(m, p).value;
    forall f | f in Fields(OptionalNumerics)
      ensures f !in once
    {
      NormalizeOptionalNumerics(m, p, f);
    }
    NoNumericsToCoerce(once, p);
    NormalizeOptionalStrings(once, p, "description");
  }

  /** A numeric field present with None becomes 0.0 for prices and 0 otherwise; an absent one stays absent. */
  lemma NormalizeNumericFields(model: Record, p: Parsers, f: string)
    requires CoercionsSucceed(model, p)
    requires f in NUMERIC_FIELDS
    ensures Normalize(model, p).Some?
    ensures var r := Normalize(model, p).value;
      && (f in model && model[f] == Null ==> f in r && r[f] == (if StartsWith(f, "dollars_") then Real(0.0) else Int(0)))
      && (f !in model ==> f !in r)
      && (f in model && model[f] != Null ==> f in r && r[f] == model[f])
  {
    NormalizeSucceeds(model, p);
    NormalizeSlotAt(model, p, f);
    GroupOfSpec(f, Numerics);
  }

  /**
   * normalize_model_data raises exactly when a present, non-None optional
   * numeric field fails its coercion: float() for the two temperatures,
   * int() for max_tools.
   */
  lemma NormalizeRaises(model: Record, p: Parsers)
    ensures Normalize(model, p).None? <==>
      exists f :: f in OPTIONAL_NUMERIC_FIELDS && f in model && model[f] != Null &&
        (if f == "max_tools" then PyInt(model[f], p).None? else PyFloat(model[f], p).None?)
  {
    NormalizeSucceeds(model, p);
    TemperatureFields();
  }

  /** A present, non-None optional numeric field holds its coerced value; presence is unchanged. */
  lemma NormalizeOptionalNumerics(model: Record, p: Parsers, f: string)
    requires f in OPTIONAL_NUMERIC_FIELDS
    requires Normalize(model, p).Some?
    ensures var r := Normalize(model, p).value;
      && (f in r <==> f in model)
      && (f in model && model[f] == Null ==> r[f] == Null)
      && (f in model && model[f] != Null && f != "max_tools" ==>
            PyFloat(model[f], p).Some? && r[f] == Real(PyFloat(model[f], p).value))
      && (f in model && model[f] != Null && f == "max_tools" ==>
            PyInt(model[f], p).Some? && r[f] == Int(PyInt(model[f], p).value))
  {
    var s := Slot(model, f);
    NormalizeSucceeds(model, p);
    NormalizeSlotAt(model, p, f);
    OptionalNumericSlot(f, s, p);
  }

  /** The slot an optional numeric field ends with, when its coercion does not raise. */
  lemma OptionalNumericSlot(f: string, s: Option<Value>, p: Parsers)
    requires f in OPTIONAL_NUMERIC_FIELDS
    ensures var e := FieldEdit(OptionalNumerics, f, s, p);
      var n := NormalizedSlot(f, s, p);
      && (n.Some? <==> s.Some?)
      && (s == Some(Null) ==> n == s)
      && (s.Some? && s.value != Null && e != Fail && f != "max_tools" ==>
            PyFloat(s.value, p).Some? && n == Some(Real(PyFloat(s.value, p).value)))
      && (s.Some? && s.value != Null && e != Fail && f == "max_tools" ==>
            PyInt(s.value, p).Some? && n == Some(Int(PyInt(s.value, p).value)))
  {
    GroupOfSpec(f, OptionalNumerics);
    TemperatureFields();
  }

  // ---------------------------------------------------------------------
  // normalize_extraction_metadata
  // ---------------------------------------------------------------------

  /** The five counts every normalised `sources` block carries. */
  const SOURCE_KEYS: seq<string> := ["documents", "png_files", "pdf_files", "md_files", "models_extracted"]

  /** standard_sources before any existing count is preserved. */
  function InitialSources(models: nat): map<string, Value>
  {
    map["documents" := Int(0), "png_files" := Int(0), "pdf_files" := Int(0), "md_files" := Int(0),
        "models_extracted" := Int(models)]
  }

  /** standard_sources after the preserving loop has visited the keys `ks`. */
  function Preserved(sources: Value, models: nat, ks: seq<string>): (m: map<string, Value>)
    ensures "documents" in m && "png_files" in m && "pdf_files" in m && "md_files" in m && "models_extracted" in m
    decreases |ks|
  {
    if ks == [] then InitialSources(models)
    else
      var m := Preserved(sources, models, ks[..|ks| - 1]);
      var k := ks[|ks| - 1];
      if sources.Obj? && k in sources.fields then m[k := sources.fields[k]] else m
  }

  /**
   * Reading `sources` does not raise: a dict, or a list or string that
   * contains none of the five keys and not "screenshot" (`in` on such a
   * value is harmless, but subscripting it with a key raises).
   */
  predicate SourcesReadable(sources: Value)
  {
    KeysReadable(sources, SOURCE_KEYS + ["screenshot"])
  }

  /** `k in sources` followed, where it holds, by `sources[k]` does not raise for any `k` in `ks`. */
  predicate KeysReadable(sources: Value, ks: seq<string>)
  {
    sources.Obj? || forall k :: k in ks ==> PyIn(k, sources) == Some(false)
  }

  lemma KeysReadableAppend(sources: Value, ks: seq<string>, k: string)
    ensures KeysReadable(sources, ks + [k]) <==> KeysReadable(sources, ks) && KeysReadable(sources, [k])
  {
    assert forall x :: x in ks + [k] <==> x in ks || x == k;
  }

  /** standard_sources once the legacy "screenshot" count has replaced png_files. */
  function StandardSources(sources: Value, models: nat): map<string, Value>
  {
    var m := Preserved(sources, models, SOURCE_KEYS);
    if sources.Obj? && "screenshot" in sources.fields then m["png_files" := sources.fields["screenshot"]] else m
  }

  /** png_files + pdf_files + md_files; None where the addition or the comparison with 0 raises. */
  function DocumentTotal(std: map<string, Value>): Option<Value>
    requires "png_files" in std && "pdf_files" in std && "md_files" in std
  {
    match PyAdd(std["png_files"], std["pdf_files"])
    case None => None
    case Some(partial) => PyAdd(partial, std["md_files"])
  }

  /** The `sources` block normalize_extraction_metadata writes, for `models` models; None where it raises. */
  function NormalizedSources(sources: Value, models: nat): Option<map<string, Value>>
  {
    if !SourcesReadable(sources) then None else FinalSources(StandardSources(sources, models))
  }

  /** normalize_extraction_metadata; None where Python raises. */
  function ExtractionMetadata(draft: Record): Option<Record>
  {
    match PyLen(GetOr(draft, "models", Obj(map[])))
    case None => None
    case Some(n) =>
      match NormalizedSources(GetOr(draft, "sources", Obj(map[])), n)
      case None => None
      case Some(final) => Some(draft["sources" := Obj(final)])
  }

  /** An integer count: adding such counts never raises. */
  predicate IntCount(v: Value)
  {
    v.Int? || v.Bool?
  }

  /** standard_sources with documents replaced by the total when that is positive; None where the total raises. */
  function FinalSources(std: map<string, Value>): Option<map<string, Value>>
    requires "png_files" in std && "pdf_files" in std && "md_files" in std
  {
    match DocumentTotal(std)
    case None => None
    case Some(total) => Some(if NumValue(total) > 0.0 then std["documents" := total] else std)
  }

  /** The total is a number equal to the sum of the three counts, which are numbers. */
  lemma DocumentTotalValue(std: map<string, Value>)
    requires "png_files" in std && "pdf_files" in std && "md_files" in std
    ensures DocumentTotal(std).Some? ==>
      && IsNumber(std["png_files"]) && IsNumber(std["pdf_files"]) && IsNumber(std["md_files"])
      && (DocumentTotal(std).value.Int? || DocumentTotal(std).value.Real?)
      && NumValue(DocumentTotal(std).value) == NumValue(std["png_files"]) + NumValue(std["pdf_files"]) + NumValue(std["md_files"])
    ensures !IsNumber(std["png_files"]) || !IsNumber(std["pdf_files"]) || !IsNumber(std["md_files"]) ==>
      DocumentTotal(std).None?
    ensures IntCount(std["png_files"]) && IntCount(std["pdf_files"]) && IntCount(std["md_files"]) ==>
      DocumentTotal(std).Some?
  {
  }

  /** The loop that preserves the counts `sources` already has for the keys `ks`. */
  method PreserveCounts(sources: Value, models: nat, ks: seq<string>) returns (r: Option<map<string, Value>>)
    ensures r == if KeysReadable(sources, ks) then Some(Preserved(sources, models, ks)) else None
  {
    var standard := InitialSources(models);
    for i := 0 to |ks|
      invariant standard == Preserved(sources, models, ks[..i])
      invariant KeysReadable(sources, ks[..i])
    {
      assert ks[..i + 1] == ks[..i] + [ks[i]];
      KeysReadableAppend(sources, ks[..i], ks[i]);
      var key := ks[i];
      var found := PyIn(key, sources);
      // a non-container raises on `in`; a list or string raises on `sources[key]`
      if found.None? || (found.value && !sources.Obj?) {
        assert !KeysReadable(sources, ks) by {
          assert ks[i] in ks;
        }
        return None;
      }
      if found.value {
        standard := standard[key := sources.fields[key]];
      }
    }
    assert ks[..|ks|] == ks;
    r := Some(standard);
  }

  method NormalizeExtractionMetadata(draft: Record) returns (r: Option<Record>)
    ensures r == ExtractionMetadata(draft)
  {
    var normalized := draft;
    if "sources" !in normalized {
      normalized := normalized["sources" := Obj(map[])];
    }
    var sources := normalized["sources"];
    assert sources == GetOr(draft, "sources", Obj(map[]));
    var models := PyLen(GetOr(normalized, "models", Obj(map[])));
    assert models == PyLen(GetOr(draft, "models", Obj(map[])));
    if models.None? {
      return None;
    }
    var standard := StandardFor(sources, models.value);
    if standard.None? {
      return None;
    }
    // the "html" check that follows in the source has no effect
    var final := TotalDocuments(standard.value);
    if final.None? {
      return None;
    }
    assert normalized["sources" := Obj(final.value)] == draft["sources" := Obj(final.value)];
    r := Some(normalized["sources" := Obj(final.value)]);
  }

  /** The preserved counts, then the legacy "screenshot" count in place of png_files. */
  method StandardFor(sources: Value, models: nat) returns (r: Option<map<string, Value>>)
    ensures r == if SourcesReadable(sources) then Some(StandardSources(sources, models)) else None
  {
    KeysReadableAppend(sources, SOURCE_KEYS, "screenshot");
    var preserved := PreserveCounts(sources, models, SOURCE_KEYS);
    if preserved.None? {
      return None;
    }
    var standard := preserved.value;
    var shot := PyIn("screenshot", sources);
    if shot.None? || (shot.value && !sources.Obj?) {
      return None;
    }
    if shot.value {
      standard := standard["png_files" := sources.fields["screenshot"]];
    }
    r := Some(standard);
  }

  /** Sums the three document counts and records the total when it is positive. */
  method TotalDocuments(standard: map<string, Value>) returns (r: Option<map<string, Value>>)
    requires "png_files" in standard && "pdf_files" in standard && "md_files" in standard
    ensures r == FinalSources(standard)
  {
    var partial := PyAdd(standard["png_files"], standard["pdf_files"]);
    if partial.None? {
      return None;
    }
    var total := PyAdd(partial.value, standard["md_files"]);
    if total.None? {
      return None;
    }
    if NumValue(total.value) > 0.0 {
      return Some(standard["documents" := total.value]);
    }
    return Some(standard);
  }

  /** `sources[key]` when `sources` is a dict holding `key`, otherwise `default`. */
  function Count(sources: Value, key: string, default: Value): Value
  {
    if sources.Obj? && key in sources.fields then sources.fields[key] else default
  }

  lemma {:induction false} PreservedAt(sources: Value, models: nat, ks: seq<string>, k: string)
    ensures k in Preserved(sources, models, ks) <==>
      k in InitialSources(models) || (k in ks && sources.Obj? && k in sources.fields)
    ensures k in InitialSources(models) ==>
      Preserved(sources, models, ks)[k] == if k in ks then Count(sources, k, InitialSources(models)[k]) else InitialSources(models)[k]
    decreases |ks|
  {
    if ks != [] {
      PreservedAt(sources, models, ks[..|ks| - 1], k);
      assert forall x :: x in ks <==> x in ks[..|ks| - 1] || x == ks[|ks| - 1];
    }
  }

  /** Before the total is recomputed, each count is the existing one or its default; "screenshot" wins for png_files. */
  lemma StandardSourcesAt(sources: Value, models: nat, k: string)
    ensures k in StandardSources(sources, models) <==> k in SOURCE_KEYS
    ensures k == "png_files" ==>
      StandardSources(sources, models)[k] == Count(sources, "screenshot", Count(sources, "png_files", Int(0)))
    ensures k in SOURCE_KEYS && k != "png_files" ==>
      StandardSources(sources, models)[k] == Count(sources, k, InitialSources(models)[k])
  {
    PreservedAt(sources, models, SOURCE_KEYS, k);
  }

  /** The normalised block holds exactly the five counts. */
  lemma NormalizedSourcesKeys(sources: Value, models: nat)
    requires NormalizedSources(sources, models).Some?
    ensures forall k :: k in NormalizedSources(sources, models).value <==> k in SOURCE_KEYS
  {
    forall k
      ensures k in StandardSources(sources, models) <==> k in SOURCE_KEYS
    {
      StandardSourcesAt(sources, models, k);
    }
  }

  /**
   * normalize_extraction_metadata replaces `sources` by exactly the five
   * counts and leaves every other top-level key as it was.
   */
  lemma MetadataShape(draft: Record)
    requires ExtractionMetadata(draft).Some?
    ensures var r := ExtractionMetadata(draft).value;
      && r.Keys == draft.Keys + {"sources"}
      && (forall k :: k in draft && k != "sources" ==> r[k] == draft[k])
      && r["sources"].Obj?
      && forall k :: k in r["sources"].fields <==> k in SOURCE_KEYS
  {
    NormalizedSourcesKeys(GetOr(draft, "sources", Obj(map[])), PyLen(GetOr(draft, "models", Obj(map[]))).value);
  }

  /**
   * The counts written for `models` models: existing counts are kept (a
   * legacy "screenshot" count replaces png_files), missing ones default to 0
   * (models_extracted to the number of models), and documents becomes
   * png_files + pdf_files + md_files whenever that total is positive.
   */
  lemma MetadataCounts(src: Value, models: nat)
    requires NormalizedSources(src, models).Some?
    ensures var out := NormalizedSources(src, models).value;
      var png := Count(src, "screenshot", Count(src, "png_files", Int(0)));
      var pdf := Count(src, "pdf_files", Int(0));
      var md := Count(src, "md_files", Int(0));
      && "documents" in out && "png_files" in out && "pdf_files" in out && "md_files" in out
      && "models_extracted" in out
      && out["png_files"] == png && out["pdf_files"] == pdf && out["md_files"] == md
      && out["models_extracted"] == Count(src, "models_extracted", Int(models))
      && IsNumber(png) && IsNumber(pdf) && IsNumber(md)
      && var total := NumValue(png) + NumValue(pdf) + NumValue(md);
      && (total > 0.0 ==> out["documents"].Int? || out["documents"].Real?)
      && (total > 0.0 ==> NumValue(out["documents"]) == total)
      && (total <= 0.0 ==> out["documents"] == Count(src, "documents", Int(0)))
  {
    MetadataCountsKept(src, models);
    MetadataDocuments(src, models);
  }

  /** The four counts other than documents. */
  lemma MetadataCountsKept(src: Value, models: nat)
    requires NormalizedSources(src, models).Some?
    ensures var out := NormalizedSources(src, models).value;
      && "documents" in out && "png_files" in out && "pdf_files" in out && "md_files" in out
      && "models_extracted" in out
      && out["png_files"] == Count(src, "screenshot", Count(src, "png_files", Int(0)))
      && out["pdf_files"] == Count(src, "pdf_files", Int(0))
      && out["md_files"] == Count(src, "md_files", Int(0))
      && out["models_extracted"] == Count(src, "models_extracted", Int(models))
  {
    var std := StandardSources(src, models);
    assert NormalizedSources(src, models) == FinalSources(std);
    StandardSourcesKept(src, models);
    FinalSourcesAt(std);
  }

  /** The documents count: the total when positive, otherwise the existing count or 0. */
  lemma MetadataDocuments(src: Value, models: nat)
    requires NormalizedSources(src, models).Some?
    ensures var out := NormalizedSources(src, models).value;
      var png := Count(src, "screenshot", Count(src, "png_files", Int(0)));
      var pdf := Count(src, "pdf_files", Int(0));
      var md := Count(src, "md_files", Int(0));
      && "documents" in out
      && IsNumber(png) && IsNumber(pdf) && IsNumber(md)
      && var total := NumValue(png) + NumValue(pdf) + NumValue(md);
      && (total > 0.0 ==> out["documents"].Int? || out["documents"].Real?)
      && (total > 0.0 ==> NumValue(out["documents"]) == total)
      && (total <= 0.0 ==> out["documents"] == Count(src, "documents", Int(0)))
  {
    var std := StandardSources(src, models);
    assert NormalizedSources(src, models) == FinalSources(std);
    StandardSourcesKept(src, models);
    DocumentTotalValue(std);
    FinalSourcesAt(std);
  }

  /** Each standard count, in terms of what `sources` holds. */
  lemma StandardSourcesKept(src: Value, models: nat)
    ensures var std := StandardSources(src, models);
      && std["png_files"] == Count(src, "screenshot", Count(src, "png_files", Int(0)))
      && std["pdf_files"] == Count(src, "pdf_files", Int(0))
      && std["md_files"] == Count(src, "md_files", Int(0))
      && std["documents"] == Count(src, "documents", Int(0))
      && std["models_extracted"] == Count(src, "models_extracted", Int(models))
  {
    var init := InitialSources(models);
    assert init["pdf_files"] == Int(0) && init["md_files"] == Int(0) && init["documents"] == Int(0);
    assert init["models_extracted"] == Int(models);
    StandardSourcesAt(src, models, "documents");
    StandardSourcesAt(src, models, "png_files");
    StandardSourcesAt(src, models, "pdf_files");
    StandardSourcesAt(src, models, "md_files");
    StandardSourcesAt(src, models, "models_extracted");
  }

  /** FinalSources keeps every count but documents, which becomes the total when that is positive. */
  lemma FinalSourcesAt(std: map<string, Value>)
    requires "png_files" in std && "pdf_files" in std && "md_files" in std
    requires "documents" in std && "models_extracted" in std
    requires FinalSources(std).Some?
    ensures var out := FinalSources(std).value;
      var total := DocumentTotal(std).value;
      && "documents" in out && "png_files" in out && "pdf_files" in out && "md_files" in out
      && "models_extracted" in out
      && out["png_files"] == std["png_files"] && out["pdf_files"] == std["pdf_files"]
      && out["md_files"] == std["md_files"] && out["models_extracted"] == std["models_extracted"]
      && out["documents"] == if NumValue(total) > 0.0 then total else std["documents"]
  {
  }

  /** An unreadable `sources` block raises. */
  lemma MetadataUnreadable(src: Value, models: nat)
    requires !SourcesReadable(src)
    ensures NormalizedSources(src, models).None?
  {
  }

  /** A count that is not a number makes the total raise. */
  lemma MetadataNonNumeric(src: Value, models: nat)
    requires var png := Count(src, "screenshot", Count(src, "png_files", Int(0)));
      var pdf := Count(src, "pdf_files", Int(0));
      var md := Count(src, "md_files", Int(0));
      !IsNumber(png) || !IsNumber(pdf) || !IsNumber(md)
    ensures NormalizedSources(src, models).None?
  {
    var std := StandardSources(src, models);
    StandardSourcesAt(src, models, "png_files");
    StandardSourcesAt(src, models, "pdf_files");
    StandardSourcesAt(src, models, "md_files");
    DocumentTotalValue(std);
  }

  /** Readable sources with integer counts never raise. */
  lemma MetadataIntCounts(src: Value, models: nat)
    requires SourcesReadable(src)
    requires var png := Count(src, "screenshot", Count(src, "png_files", Int(0)));
      var pdf := Count(src, "pdf_files", Int(0));
      var md := Count(src, "md_files", Int(0));
      IntCount(png) && IntCount(pdf) && IntCount(md)
    ensures NormalizedSources(src, models).Some?
  {
    var std := StandardSources(src, models);
    StandardSourcesAt(src, models, "png_files");
    StandardSourcesAt(src, models, "pdf_files");
    StandardSourcesAt(src, models, "md_files");
    DocumentTotalValue(std);
  }

  /**
   * When it raises: `sources` cannot be read or a count is not a number;
   * with readable sources and integer counts it never raises.
   */
  lemma MetadataRaises(src: Value, models: nat)
    ensures var png := Count(src, "screenshot", Count(src, "png_files", Int(0)));
      var pdf := Count(src, "pdf_files", Int(0));
      var md := Count(src, "md_files", Int(0));
      && (!SourcesReadable(src) ==> NormalizedSources(src, models).None?)
      && (!IsNumber(png) || !IsNumber(pdf) || !IsNumber(md) ==> NormalizedSources(src, models).None?)
      && (SourcesReadable(src) && IntCount(png) && IntCount(pdf) && IntCount(md) ==>
            NormalizedSources(src, models).Some?)
  {
    var png := Count(src, "screenshot", Count(src, "png_files", Int(0)));
    var pdf := Count(src, "pdf_files", Int(0));
    var md := Count(src, "md_files", Int(0));
    if !SourcesReadable(src) {
      MetadataUnreadable(src, models);
    }
    if !IsNumber(png) || !IsNumber(pdf) || !IsNumber(md) {
      MetadataNonNumeric(src, models);
    }
    if SourcesReadable(src) && IntCount(png) && IntCount(pdf) && IntCount(md) {
      MetadataIntCounts(src, models);
    }
  }

  /** A sources dict holding exactly the five counts survives the preserving step unchanged. */
  lemma StandardOfNormalized(final: map<string, Value>, models: nat)
    requires forall k :: k in final <==> k in SOURCE_KEYS
    ensures StandardSources(Obj(final), models) == final
  {
    forall k
      ensures k in StandardSources(Obj(final), models) <==> k in final
      ensures k in final ==> StandardSources(Obj(final), models)[k] == final[k]
    {
      StandardSourcesAt(Obj(final), models, k);
    }
  }

  /** Recomputing the total of already final counts changes nothing. */
  lemma FinalSourcesStable(std: map<string, Value>)
    requires "png_files" in std && "pdf_files" in std && "md_files" in std
    requires FinalSources(std).Some?
    ensures FinalSources(FinalSources(std).value) == FinalSources(std)
  {
    var final := FinalSources(std).value;
    assert final["png_files"] == std["png_files"] && final["pdf_files"] == std["pdf_files"];
    assert final["md_files"] == std["md_files"];
    assert DocumentTotal(final) == DocumentTotal(std);
    var total := DocumentTotal(std).value;
    if NumValue(total) > 0.0 {
      assert final["documents" := total] == final;
    }
  }

  /** Normalising an already normalised sources block gives it back. */
  lemma NormalizedSourcesStable(src: Value, models: nat)
    requires NormalizedSources(src, models).Some?
    ensures NormalizedSources(Obj(NormalizedSources(src, models).value), models) == NormalizedSources(src, models)
  {
    var final := NormalizedSources(src, models).value;
    NormalizedSourcesKeys(src, models);
    StandardOfNormalized(final, models);
    var std := StandardSources(src, models);
    StandardSourcesAt(src, models, "png_files");
    StandardSourcesAt(src, models, "pdf_files");
    StandardSourcesAt(src, models, "md_files");
    FinalSourcesStable(std);
  }

  /** Normalising the metadata of an already normalised draft changes nothing. */
  lemma MetadataIdempotent(draft: Record)
    requires ExtractionMetadata(draft).Some?
    ensures ExtractionMetadata(ExtractionMetadata(draft).value) == ExtractionMetadata(draft)
  {
    var r := ExtractionMetadata(draft).value;
    var src := GetOr(draft, "sources", Obj(map[]));
    var n := PyLen(GetOr(draft, "models", Obj(map[]))).value;
    var final := NormalizedSources(src, n).value;
    assert GetOr(r, "models", Obj(map[])) == GetOr(draft, "models", Obj(map[]));
    assert GetOr(r, "sources", Obj(map[])) == Obj(final);
    NormalizedSourcesStable(src, n);
    assert r["sources" := Obj(final)] == r;
  }

  // ---------------------------------------------------------------------
  // validate_required_fields
  // ---------------------------------------------------------------------

  const REQUIRED_FIELDS: seq<string> :=
    ["provider", "model_name", "display_name", "dollars_per_million_tokens_input",
     "dollars_per_million_tokens_output", "is_active"]

  /** The required fields that must also not be None. */
  const NON_NULL_FIELDS: seq<string> := ["provider", "model_name", "display_name"]

  /** What validate_required_fields reports for one field, if anything. */
  function MissingEntry(model: Record, f: string): Option<string>
  {
    if f !in model then Some(f)
    else if model[f] == Null && f in NON_NULL_FIELDS then Some(f + " (is null)")
    else None
  }

  /** The report for the fields `fs`, in their order. */
  function MissingFields(model: Record, fs: seq<string>): seq<string>
    decreases |fs|
  {
    if fs == [] then []
    else
      var e := MissingEntry(model, fs[|fs| - 1]);
      MissingFields(model, fs[..|fs| - 1]) + (if e.Some? then [e.value] else [])
  }

  method ValidateRequiredFields(model: Record) returns (missing: seq<string>)
    ensures missing == MissingFields(model, REQUIRED_FIELDS)
  {
    missing := [];
    for i := 0 to |REQUIRED_FIELDS|
      invariant missing == MissingFields(model, REQUIRED_FIELDS[..i])
    {
      assert REQUIRED_FIELDS[..i + 1][..i] == REQUIRED_FIELDS[..i];
      var field := REQUIRED_FIELDS[i];
      if field !in model {
        missing := missing + [field];
      } else if model[field] == Null && field in NON_NULL_FIELDS {
        missing := missing + [field + " (is null)"];
      }
    }
    assert REQUIRED_FIELDS[..|REQUIRED_FIELDS|] == REQUIRED_FIELDS;
  }

  /** The report is empty exactly when no field has an entry; it has at most one entry per field. */
  lemma {:induction false} MissingFieldsEmpty(model: Record, fs: seq<string>)
    ensures MissingFields(model, fs) == [] <==> forall f :: f in fs ==> MissingEntry(model, f).None?
    ensures |MissingFields(model, fs)| <= |fs|
    ensures forall f :: f in fs && f !in model ==> f in MissingFields(model, fs)
    decreases |fs|
  {
    if fs != [] {
      MissingFieldsEmpty(model, fs[..|fs| - 1]);
      assert forall x :: x in fs <==> x in fs[..|fs| - 1] || x == fs[|fs| - 1];
    }
  }

  /**
   * validate_required_fields reports nothing exactly when all six required
   * fields are present and provider, model_name and display_name are not None.
   */
  lemma RequiredFieldsValid(model: Record)
    ensures MissingFields(model, REQUIRED_FIELDS) == [] <==>
      (forall f :: f in REQUIRED_FIELDS ==> f in model) && (forall f :: f in NON_NULL_FIELDS ==> model[f] != Null)
    ensures |MissingFields(model, REQUIRED_FIELDS)| <= 6
  {
    MissingFieldsEmpty(model, REQUIRED_FIELDS);
    assert forall f :: f in NON_NULL_FIELDS ==> f in REQUIRED_FIELDS;
  }

  // ---------------------------------------------------------------------
  // normalize_draft_file
  // ---------------------------------------------------------------------

  /** What the loop of normalize_draft_file stores for one model entry; None where it raises. */
  function NormalizedEntry(v: Value, p: Parsers): Option<Value>
  {
    if v.Obj? then
      match Normalize(v.fields, p)
      case None => None
      case Some(m) => Some(Obj(m))
    else None
  }

  /** Every model entry is a dict that normalize_model_data accepts. */
  predicate ModelsNormalizable(models: map<string, Value>, p: Parsers)
  {
    forall k :: k in models ==> NormalizedEntry(models[k], p).Some?
  }

  /** The per-model loop of normalize_draft_file; None where a model raises. */
  function NormalizedModels(models: map<string, Value>, p: Parsers): Option<map<string, Value>>
  {
    if ModelsNormalizable(models, p) then Some(map k | k in models :: NormalizedEntry(models[k], p).value)
    else None
  }

  /** normalize_draft_file; None where Python raises. */
  function DraftNormalized(draft: Record, p: Parsers): Option<Record>
  {
    match ExtractionMetadata(draft)
    case None => None
    case Some(n) =>
      if "models" in n && n["models"].Obj? then
        match NormalizedModels(n["models"].fields, p)
        case None => None
        case Some(ms) => Some(n["models" := Obj(ms)])
      else Some(n)
  }

  /** Normalises every model of a draft; dict order is immaterial since the entries are independent. */
  method NormalizeModels(models: map<string, Value>, p: Parsers) returns (r: Option<map<string, Value>>)
    ensures r == NormalizedModels(models, p)
  {
    var normalizedModels: map<string, Value> := map[];
    var todo := models.Keys;
    while todo != {}
      invariant todo <= models.Keys
      invariant normalizedModels.Keys == models.Keys - todo
      invariant forall k :: k in normalizedModels ==>
        NormalizedEntry(models[k], p) == Some(normalizedModels[k])
      decreases todo
    {
      var key :| key in todo;
      var modelData := models[key];
      if !modelData.Obj? {
        // copy() or get() on a non-dict raises
        assert NormalizedEntry(models[key], p).None?;
        return None;
      }
      var m := NormalizeModelData(modelData.fields, p);
      if m.None? {
        assert NormalizedEntry(models[key], p).None?;
        return None;
      }
      normalizedModels := normalizedModels[key := Obj(m.value)];
      todo := todo - {key};
    }
    assert normalizedModels == map k | k in models :: NormalizedEntry(models[k], p).value;
    r := Some(normalizedModels);
  }

  method NormalizeDraftFile(draft: Record, p: Parsers) returns (r: Option<Record>)
    ensures r == DraftNormalized(draft, p)
  {
    r := NormalizeExtractionMetadata(draft);
    if r.None? {
      return;
    }
    var normalized := r.value;
    if "models" in normalized && normalized["models"].Obj? {
      var models := NormalizeModels(normalized["models"].fields, p);
      if models.None? {
        return None;
      }
      r := Some(normalized["models" := Obj(models.value)]);
    }
  }

  /**
   * normalize_draft_file keeps the same model keys and stores, under each,
   * exactly what normalize_model_data makes of the original record.
   */
  lemma DraftModels(draft: Record, p: Parsers)
    requires DraftNormalized(draft, p).Some?
    requires "models" in draft && draft["models"].Obj?
    ensures var r := DraftNormalized(draft, p).value;
      var models := draft["models"].fields;
      && "models" in r && r["models"].Obj?
      && r["models"].fields.Keys == models.Keys
      && forall k :: k in models ==>
           models[k].Obj? && Normalize(models[k].fields, p).Some? &&
           r["models"].fields[k] == Obj(Normalize(models[k].fields, p).value)
  {
    MetadataShape(draft);
  }

  /** It raises exactly when the metadata step raises or some model cannot be normalised. */
  lemma DraftRaises(draft: Record, p: Parsers)
    requires "models" in draft && draft["models"].Obj?
    ensures DraftNormalized(draft, p).None? <==>
      ExtractionMetadata(draft).None? || !ModelsNormalizable(draft["models"].fields, p)
  {
    if ExtractionMetadata(draft).Some? {
      MetadataShape(draft);
    }
  }

  // ---------------------------------------------------------------------
  // generate_schema_report
  // ---------------------------------------------------------------------

  /** One finding about one model; the source renders each as a message string. */
  datatype Issue =
    | MissingRequired(fields: seq<string>)
    | NotArray(field: string)
    | NotBoolean(field: string)
    | NullCount(field: string)
    | InvalidInputPrice(price: Value)
    | InvalidOutputPrice(price: Value)

  datatype ModelIssues = ModelIssues(model: string, issues: seq<Issue>)

  datatype SchemaReport = SchemaReport(totalModels: nat, modelsWithIssues: nat, complianceRate: real, issues: seq<ModelIssues>)

  /** The three per-field checks of the report. */
  datatype Check = ArrayCheck | BooleanCheck | NullCheck

  const REPORT_ARRAY_FIELDS: seq<string> := ["model_aliases", "recommended_use_cases"]
  const REPORT_BOOLEAN_FIELDS: seq<string> := ["supports_vision", "supports_function_calling", "is_active"]
  const REPORT_COUNT_FIELDS: seq<string> := ["max_input_tokens", "max_output_tokens"]

  /** What one check finds about one field. */
  function CheckField(c: Check, model: Record, f: string): Option<Issue>
  {
    var v := Get(model, f);
    match c
    case ArrayCheck => if v != Null && !v.List? then Some(NotArray(f)) else None
    case BooleanCheck => if v != Null && !v.Bool? then Some(NotBoolean(f)) else None
    case NullCheck => if v == Null then Some(NullCount(f)) else None
  }

  /** What one check finds over the fields `fs`, in their order. */
  function FieldIssues(c: Check, model: Record, fs: seq<string>): seq<Issue>
    decreases |fs|
  {
    if fs == [] then []
    else
      var e := CheckField(c, model, fs[|fs| - 1]);
      FieldIssues(c, model, fs[..|fs| - 1]) + (if e.Some? then [e.value] else [])
  }

  /** A price is reported when it is present and not positive; None where `<= 0` raises. */
  function PriceIssue(price: Value, input: bool): Option<seq<Issue>>
  {
    if price == Null then Some([])
    else match LeZero(price)
      case None => None
      case Some(bad) =>
        Some(if !bad then [] else if input then [InvalidInputPrice(price)] else [InvalidOutputPrice(price)])
  }

  /** All issues of one model record, in the source's order; None where the checks raise. */
  function IssuesOf(model: Record): Option<seq<Issue>>
  {
    var missing := MissingFields(model, REQUIRED_FIELDS);
    var found := (if missing != [] then [MissingRequired(missing)] else [])
      + FieldIssues(ArrayCheck, model, REPORT_ARRAY_FIELDS)
      + FieldIssues(BooleanCheck, model, REPORT_BOOLEAN_FIELDS)
      + FieldIssues(NullCheck, model, REPORT_COUNT_FIELDS);
    match PriceIssue(Get(model, "dollars_per_million_tokens_input"), true)
    case None => None
    case Some(inputIssues) =>
      match PriceIssue(Get(model, "dollars_per_million_tokens_output"), false)
      case None => None
      case Some(outputIssues) => Some(found + inputIssues + outputIssues)
  }

  /** The models of a draft can be reported on: a dict of dicts none of whose checks raise. */
  predicate Reportable(draft: Record)
  {
    var models := GetOr(draft, "models", Obj(map[]));
    models.Obj? && ModelsReportable(models.fields)
  }

  predicate ModelsReportable(models: map<string, Value>)
  {
    Checkable(models, ModelIssuesOf)
  }

  /** The checks of one model entry; None where they raise, as they do on anything but a dict. */
  function ModelIssuesOf(v: Value): Option<seq<Issue>>
  {
    if v.Obj? then IssuesOf(v.fields) else None
  }

  /** `check` does not raise on any model. */
  predicate Checkable<V>(models: map<string, V>, check: V -> Option<seq<Issue>>)
  {
    forall k :: k in models ==> check(models[k]).Some?
  }

  /**
   * The report's entries are exactly the models on which `check` finds at
   * least one issue, each listed once with all of its issues.
   */
  ghost predicate IssuesCover<V>(models: map<string, V>, issues: seq<ModelIssues>, check: V -> Option<seq<Issue>>)
    requires Checkable(models, check)
  {
    && (forall i :: 0 <= i < |issues| ==>
          var k := issues[i].model;
          k in models && check(models[k]) == Some(issues[i].issues) && issues[i].issues != [])
    && (forall k :: k in models && check(models[k]).value != [] ==>
          exists i :: 0 <= i < |issues| && issues[i].model == k)
    && (forall i, j :: 0 <= i < j < |issues| ==> issues[i].model != issues[j].model)
  }

  /** One of the per-field loops of the report. */
  method CheckFields(c: Check, model: Record, fs: seq<string>) returns (issues: seq<Issue>)
    ensures issues == FieldIssues(c, model, fs)
  {
    issues := [];
    for i := 0 to |fs|
      invariant issues == FieldIssues(c, model, fs[..i])
    {
      assert fs[..i + 1][..i] == fs[..i];
      var e := CheckField(c, model, fs[i]);
      if e.Some? {
        issues := issues + [e.value];
      }
    }
    assert fs[..|fs|] == fs;
  }

  /** The body of the report's loop for one model. */
  method CheckModel(model: Record) returns (issues: Option<seq<Issue>>)
    ensures issues == IssuesOf(model)
  {
    var found: seq<Issue> := [];
    var missing := ValidateRequiredFields(model);
    if missing != [] {
      found := found + [MissingRequired(missing)];
    }
    var arrays := CheckFields(ArrayCheck, model, REPORT_ARRAY_FIELDS);
    var booleans := CheckFields(BooleanCheck, model, REPORT_BOOLEAN_FIELDS);
    var counts := CheckFields(NullCheck, model, REPORT_COUNT_FIELDS);
    found := found + arrays + booleans + counts;
    assert found == (if MissingFields(model, REQUIRED_FIELDS) != [] then [MissingRequired(MissingFields(model, REQUIRED_FIELDS))] else [])
      + FieldIssues(ArrayCheck, model, REPORT_ARRAY_FIELDS)
      + FieldIssues(BooleanCheck, model, REPORT_BOOLEAN_FIELDS)
      + FieldIssues(NullCheck, model, REPORT_COUNT_FIELDS);
    var inputIssues := PriceIssue(Get(model, "dollars_per_million_tokens_input"), true);
    if inputIssues.None? {
      return None;
    }
    var outputIssues := PriceIssue(Get(model, "dollars_per_million_tokens_output"), false);
    if outputIssues.None? {
      return None;
    }
    issues := Some(found + inputIssues.value + outputIssues.value);
  }

  /**
   * The loop of generate_schema_report, running the per-model checks `check`
   * (IssuesOf, as CheckModel computes it). Dict order is not modelled, so the
   * models are visited in an unspecified order and the contract says nothing
   * about the order of the entries.
   */
  method CollectIssues<V>(models: map<string, V>, check: V -> Option<seq<Issue>>) returns (r: Option<seq<ModelIssues>>)
    ensures r.Some? <==> Checkable(models, check)
    ensures r.Some? ==> IssuesCover(models, r.value, check) && |r.value| <= |models.Keys|
  {
    var issues: seq<ModelIssues> := [];
    var todo := models.Keys;
    ghost var position: map<string, nat> := map[];
    while todo != {}
      invariant todo <= models.Keys
      invariant position.Keys <= models.Keys - todo
      invariant |issues| == |position.Keys|
      invariant forall k :: k in models && k !in todo ==> check(models[k]).Some?
      invariant forall i :: 0 <= i < |issues| ==>
        var k := issues[i].model;
        k in position && position[k] == i && check(models[k]) == Some(issues[i].issues) && issues[i].issues != []
      invariant forall k :: k in models && k !in todo && check(models[k]).value != [] ==>
        k in position && position[k] < |issues| && issues[position[k]].model == k
      decreases todo
    {
      var key :| key in todo;
      var found := check(models[key]);
      if found.None? {
        return None;
      }
      if found.value != [] {
        position := position[key := |issues|];
        issues := issues + [ModelIssues(key, found.value)];
      }
      todo := todo - {key};
    }
    SubsetCardinality(position.Keys, models.Keys);
    r := Some(issues);
    forall k | k in models && check(models[k]).value != []
      ensures exists i :: 0 <= i < |issues| && issues[i].model == k
    {
      assert issues[position[k]].model == k;
    }
  }

  /** The share of models without issues; 0 for an empty draft. */
  function ComplianceRate(total: nat, withIssues: nat): real
  {
    if total > 0 then (total - withIssues) as real / total as real else 0.0
  }

  /** The rate is a proportion: 1 exactly when no model has issues, 0 exactly when all do. */
  lemma ComplianceRateBounds(total: nat, withIssues: nat)
    requires withIssues <= total
    ensures 0.0 <= ComplianceRate(total, withIssues) <= 1.0
    ensures total > 0 ==> (ComplianceRate(total, withIssues) == 1.0 <==> withIssues == 0)
    ensures total > 0 ==> (ComplianceRate(total, withIssues) == 0.0 <==> withIssues == total)
  {
    if total > 0 {
      var t := total as real;
      var rate := ComplianceRate(total, withIssues);
      assert rate * t == (total - withIssues) as real;
    }
  }

  /** generate_schema_report; None where Python raises. */
  method GenerateSchemaReport(draft: Record) returns (r: Option<SchemaReport>)
    ensures r.Some? <==> Reportable(draft)
    ensures r.Some? ==>
      var models := GetOr(draft, "models", Obj(map[])).fields;
      var rep := r.value;
      && rep.totalModels == |models.Keys|
      && rep.modelsWithIssues == |rep.issues| <= rep.totalModels
      && rep.complianceRate == ComplianceRate(rep.totalModels, rep.modelsWithIssues)
      && IssuesCover(models, rep.issues, ModelIssuesOf)
  {
    var modelsValue := GetOr(draft, "models", Obj(map[]));
    if !modelsValue.Obj? {
      // len() or items() on anything but a dict raises
      return None;
    }
    var models := modelsValue.fields;
    var total := |models.Keys|;
    var issues := CollectIssues(models, ModelIssuesOf);
    if issues.None? {
      return None;
    }
    var modelsWithIssues := |issues.value|;
    var rate := ComplianceRate(total, modelsWithIssues);
    r := Some(SchemaReport(total, modelsWithIssues, rate, issues.value));
  }

  lemma {:induction false} FieldIssuesEmpty(c: Check, model: Record, fs: seq<string>)
    ensures FieldIssues(c, model, fs) == [] <==> forall f :: f in fs ==> CheckField(c, model, f).None?
    decreases |fs|
  {
    if fs != [] {
      FieldIssuesEmpty(c, model, fs[..|fs| - 1]);
      assert forall x :: x in fs <==> x in fs[..|fs| - 1] || x == fs[|fs| - 1];
    }
  }

  /** A price the report accepts: absent, None, or a positive number. */
  predicate PriceOk(price: Value)
  {
    price == Null || (IsNumber(price) && NumValue(price) > 0.0)
  }

  /** The checks raise exactly when a price is present but is not a number. */
  lemma IssuesOfRaises(model: Record)
    ensures IssuesOf(model).None? <==>
      var input := Get(model, "dollars_per_million_tokens_input");
      var output := Get(model, "dollars_per_million_tokens_output");
      (input != Null && !IsNumber(input)) || (output != Null && !IsNumber(output))
  {
  }

  /**
   * A model is reported clean exactly when its required fields are there,
   * the two array fields are lists or None, the three boolean fields are
   * booleans or None, both token counts are set, and both prices are None or
   * positive.
   */
  lemma IssuesOfClean(model: Record)
    ensures IssuesOf(model) == Some([]) <==>
      && MissingFields(model, REQUIRED_FIELDS) == []
      && (forall f :: f in REPORT_ARRAY_FIELDS ==> Get(model, f) == Null || Get(model, f).List?)
      && (forall f :: f in REPORT_BOOLEAN_FIELDS ==> Get(model, f) == Null || Get(model, f).Bool?)
      && (forall f :: f in REPORT_COUNT_FIELDS ==> Get(model, f) != Null)
      && PriceOk(Get(model, "dollars_per_million_tokens_input"))
      && PriceOk(Get(model, "dollars_per_million_tokens_output"))
  {
    FieldIssuesEmpty(ArrayCheck, model, REPORT_ARRAY_FIELDS);
    FieldIssuesEmpty(BooleanCheck, model, REPORT_BOOLEAN_FIELDS);
    FieldIssuesEmpty(NullCheck, model, REPORT_COUNT_FIELDS);
  }

  /** A present price that is not positive is always reported, with its value. */
  lemma IssuesOfReportsPrices(model: Record)
    requires IssuesOf(model).Some?
    ensures var input := Get(model, "dollars_per_million_tokens_input");
      input != Null && NumValue(input) <= 0.0 ==> InvalidInputPrice(input) in IssuesOf(model).value
    ensures var output := Get(model, "dollars_per_million_tokens_output");
      output != Null && NumValue(output) <= 0.0 ==> InvalidOutputPrice(output) in IssuesOf(model).value
  {
    IssuesOfRaises(model);
  }
}

=== FILE: sets.dfy ===
/** Facts about finite sets that counting arguments in the registry code need. */
module Sets {

  /** A subset has no more elements than its superset. */
  lemma {:induction false} SubsetCardinality<T>(a: set<T>, b: set<T>)
    requires a <= b
    ensures |a| <= |b|
    decreases a
  {
    if a != {} {
      var x :| x in a;
      SubsetCardinality(a - {x}, b - {x});
    }
  }

  /** A sequence without repetitions has as many distinct elements as it has positions. */
  lemma {:induction false} DistinctSeqCardinality<T>(s: seq<T>)
    requires forall i, j :: 0 <= i < j < |s| ==> s[i] != s[j]
    ensures |set x | x in s| == |s|
    decreases |s|
  {
    if s != [] {
      var init := s[..|s| - 1];
      DistinctSeqCardinality(init);
      var last := s[|s| - 1];
      assert last !in init;
      assert (set x | x in s) == (set x | x in init) + {last};
    }
  }
}

=== FILE: strings.dfy ===
/**
 * The string operations the registry code uses: prefix/suffix/substring
 * tests, ASCII lower-casing, `split`, pathlib's file suffix, and Python's
 * `sorted` on strings (code-point lexicographic order).
 */
module Strings {

  predicate StartsWith(s: string, prefix: string)
  {
    |prefix| <= |s| && s[..|prefix|] == prefix
  }

  predicate EndsWith(s: string, suffix: string)
  {
    |suffix| <= |s| && s[|s| - |suffix|..] == suffix
  }

  /** `sub in s`: `sub` occurs in `s` at some offset. */
  predicate Contains(s: string, sub: string)
  {
    exists i :: 0 <= i <= |s| && StartsWith(s[i..], sub)
  }

  function LowerChar(c: char): char
  {
    if 'A' <= c <= 'Z' then (c as int + 32) as char else c
  }

  /** `s.lower()` on ASCII letters. */
  function Lower(s: string): (r: string)
    ensures |r| == |s|
    ensures forall k :: 0 <= k < |s| ==> r[k] == LowerChar(s[k])
  {
    seq(|s|, k requires 0 <= k < |s| => LowerChar(s[k]))
  }

  /** Index of the last occurrence of `c` in `s`, or -1: `s.rfind(c)`. */
  function RFind(s: string, c: char): (i: int)
    ensures -1 <= i < |s|
    ensures i >= 0 ==> s[i] == c
    ensures forall k :: i < k < |s| ==> s[k] != c
  {
    if s == [] then -1
    else if s[|s| - 1] == c then |s| - 1
    else RFind(s[..|s| - 1], c)
  }

  /** Index of the first occurrence of `c` in `s`, or |s| when absent. */
  function FindFirst(s: string, c: char): (i: nat)
    ensures i <= |s|
    ensures i < |s| ==> s[i] == c
    ensures forall k :: 0 <= k < i ==> s[k] != c
  {
    if s == [] then 0
    else if s[0] == c then 0
    else 1 + FindFirst(s[1..], c)
  }

  /**
   * `PurePath(name).suffix`: from the last dot to the end, unless that dot is
   * the first or the last character of the name.
   */
  function Suffix(name: string): string
  {
    var i := RFind(name, '.');
    if 0 < i < |name| - 1 then name[i..] else ""
  }

  /** `name.split('.')[0]`. */
  function BeforeFirstDot(name: string): string
  {
    name[..FindFirst(name, '.')]
  }

  /** The characters `str.strip()` removes: Python's Unicode whitespace. */
  predicate IsSpace(c: char)
  {
    c == ' ' || '\t' <= c <= '\r' || '\U{001c}' <= c <= '\U{001f}' || c == '\U{0085}' || c == '\U{00a0}' ||
    c == '\U{1680}' || '\U{2000}' <= c <= '\U{200a}' || c == '\U{2028}' || c == '\U{2029}' || c == '\U{202f}' ||
    c == '\U{205f}' || c == '\U{3000}'
  }

  predicate AllSpace(s: string)
  {
    forall k :: 0 <= k < |s| ==> IsSpace(s[k])
  }

  /** Neither end of `s` is whitespace. */
  predicate Stripped(s: string)
  {
    s == [] || (!IsSpace(s[0]) && !IsSpace(s[|s| - 1]))
  }

  function StripLeading(s: string): (r: string)
    ensures |r| <= |s| && r == s[|s| - |r|..] && AllSpace(s[..|s| - |r|])
    ensures r == [] || !IsSpace(r[0])
  {
    if s != [] && IsSpace(s[0]) then
      var r := StripLeading(s[1..]);
      var n := |s| - |r|;
      assert s[1..][..n - 1] == s[1..n];
      assert forall k :: 1 <= k < n ==> s[k] == s[1..n][k - 1];
      r
    else s
  }

  function StripTrailing(s: string): (r: string)
    ensures |r| <= |s| && s == r + s[|r|..] && AllSpace(s[|r|..])
    ensures r == [] || !IsSpace(r[|r| - 1])
  {
    if s != [] && IsSpace(s[|s| - 1]) then
      var r := StripTrailing(s[..|s| - 1]);
      assert s[..|s| - 1][|r|..] + [s[|s| - 1]] == s[|r|..];
      r
    else s
  }

  /** `s.strip()`. */
  function Strip(s: string): string
  {
    StripTrailing(StripLeading(s))
  }

  /**
   * `strip` removes only whitespace, and only from the ends: `s` is the result
   * with whitespace before and after, and the result starts and ends with a
   * non-space character.
   */
  lemma StripSpec(s: string)
    ensures Stripped(Strip(s))
    ensures exists i, j :: 0 <= i <= j <= |s| && Strip(s) == s[i..j] && AllSpace(s[..i]) && AllSpace(s[j..])
  {
    var l := StripLeading(s);
    var r := StripTrailing(l);
    var i := |s| - |l|;
    var j := i + |r|;
    assert l == s[i..];
    assert r == l[..|r|];
    assert s[i..j] == r;
    assert s[j..] == l[|r|..];
    if r != [] {
      assert r[0] == l[0];
    }
  }

  /** Text that already starts and ends with non-space characters is left alone. */
  lemma StripOfStripped(s: string)
    requires Stripped(s)
    ensures Strip(s) == s
  {
  }

  /** `strip` is idempotent. */
  lemma StripIdempotent(s: string)
    ensures Strip(Strip(s)) == Strip(s)
  {
    StripSpec(s);
    StripOfStripped(Strip(s));
  }

  /** Code-point lexicographic order, the order of Python's `<` on `str`. */
  predicate LexLess(a: string, b: string)
    decreases |a|
  {
    if a == [] then b != []
    else if b == [] then false
    else if a[0] != b[0] then a[0] < b[0]
    else LexLess(a[1..], b[1..])
  }

  lemma {:induction false} LexLessIrreflexive(a: string)
    ensures !LexLess(a, a)
    decreases |a|
  {
    if a != [] {
      LexLessIrreflexive(a[1..]);
    }
  }

  lemma {:induction false} LexLessTransitive(a: string, b: string, c: string)
    requires LexLess(a, b) && LexLess(b, c)
    ensures LexLess(a, c)
    decreases |a|
  {
    if a != [] && b != [] && c != [] && a[0] == b[0] && b[0] == c[0] {
      LexLessTransitive(a[1..], b[1..], c[1..]);
    }
  }

  lemma {:induction false} LexLessTotal(a: string, b: string)
    requires a != b
    ensures LexLess(a, b) || LexLess(b, a)
    decreases |a|
  {
    if a != [] && b != [] && a[0] == b[0] {
      assert a == [a[0]] + a[1..] && b == [b[0]] + b[1..];
      LexLessTotal(a[1..], b[1..]);
    }
  }

  lemma {:induction false} LexLessAsymmetric(a: string, b: string)
    requires LexLess(a, b)
    ensures !LexLess(b, a)
  {
    if LexLess(b, a) {
      LexLessTransitive(a, b, a);
      LexLessIrreflexive(a);
    }
  }

  /** Strictly increasing in code-point order, hence also free of duplicates. */
  predicate SortedStrictly(s: seq<string>)
  {
    forall i, j :: 0 <= i < j < |s| ==> LexLess(s[i], s[j])
  }

  /** The least element of a non-empty finite set of strings. */
  method MinString(s: set<string>) returns (m: string)
    requires s != {}
    ensures m in s
    ensures forall x :: x in s && x != m ==> LexLess(m, x)
  {
    m :| m in s;
    var rest := s - {m};
    while rest != {}
      invariant m in s
      invariant rest <= s
      invariant forall x :: x in s - rest && x != m ==> LexLess(m, x)
      decreases rest
    {
      var x :| x in rest;
      if x != m && LexLess(x, m) {
        forall y | y in s - rest && y != x
          ensures LexLess(x, y)
        {
          if y != m {
            LexLessTransitive(x, m, y);
          }
        }
        m := x;
      } else if x != m {
        LexLessTotal(x, m);
      }
      rest := rest - {x};
    }
  }

  /** `sorted(s)` for a set of strings: its elements in increasing order. */
  method SortStrings(s: set<string>) returns (r: seq<string>)
    ensures SortedStrictly(r)
    ensures forall x :: x in r <==> x in s
    ensures |r| == |s|
  {
    r := [];
    var rest := s;
    while rest != {}
      invariant rest <= s
      invariant SortedStrictly(r)
      invariant forall x :: x in r <==> x in s - rest
      invariant forall i, y :: 0 <= i < |r| && y in rest ==> LexLess(r[i], y)
      invariant |r| + |rest| == |s|
      decreases rest
    {
      var m := MinString(rest);
      forall i, y | 0 <= i < |r| && y in rest - {m}
        ensures LexLess(r[i], y)
      {
      }
      r := r + [m];
      rest := rest - {m};
    }
  }
}

=== FILE: wrappers.dfy ===
/** Failure-carrying results used wherever the Python code raises. */
module Wrappers {

  datatype Option<+T> = None | Some(value: T)
}
